=== FILE: README.md ===
# Rewound Future — gameplay core in Dafny

This project models the gameplay core of a 2D platformer written for the
Unity engine: the state-machine pattern shared by its actors, three
generations of player controller, the crow enemy, damage, attacks, one-way
platforms, doors between scenes and the old time-zone manager.  Every
module is a set of pure functions over immutable records, and the engine's
services are parameters:

- `Physics2D.Raycast` is a function from origin, direction and length to a
  ray result. The world is static within one update.
- Vector length, normalisation, angles and trigonometry are functions of
  an engine record.
- Time and input arrive as values.
- Random draws arrive as values within the range the engine draws from.

| module | file | models |
|---|---|---|
| `Common` | common.dfy | vectors, `Option`, clamps |
| `StateMachine` | state_machine.dfy | `State.Transition`: exit the old state, switch, enter the new one |
| `Raycast` | raycast.dfy | ray results, the nearest-hit reduction, parallel ray batches, edge spacing |
| `KinematicPlayer` | kinematic_player.dfy | `Entities/PlayerController.cs`: the ray-cast kinematic controller with slopes and an air jump |
| `PrototypePlayer` | prototype_player.dfy | `Entities/PlayerController1.cs`: the first version of that controller |
| `LegacyPlayer` | legacy_player.dfy | `PlayerController.cs`: the curve-driven controller with run wind-up and a double jump |
| `Crow` | crow.dfy | `CrowEnemy.cs`: sight, patrol, alert hovering, feather fan and swoop |
| `EnemyBasic` | enemy_basic.dfy | `EnemyBasic.TakeDamage` over the `Stats` record, with 32-bit arithmetic |
| `TriggerDamage` | trigger_damage.dfy | the damage trigger's lifetime and its hits |
| `PlayerAttack` | player_attack.dfy | spawning the light attack's damage trigger |
| `OneWayPlatform` | one_way_platform.dfy | enabling a platform's collider by height |
| `Door` | door.dfy | leaving through a door, and placing the player in the next scene |
| `TimeManager` | time_manager.dfy | the zone-to-time-scale mapping |

## How the model reads the code

**State objects.** A C# state is an object with its own fields, and every
transition builds a fresh one. The model keeps each actor's per-state
fields in the actor record. Every transition appends `Exited(old)` and
`Entered(new)` to a trace, so the order of the hooks is visible.

Some updates read their own state object's field after an earlier
transition in the same update. That object is the old one, whose fields
never changed. The model therefore reads such a field from the record as
it was before the update. Examples:

- the Alert state's attack time;
- the Grounded state's previous vertical input.

A transition made inside an `Enter` is a second transition after the
first. The feather attack's return to Alert is one.

**Faults.** A null reference stops the update at that point. The model
says where:

- the crow's missing player;
- a door whose target is absent;
- an empty prefab list.

## Behaviour worth knowing

- **Foot-ray test** (`Entities/PlayerController.cs` line 567). The foot-ray
  test compares two ray results with `==`. That goes through their
  conversion to `bool`, so it holds whenever both rays hit or both miss. It
  does not test whether the foot ray is the nearest one.
  `KinematicPlayer.FootRayTestIsHitParity` and
  `KinematicPlayer.FootRayTestAcceptsFartherFoot` state this.
- **Crow attack after losing sight.** An Alert crow that loses sight of the
  player still attacks in the same update once its attack time has come.
  The attack overrides the switch to IdleAir.
- **One-way platform.** The platform's collider is switched by comparing
  the player's height with the platform's, and by nothing else.
- **Light attack.** It always lasts 0.9 seconds. The configured duration
  is never read. The offset is negated when `xDir` is true, and the legacy
  controller passes true after a rightward input.
- **Double jump on the ground.** Landing while the jump button is held
  skips the landing branch of `JumpReset`, so a double jump earned in the
  air fires as the player touches the ground
  (`LegacyPlayer.DoubleJumpOnTheGround`).
- **Door arrival.** The player placed by a door is whatever object the
  "Player" lookup returns. If that is the new scene's own player, it is
  moved although it is being destroyed, and the persistent player stays
  where it was (`Door.DuplicateLookupMovesTheWrongPlayer`).
- **Time manager.** `Old_TimeManager.UpdateTimeScale` is private and has
  no caller: `Update` is empty, so the scale keeps its initial value.

## Model

| member | source | states |
|---|---|---|
| StateMachine.Transition | Assets/Scripts/State.cs:18-28 | the new state becomes active; the old state's exit runs, then the new state's entry, each once, recorded as exactly one `Exited(old)` followed by `Entered(new)` |
| StateMachine.InertHooks | Assets/Scripts/State.cs:8-15 | the base state's entry and exit leave every actor unchanged |
| StateMachine.LeavingInertState | Assets/Scripts/State.cs:8-28 | leaving a state without exit logic (the start-up placeholder) only runs the new state's entry |
| StateMachine.TwoTransitions | Assets/Scripts/State.cs:18-28 | after two transitions the second target is active, the trace holds both exit/entry pairs in order, and both entries have run |
| StateMachine.RunFollowsProtocol | Assets/Scripts/State.cs:18-28 | any sequence of transitions ends in its last target with the trace of alternating exits and entries (unchanged for no transitions) |
| StateMachine.ProtocolShape | Assets/Scripts/State.cs:18-28 | that trace has two events per transition: the exit of the previously active state, then the entry of the target |
| Raycast.EvaluateRaycasts | Assets/Scripts/Entities/PlayerController.cs:526-552 | the result is a hit iff some ray hit; a hit is no farther than any other hit and strictly nearer than every earlier hit; with no hit it is the last (missed) result |
| Raycast.NearestSpec | Assets/Scripts/Entities/PlayerController.cs:532-548 | the left-to-right reduction from an empty result picks the first nearest hit, or keeps a miss |
| Raycast.ReduceSnoc | Assets/Scripts/Entities/PlayerController.cs:532-548 | reducing a batch with one more ray is one more comparison step on the previous result |
| Raycast.EvaluateFromFirst | Assets/Scripts/Entities/PlayerController1.cs:161-167 | seeding the reduction with the first ray gives the same result as the full reduction, so a hit iff some ray hit |
| Raycast.Against | Assets/Scripts/Entities/PlayerController.cs:597-599 | the resolved coordinate puts the collider's leading edge (offset plus half size in the travel direction) exactly on the contact |
| Raycast.Direction | Assets/Scripts/Entities/PlayerController.cs:558 | the direction factor is +1 exactly for a positive distance, -1 otherwise |
| Raycast.Misses | Assets/Scripts/Entities/PlayerController.cs:343-350 | an uncast batch holds the configured number of empty results and no hit |
| Raycast.EdgeOffsetsSpan | Assets/Scripts/Entities/PlayerController.cs:376-424 | with at least two rays the offsets start `sizeTolerance/2` from one end, stop `sizeTolerance/2` from the other and are equally spaced |
| KinematicPlayer.HorizontalRaycast | Assets/Scripts/Entities/PlayerController.cs:340-430 | exactly `horizontalRays` results; a zero distance casts nothing; otherwise each ray starts at its origin on the leading edge, points along the travel and is `|distance| + skinSize` long |
| KinematicPlayer.VerticalRaycast | Assets/Scripts/Entities/PlayerController.cs:433-523 | the same for `verticalRays` rays on the top or bottom edge |
| KinematicPlayer.OriginsSpanEdges | Assets/Scripts/Entities/PlayerController.cs:364-517 | for ray counts between 2 and 15, the origins run from the tolerance inset at one corner to the one at the other in equal steps, on both axes |
| KinematicPlayer.IsGrounded | Assets/Scripts/Entities/PlayerController.cs:712-728 | grounded iff some ray of the downward test batch hits; never with a zero test distance |
| KinematicPlayer.HitsCeiling | Assets/Scripts/Entities/PlayerController.cs:731-746 | under a ceiling iff some ray of the upward test batch hits |
| KinematicPlayer.ResolveX | Assets/Scripts/Entities/PlayerController.cs:585-611 | on a hit the player's edge rests on the contact point; otherwise it moves by exactly the distance; y is untouched |
| KinematicPlayer.ResolveY | Assets/Scripts/Entities/PlayerController.cs:626-650 | the same on the vertical axis, x untouched |
| KinematicPlayer.VerticalMovement | Assets/Scripts/Entities/PlayerController.cs:615-651 | a zero distance does nothing; with no hit the player moves by the distance; with a hit it stops against the nearest contact |
| KinematicPlayer.SlopeCorrection | Assets/Scripts/Entities/PlayerController.cs:657-675 | a correction exists iff vertical speed is zero and the slope is not 90 degrees and at most the maximum angle (equality climbs); it is non-negative and zero for no horizontal travel |
| KinematicPlayer.UpwardSlope | Assets/Scripts/Entities/PlayerController.cs:654-679 | without a correction, or with no horizontal travel, the player is not moved; x never changes; with a correction the player is lifted by the vertical movement of that correction, so under an open ceiling it rises by exactly the correction |
| KinematicPlayer.FootRayTest | Assets/Scripts/Entities/PlayerController.cs:567 | the guard of the slope logic as written: the nearest result and the foot ray either both hit or both miss |
| KinematicPlayer.FootRayTestIsHitParity | Assets/Scripts/Entities/PlayerController.cs:567 | the foot test as written holds iff the foot ray hits exactly when some ray hits |
| KinematicPlayer.FootRayTestAcceptsFartherFoot | Assets/Scripts/Entities/PlayerController.cs:564-567 | the foot test passes for a batch whose nearest hit is not the foot ray |
| KinematicPlayer.HorizontalMovement | Assets/Scripts/Entities/PlayerController.cs:555-612 | a zero distance does nothing; when the foot test fails, or the player is moving vertically, the move is resolved against the first cast's nearest hit without a slope lift |
| KinematicPlayer.DownwardSlope | Assets/Scripts/Entities/PlayerController.cs:682-709 | it snaps down onto the nearest ground contact within `maxSlopeSnapDistance` exactly when vertical speed is zero, the player was grounded and no longer is, and some snap ray hits; otherwise nothing moves |
| KinematicPlayer.Enter | Assets/Scripts/Entities/PlayerController.cs:105-112 | Grounded entry zeroes vertical speed and records the vertical input; Jumping entry sets the jump speed and the deadline now plus `jumpingTime`; Falling keeps the velocity |
| KinematicPlayer.GroundedUpdate | Assets/Scripts/Entities/PlayerController.cs:114-147 | horizontal speed is input times speed; it jumps iff no ceiling and the vertical input rises above zero and its previous value; otherwise it falls iff not grounded; drop-down iff the input is negative |
| KinematicPlayer.JumpingUpdate | Assets/Scripts/Entities/PlayerController.cs:171-193 | it falls iff under a ceiling, the input is not positive or the deadline has passed; a ceiling zeroes the vertical speed |
| KinematicPlayer.FallSpeed | Assets/Scripts/Entities/PlayerController.cs:219-229 | gravity is subtracted, a rising speed under a ceiling becomes zero, and the result is never below `-terminalVelocity` |
| KinematicPlayer.FallingUpdate | Assets/Scripts/Entities/PlayerController.cs:210-268 | it lands iff grounded (clearing the air-jump flag and vertical speed); it air-jumps iff the flag is clear, no ceiling, the input rises, and it does not land; the flag is set by the air jump |
| KinematicPlayer.StateUpdate | Assets/Scripts/Entities/PlayerController.cs:324 | every state sets horizontal speed from input and none moves the player; the placeholder does nothing |
| KinematicPlayer.Start | Assets/Scripts/Entities/PlayerController.cs:274-316 | the player starts Falling at rest, through one exit/entry pair |
| KinematicPlayer.FixedUpdate | Assets/Scripts/Entities/PlayerController.cs:319-337 | state, trace and velocity are the state update's; `previouslyGrounded` is the grounded test at the new position; the recorded delta is the displacement; a player moving vertically whose horizontal cast and following vertical cast hit nothing is displaced by exactly the new velocity times the time step |
| KinematicPlayer.Integrate | Assets/Scripts/Entities/PlayerController.cs:326-336 | the movement half keeps state, trace and velocity, sets the grounded flag at the new position and the delta to the displacement, and in open space displaces by velocity times the time step |
| KinematicPlayer.Move | Assets/Scripts/Entities/PlayerController.cs:326-331 | horizontal move, vertical move from there and downward snap together displace by exactly the requested distance when the player moves vertically through open space |
| KinematicPlayer.OpenSpaceMove | Assets/Scripts/Entities/PlayerController.cs:326-328 | with neither cast hitting, the horizontal and the vertical move together displace by exactly the requested distance |
| KinematicPlayer.FallThenJumpInOneUpdate | Assets/Scripts/Entities/PlayerController.cs:123-133 | a Grounded player off the ground with a rising input passes through Falling into Jumping within one update |
| KinematicPlayer.AirJumpBookkeeping | Assets/Scripts/Entities/PlayerController.cs:232-253 | an air jump needs the flag clear and sets it; the flag stays set until a landing |
| KinematicPlayer.AtMostOneAirJumpPerLanding | Assets/Scripts/Entities/PlayerController.cs:232-253 | over any run of updates without a landing there is at most one air jump, and none once the flag is set |
| PrototypePlayer.HorizontalRays | Assets/Scripts/Entities/PlayerController1.cs:140-159 | exactly `horizontalRays` rays from the leading edge, downward from the top, each along the travel and `|dx| + skinSize` long |
| PrototypePlayer.VerticalRays | Assets/Scripts/Entities/PlayerController1.cs:191-210 | exactly `verticalRays` rays along the top or bottom edge |
| PrototypePlayer.OriginsSpanEdges | Assets/Scripts/Entities/PlayerController1.cs:140-142 | the origins are inset by the skin and the tolerance and span the edge in equal steps |
| PrototypePlayer.HorizontalPass | Assets/Scripts/Entities/PlayerController1.cs:138-186 | a zero component is skipped; with no hit the player moves by it; with a hit it rests against the nearest contact |
| PrototypePlayer.VerticalPass | Assets/Scripts/Entities/PlayerController1.cs:189-237 | the same on the vertical axis |
| PrototypePlayer.Move | Assets/Scripts/Entities/PlayerController1.cs:133-238 | the vertical pass starts where the horizontal one ended; in open space the player moves by exactly the displacement |
| PrototypePlayer.Enter | Assets/Scripts/Entities/PlayerController1.cs:36-70 | Grounded entry sets vertical speed -1; Jumping entry sets 2 and the deadline now plus 0.2 |
| PrototypePlayer.StateUpdate | Assets/Scripts/Entities/PlayerController1.cs:41-103 | horizontal speed is input times 5; Grounded jumps iff the input is positive; Jumping falls iff the input is not positive or the deadline passed; Falling loses 0.2 per update and never leaves |
| PrototypePlayer.Start | Assets/Scripts/Entities/PlayerController1.cs:109-123 | the player starts Grounded with vertical speed -1 |
| PrototypePlayer.FixedUpdate | Assets/Scripts/Entities/PlayerController1.cs:126-131 | the state update runs, then the player moves by its velocity times the frame time |
| PrototypePlayer.StatesOnlyMoveForward | Assets/Scripts/Entities/PlayerController1.cs:85-103 | states only go Grounded, Jumping, Falling in that order over any run, and after n updates in Falling the vertical speed has lost 0.2 n |
| PrototypePlayer.JumpNeverOutlivesDeadline | Assets/Scripts/Entities/PlayerController1.cs:72-82 | a jump past its deadline falls in the next update |
| LegacyPlayer.Start | Assets/Scripts/PlayerController.cs:66-74 | the jump time and height start at the configured values; the player can move and no jump is armed |
| LegacyPlayer.InputUpdate | Assets/Scripts/PlayerController.cs:135-150 | a locked player reads zero and does not attack; otherwise x is the axis and y is 1 or 0 for the jump button; fire starts a light attack facing the last flip and locks movement |
| LegacyPlayer.AnimationUpdate | Assets/Scripts/PlayerController.cs:85-122 | the facing follows the sign of x and stays on zero; Jumping turns into Falling; nothing else changes |
| LegacyPlayer.MoveUpdate | Assets/Scripts/PlayerController.cs:158-191 | the wind-up multiplier stays in [0,1], grows by `|x|` times `runWindupScale` (saturating at 1) on non-zero input, decays by `runDecayScale` on zero input, `|lastX| <= 1`, a zero multiplier clears `lastX` and does not move, and a step is at most speed times frame time |
| LegacyPlayer.WindUp | Assets/Scripts/PlayerController.cs:163-182 | the wind-up multiplier after one step always lies in [0,1]; with horizontal input it grows by `|x|` times `runWindupScale`, reaching exactly 1 once the sum does (and 0 if the sum is not positive); with no input it drops by `runDecayScale`, stopping at zero |
| LegacyPlayer.RunDirection | Assets/Scripts/PlayerController.cs:163-187 | the remembered direction stays in [-1,1]; it is cleared when the multiplier reaches zero, kept when there is no input, and replaced by the clamped scaled input when the input changes |
| LegacyPlayer.RunDisplacement | Assets/Scripts/PlayerController.cs:188-190 | the run step is at most speed times frame time and zero for no input or no wind-up |
| LegacyPlayer.ResetVars | Assets/Scripts/PlayerController.cs:314-321 | the jump is re-armed, cancel and obstruction are cleared, and elapsed time and height are zero |
| LegacyPlayer.JumpReset | Assets/Scripts/PlayerController.cs:256-312 | a landing happens iff on the ground with no jump input, and restores the jump height and time and re-arms the jump; the state becomes Landing on landing iff the jump was used up (not available, or its time overran) or it already was; a double jump needs the jump held (so it never coincides with a landing, and fires on the ground if the player lands holding the button) and none triggered since the last landing, and switches to the double-jump height and the time `jumpTime * doubleJumpHeight / jumpHeight` |
| LegacyPlayer.JumpTranslate | Assets/Scripts/PlayerController.cs:223-241 | the height follows the curve; the player moves by the height change and the body's fall; a head hit cancels the jump and stops vertical speed |
| LegacyPlayer.JumpDecay | Assets/Scripts/PlayerController.cs:248-254 | the vertical speed closes the gap between the curve's height and the current one, scaled by `jumpDecayScale` |
| LegacyPlayer.JumpUpdate | Assets/Scripts/PlayerController.cs:193-241 | rising with time left stays Jumping: the jump clock advances by the frame time (from zero after a double jump), the height follows the curve and the player rises by the height change net of the body's fall, x unchanged; a head hit at the new position clears `canJump`, marks the jump obstructed and stops vertical speed, otherwise the jump stays allowed; releasing early cancels the jump; otherwise the landing/double-jump rules apply; a cancelled jump does not move the player |
| LegacyPlayer.DoubleJumpOnTheGround | Assets/Scripts/PlayerController.cs:287-311 | a player on the ground with an earned double jump and no ground jump left double-jumps, without landing, when the button is held |
| LegacyPlayer.OnGround | Assets/Scripts/PlayerController.cs:323-333 | on the ground iff one of the two 0.2-long downward rays from 0.4 either side of centre, 0.5 below it, hits |
| LegacyPlayer.HeadBlocked | Assets/Scripts/PlayerController.cs:335-345 | blocked iff one of the two 0.2-long upward rays from 0.4 either side of centre, 0.5 above it, hits |
| LegacyPlayer.ReleaseLock | Assets/Scripts/PlayerController.cs:124-133 | the attack lock lifts once its time has passed |
| LegacyPlayer.FixedUpdate | Assets/Scripts/PlayerController.cs:76-83 | an attack spawns only from an unlocked player pressing fire, and locks it; a double jump needs none triggered before; the script's own translations never move a cancelled jump vertically |
| LegacyPlayer.Simulate | Assets/Scripts/PlayerController.cs:76-83 | `|lastX| <= 1` holds after any number of updates |
| LegacyPlayer.AtMostOneDoubleJumpPerLanding | Assets/Scripts/PlayerController.cs:303-311 | over any run without a landing there is at most one double jump, and none once triggered |
| LegacyPlayer.CancelledJumpStaysDown | Assets/Scripts/PlayerController.cs:209-214 | until the player lands or double-jumps, the script's own translations never move a cancelled jump vertically, and the jump stays cancelled (the rigid body's own motion is not modelled) |
| Crow.CanSee | Assets/Scripts/Entities/Enemies/CrowEnemy.cs:391-419 | the player is seen only if it exists, is strictly nearer than the view distance, and a ray towards it of exactly that distance hits no vision blocker |
| Crow.MoveTowards | Assets/Scripts/Entities/Enemies/CrowEnemy.cs:358-368 | a target within speed times frame time is reached exactly; a farther one is approached by that distance along the normalised direction |
| Crow.MoveTowardsIsBounded | Assets/Scripts/Entities/Enemies/CrowEnemy.cs:358-368 | with a normalisation that gives unit length for every non-zero vector, a step is never longer than speed times frame time and reaches a target within that distance |
| Crow.PatrolTargetWithinRadius | Assets/Scripts/Entities/Enemies/CrowEnemy.cs:99-104 | a patrol target lies within `patrolArea.x + patrolArea.y` of the patrol centre |
| Crow.PreferredX | Assets/Scripts/Entities/Enemies/CrowEnemy.cs:175-178 | the preferred x is within half the patrol width of the crow |
| Crow.SpreadIsSymmetric | Assets/Scripts/Entities/Enemies/CrowEnemy.cs:211 | spread factors run from -1 to 1, stay in between, and opposite feathers get opposite factors |
| Crow.SpawnFeathers | Assets/Scripts/Entities/Enemies/CrowEnemy.cs:194-219 | `featherAmount` feathers (none if negative) at the crow, each aimed at the player with its share of the spread; without a player one unaimed feather, then a fault |
| Crow.FeatherFanIsSymmetric | Assets/Scripts/Entities/Enemies/CrowEnemy.cs:203-218 | the fan's outer feathers are turned by half the spread each way from the aim and opposite feathers by opposite amounts |
| Crow.SingleFeatherFliesStraight | Assets/Scripts/Entities/Enemies/CrowEnemy.cs:208-218 | a single feather is aimed straight at the player |
| Crow.SwoopOffset | Assets/Scripts/Entities/Enemies/CrowEnemy.cs:262-271 | the windup point is above the player, on the side behind the crow's facing |
| Crow.Enter | Assets/Scripts/Entities/Enemies/CrowEnemy.cs:70-274 | IdleAir patrols around the crow; Alert schedules the attack one interval ahead; FeatherAttack adds the feathers; Swooping arms the windup; no entry moves the crow or touches another state's fields |
| Crow.IdleGroundUpdate | Assets/Scripts/Entities/Enemies/CrowEnemy.cs:45-53 | it turns Alert iff it sees the player: present, nearer than the view distance, and no blocker on the line |
| Crow.IdleAirUpdate | Assets/Scripts/Entities/Enemies/CrowEnemy.cs:78-97 | it faces the target, moves toward it by `movementSpeed/2*dt` of the remaining distance but never more than `movementSpeed*dt`, keeps its target until within 0.25 of it, on arrival within 0.25 picks a new target around its patrol centre, and turns Alert iff it sees the player from its new position |
| Crow.HoverTarget | Assets/Scripts/Entities/Enemies/CrowEnemy.cs:141-142 | the hover point is `patrolArea.y` above the player and within half the patrol width of it: at the preferred x when that is in range, otherwise at the nearer edge of the range |
| Crow.Track | Assets/Scripts/Entities/Enemies/CrowEnemy.cs:133-150 | the crow faces the player, moves toward the hover point, keeps the attack time, and re-picks its preferred x at its new position only when out of range |
| Crow.Attack | Assets/Scripts/Entities/Enemies/CrowEnemy.cs:159-172 | a feather attack spawns and returns to Alert within the update (or faults without a player); otherwise it starts a swoop |
| Crow.AlertUpdate | Assets/Scripts/Entities/Enemies/CrowEnemy.cs:130-173 | it first tracks the player in sight (its position is the tracked one) or otherwise stays put; before the attack time it stays Alert tracking, or patrols where it lost the player; once due, a swoop pick ends in Swooping and a feather pick throws feathers (when any are configured) and re-arms the attack at `now + attackInterval`, whether or not the player is in sight |
| Crow.Aim | Assets/Scripts/Entities/Enemies/CrowEnemy.cs:280-308 | the swoop is an ellipse with non-negative half-axes given by the distance to the player, centred at the player's x and the crow's height; from the left it starts at 180 degrees and turns toward 270, from the right at 0 and turns toward -90, so both arcs dive first toward the player |
| Crow.SwoopPassesThroughPlayer | Assets/Scripts/Entities/Enemies/CrowEnemy.cs:280-323 | the ellipse starts at the crow and, for a crow not below the player, passes through the player's position a quarter turn later |
| Crow.Launched | Assets/Scripts/Entities/Enemies/CrowEnemy.cs:280-308 | the geometry is fixed on the first frame after the windup and kept afterwards |
| Crow.Advance | Assets/Scripts/Entities/Enemies/CrowEnemy.cs:313 | each frame turns the angle by speed times frame time in the swoop's direction |
| Crow.SwoopingUpdate | Assets/Scripts/Entities/Enemies/CrowEnemy.cs:276-334 | before the windup the crow approaches the windup point; afterwards it sits on the ellipse and returns to Alert iff back at the centre's height; a missing player faults exactly where it is read |
| Crow.Update | Assets/Scripts/Entities/Enemies/CrowEnemy.cs:351-355 | a non-faulting update never stops in FeatherAttack; IdleGround is never re-entered; feathers are only added |
| Crow.Start | Assets/Scripts/Entities/Enemies/CrowEnemy.cs:338-348 | with a player the crow starts in IdleGround; without one start-up faults and it never gets a state |
| Crow.AwakeCrowStaysAwake | Assets/Scripts/Entities/Enemies/CrowEnemy.cs:35-335 | over any run an awake crow never returns to the ground, never stays in FeatherAttack without a fault, and never loses feathers |
| EnemyBasic.Wrap | Assets/Scripts/Entities/Enemies/EnemyBasic.cs:18 | 32-bit wrap-around: values in range are kept, others are congruent modulo 2^32 |
| EnemyBasic.TakeDamageAsWritten | Assets/Scripts/Entities/Enemies/EnemyBasic.cs:16-28 | maximum health is kept, health stays in [0, max], and the kill happens iff health reaches zero |
| EnemyBasic.HealOverflowKills | Assets/Scripts/Entities/Enemies/EnemyBasic.cs:18 | a large enough heal wraps around and kills a healthy enemy |
| EnemyBasic.TakeDamage | Assets/Scripts/Entities/Enemies/EnemyBasic.cs:16-28 | health becomes old minus amount clamped to [0, max]; the kill happens iff that is at most zero; max is never changed |
| EnemyBasic.HealNeverKills | Assets/Scripts/Entities/Enemies/EnemyBasic.cs:18-27 | a heal never kills and never lowers health below the smaller of old health and max |
| EnemyBasic.AgreesWithoutOverflow | Assets/Scripts/Entities/Enemies/EnemyBasic.cs:18 | without overflow the code as written and the corrected version agree |
| EnemyBasic.DamageIsMonotone | Assets/Scripts/Entities/Enemies/EnemyBasic.cs:18-27 | more damage leaves no more health, and kills whenever less damage does |
| EnemyBasic.HitsAccumulate | Assets/Scripts/Entities/Enemies/EnemyBasic.cs:18-27 | n equal hits leave health minus n times the damage, floored at zero, and kill iff that reaches zero |
| TriggerDamage.Init | Assets/Scripts/TriggerDamage.cs:28-33 | lifetime, tags and damage are stored unchanged |
| TriggerDamage.Tick | Assets/Scripts/TriggerDamage.cs:13-21 | the lifetime drops by the frame time, and the trigger survives iff it is not negative (zero survives) |
| TriggerDamage.RunSurvivesIffWithinLifetime | Assets/Scripts/TriggerDamage.cs:13-26 | a trigger survives a run of frames iff their total time fits its lifetime, and is then left with the difference |
| TriggerDamage.Matches | Assets/Scripts/TriggerDamage.cs:37-44 | the number of matching tags is zero iff the collider's tag is not among them |
| TriggerDamage.Enter | Assets/Scripts/TriggerDamage.cs:35-45 | an unmatched collider is untouched; a matched one without damageable faults; otherwise the damage lands once per matching tag |
| TriggerDamage.SingleTagStrikesOnce | Assets/Scripts/TriggerDamage.cs:35-45 | a trigger tagged only "Enemy" strikes an enemy exactly once and ignores every other tag; whenever the subtraction does not overflow that strike is the enemy's damage rule as written |
| PlayerAttack.Attack | Assets/Scripts/PlayerAttack.cs:21-38 | only the light attack does anything: a 0.9-second trigger with the first attack's damage at its offset, negated iff `xDir` (the legacy controller sets it after a rightward input); a missing attack or prefab faults |
| PlayerAttack.CreateDamageTrigger | Assets/Scripts/PlayerAttack.cs:40-44 | the trigger appears at the owner plus the offset, initialised with the duration, the "Enemy" tag and the damage |
| PlayerAttack.LightAttackMirrors | Assets/Scripts/PlayerAttack.cs:26-28 | the two facings put identical triggers at mirrored offsets |
| PlayerAttack.LightTriggerStrikesEnemiesOnce | Assets/Scripts/PlayerAttack.cs:21-44 | a light attack's trigger strikes an enemy once, with the damage rule as written whenever the subtraction does not overflow, and lives through 0.9 seconds of frames |
| OneWayPlatform.Start | Assets/Scripts/Entities/OneWayPlatform.cs:29-41 | the platform records its own and the player's half heights |
| OneWayPlatform.ColliderEnabled | Assets/Scripts/Entities/OneWayPlatform.cs:44-53 | the collider is on iff the player's centre is at least both half heights above the platform's |
| OneWayPlatform.EnabledIsUpwardClosed | Assets/Scripts/Entities/OneWayPlatform.cs:44-53 | a platform solid for a player stays solid for any higher player |
| OneWayPlatform.RunIsMemoryless | Assets/Scripts/Entities/OneWayPlatform.cs:44-53 | after any run of physics updates the collider's state depends only on the last position |
| Door.OppositeGatesMeetOnlyWhenLevel | Assets/Scripts/DoorBehaviour.cs:64-89 | opposite doors both let an object through only when it is level with them, and one of them always does |
| Door.ExitGate | Assets/Scripts/DoorBehaviour.cs:64-89 | an exit counts only when the object is not strictly on the room's side of the door; level counts |
| Door.OnTriggerExit | Assets/Scripts/DoorBehaviour.cs:57-125 | a departure happens iff the object is not on the room's side and carries the player tag; it loads the door's scene and remembers the player's offset along the door's edge |
| Door.FindTarget | Assets/Scripts/DoorBehaviour.cs:174-191 | the first door in scene order with the wanted ID, and none iff no door has it |
| Door.Relocate | Assets/Scripts/DoorBehaviour.cs:197-241 | the player lands on the target's line across the edge, shifted along the edge by the remembered offset |
| Door.Duplicates | Assets/Scripts/DoorBehaviour.cs:154-165 | exactly the player-tagged objects other than the persistent player are destroyed |
| Door.OnSceneLoad | Assets/Scripts/DoorBehaviour.cs:141-254 | duplicates are destroyed; without a player it faults; with one it is placed at the first matching door and the door sizes are compared, or at the origin with a fault when none matches |
| Door.OffsetSurvivesTheDoor | Assets/Scripts/DoorBehaviour.cs:96-241 | when the "Player" lookup returns the persistent player, leaving through a door and arriving at its target keeps the player's offset along the edge and the persistent player alive |
| Door.DuplicateLookupMovesTheWrongPlayer | Assets/Scripts/DoorBehaviour.cs:154-199 | when the lookup returns a duplicate, the duplicate is moved and destroyed and the persistent player is neither moved nor destroyed |
| Door.FirstMatchWins | Assets/Scripts/DoorBehaviour.cs:174-191 | with several doors sharing the ID the player arrives at the first |
| TimeManager.Start | Assets/Scripts/Old/Old_TimeManager.cs:22-39 | one warning for several managers and one for several players; a player is tracked iff exactly one exists |
| TimeManager.Ratio | Assets/Scripts/Old/Old_TimeManager.cs:41-47 | the scale maps the zone's left end plus scale times its width back to the player's x; undefined iff the zone has no width |
| TimeManager.UpdateTimeScale | Assets/Scripts/Old/Old_TimeManager.cs:41-47 | without a tracked player it faults; otherwise only the scale changes, to the player's position in the zone |
| TimeManager.RatioCalibration | Assets/Scripts/Old/Old_TimeManager.cs:41-47 | the scale is 0 at the left end, 1 at the right end, grows with x and stays in [0,1] inside the zone |
| TimeManager.GetTimeScale | Assets/Scripts/Old/Old_TimeManager.cs:53-56 | a manager with the inspector defaults reports scale 0 |
| TimeManager.DefaultZone | Assets/Scripts/Old/Old_TimeManager.cs:16-18 | with the default zone from -1 to 1 the scale is (x + 1) / 2 |

## Left out

- Floating point: every quantity is a real number. Rounding, infinities and NaN are not modelled. The one place a non-finite value appears, a zero-width time zone, is an explicit case.
- Rigid-body integration: only the legacy controller's own translations move the player. The body's velocity is the field `rbVel`, which the script writes and the model records but never integrates, so gravity, the upward speed a cancelled jump hands to the body, and collisions of the body itself are not modelled.
- Animation, sprites, audio, debug drawing, gizmos and the camera that a door adds: these are visual only.
- Scene loading, object instantiation and destruction, and `DontDestroyOnLoad` are represented by their effect on the modelled objects only.
- Coroutine timing: `PlayTimedAnimation` unlocks movement after 0.9 seconds. The model treats this as a lock deadline checked at the start of each update.
- Depth: every object is taken to lie in the z = 0 plane. The source measures sight distance and feather direction on three-component vectors.
- `Translate` moves in the object's local frame. Every moving object is taken to be unrotated, so local and world axes coincide.
- The engine's geometry (ray queries, vector length and normalisation, trigonometry, the jump's animation curve) is a parameter. Its correctness is stated only where a lemma needs it, as a precondition (unit normalisation, trigonometric values at 0, 90, 180 and 270 degrees).
- KinematicPlayer.HorizontalMovement: when the foot test passes at zero vertical speed, the contract does not describe the result. It depends on the engine's slope normal and on a second cast from the lifted position.
- KinematicPlayer.OriginsSpanEdges: stated for 2 to 15 rays, the inspector's range. With one ray the spacing divides by zero in the source.
- PrototypePlayer.HorizontalPass: requires at least one ray of each kind. The source reads the first result of the batch without a check.
- PrototypePlayer.VerticalPass: requires at least one ray of each kind, for the same reason as `HorizontalPass`.
- LegacyPlayer.JumpReset: requires a non-zero jump height. The source divides by it for the double-jump time.
- LegacyPlayer.MoveUpdate: does not state the exact run-step product, only its bound and the decay. The step is `RunDisplacement`.
- LegacyPlayer.AnimationUpdate: a jump turns into a fall in the same update because the animator is taken to return the "State" value just written to it.
- TriggerDamage.Enter: hits use the overflow-free damage rule `EnemyBasic.TakeDamage`, the corrected half of the finding below. For a heal large enough to overflow, the source kills the enemy and the model does not.
- TriggerDamage.SingleTagStrikesOnce: equates the strike with the code as written only when the subtraction does not overflow, for the same reason.
- PlayerAttack.LightTriggerStrikesEnemiesOnce: equates the strike with the code as written only when the subtraction does not overflow, for the same reason.
- Door.OffsetSurvivesTheDoor: assumes the "Player" lookup returns the persistent player. The engine does not promise which tagged object it returns; `Door.DuplicateLookupMovesTheWrongPlayer` covers the other case.
- Non-penetration of the resolved positions: this depends on the engine's ray queries, which are parameters.
- The time manager's `ITimeManipulation` interface and the editor scripts: they have no behaviour of their own.

## Findings

| source | as written | input that shows it | evidently intended | confidence | as-written member | corrected member |
|---|---|---|---|---|---|---|
| Assets/Scripts/Entities/Enemies/EnemyBasic.cs:18-20 | `health - amount` is computed in 32-bit arithmetic before the clamp, so a large negative amount (a heal) wraps around to a negative health | maxHealth 100, health 100, amount -2147483600: the sum wraps to -2147483596, health is clamped to 0 and the enemy is killed | a heal never kills; health is old minus amount clamped to [0, max] | not executed | EnemyBasic.TakeDamageAsWritten, EnemyBasic.HealOverflowKills | EnemyBasic.TakeDamage, EnemyBasic.HealNeverKills, EnemyBasic.AgreesWithoutOverflow |

=== FILE: common.dfy ===
/**
  Small shared vocabulary of the model: an optional value, a two-component
  vector of reals standing in for the engine's single-precision vectors, and
  the engine's scalar clamps.

  Reals are exact: IEEE single-precision rounding is not modelled anywhere.
 */
module Common {

  /** The conventional Some/None datatype. */
  datatype Option<+T> = None | Some(value: T)

  /** A 2D point or displacement (the z component of the engine's vectors is never used). */
  datatype Vec2 = Vec2(x: real, y: real)
  {
    function Plus(other: Vec2): Vec2 {
      Vec2(x + other.x, y + other.y)
    }

    function Minus(other: Vec2): Vec2 {
      Vec2(x - other.x, y - other.y)
    }

    function Scale(k: real): Vec2 {
      Vec2(k * x, k * y)
    }
  }

  const Zero: Vec2 := Vec2(0.0, 0.0)

  /** A real drawn uniformly from [0, 1] by the engine's random source. */
  type Unit = r: real | 0.0 <= r <= 1.0

  function Abs(r: real): (a: real)
    ensures a >= 0.0
    ensures a == r || a == -r
  {
    if r < 0.0 then -r else r
  }

  /**
    The engine's scalar clamp: the lower bound is checked first, so a reversed
    range (lo > hi) yields lo below lo and hi otherwise.
   */
  function Clamp(v: real, lo: real, hi: real): (r: real)
    ensures lo <= hi ==> lo <= r <= hi
    ensures lo <= v <= hi ==> r == v
    ensures v < lo ==> r == lo
  {
    if v < lo then lo else if v > hi then hi else v
  }

  /** The integer overload of the same clamp. */
  function ClampInt(v: int, lo: int, hi: int): (r: int)
    ensures lo <= hi ==> lo <= r <= hi
    ensures lo <= v <= hi ==> r == v
    ensures v < lo ==> r == lo
  {
    if v < lo then lo else if v > hi then hi else v
  }

  /** Clamp to the unit interval. */
  function Clamp01(v: real): (r: real)
    ensures 0.0 <= r <= 1.0
    ensures 0.0 <= v <= 1.0 ==> r == v
  {
    Clamp(v, 0.0, 1.0)
  }
}

=== FILE: crow.dfy ===
/**
  The crow enemy (Assets/Scripts/Entities/Enemies/CrowEnemy.cs).

  The crow waits on the ground until it sees the player, then hovers above
  the player (Alert), attacking every `attackInterval` seconds with either
  a fan of feathers or a swoop along a half-ellipse through the player's
  position.  When it loses sight of the player it patrols the air around
  where it lost it (IdleAir) until it sees the player again.

  Engine services are parameters: the ray query against vision blockers,
  vector length and normalisation, the angle of a direction, and sine and
  cosine in degrees.  The random draws of one update arrive in `Rolls`: an
  update draws at most one point in the unit circle, one value in [0, 1]
  and one attack choice.  The player's position is `None` once the player
  object is gone; code that reads it then faults, which ends the update.
 */
module Crow {
  import opened Common
  import opened Raycast
  import opened StateMachine

  /** Inspector values. */
  datatype Config = Config(
    movementSpeed: real,
    viewDistance: real,
    attackInterval: real,
    patrolArea: Vec2,
    featherAmount: int,
    featherSpread: real,
    swoopingOffset: Vec2,
    swoopingWindupTime: real,
    swoopingSpeed: real)

  /** Engine services used by the crow. */
  datatype Engine = Engine(
    cast: Caster,
    length: Vec2 -> real,
    normalize: Vec2 -> Vec2,
    atan2Deg: Vec2 -> real,
    sinDeg: real -> real,
    cosDeg: real -> real)

  /** A point drawn inside the unit circle. */
  type InUnitCircle = v: Vec2 | v.x * v.x + v.y * v.y <= 1.0 witness Vec2(0.0, 0.0)

  /** The random draws available to one update. */
  datatype Rolls = Rolls(circle: InUnitCircle, unit: Unit, pickFeather: bool)

  /** One frame's clock readings, the player's position (if the player still exists) and the draws. */
  datatype Input = Input(now: real, dt: real, player: Option<Vec2>, rolls: Rolls)

  /** A spawned feather: where, and its aim in degrees (`None`: left at the prefab's rotation). */
  datatype Feather = Feather(pos: Vec2, aim: Option<real>)

  /** The IdleAir state's own fields. */
  datatype Patrol = Patrol(center: Vec2, target: Vec2)

  /** The Alert state's own fields. */
  datatype Watch = Watch(attackTime: real, preferredX: real)

  /** The Swooping state's own fields; `pending` marks an attack whose geometry is not yet fixed. */
  datatype Swoop = Swoop(
    windupTime: real,
    targetOffset: Vec2,
    pending: bool,
    angle: real,
    angleDirection: real,
    size: Vec2,
    center: Vec2)

  /**
    The crow.  Each state's own fields live in their own record: every
    transition builds a fresh state object and only the active one's fields
    are ever read.
   */
  datatype Bird = Bird(
    pos: Vec2,
    facingLeft: bool,
    feathers: seq<Feather>,
    patrol: Patrol,
    watch: Watch,
    swoop: Swoop)

  datatype Mode = Placeholder | IdleGround | IdleAir | Alert | FeatherAttack | Swooping

  type Actor = Machine<Mode, Bird>

  // ---------------------------------------------------------------------------
  // Sight and movement
  // ---------------------------------------------------------------------------

  /**
    `CanSeePlayer`: the player exists, is strictly within the view distance,
    and a ray towards it of exactly that length hits no vision blocker.
   */
  predicate CanSee(cfg: Config, e: Engine, pos: Vec2, player: Option<Vec2>)
    ensures player.None? ==> !CanSee(cfg, e, pos, player)
    ensures CanSee(cfg, e, pos, player) ==> e.length(player.value.Minus(pos)) < cfg.viewDistance
  {
    && player.Some?
    && var distance := e.length(player.value.Minus(pos));
    && distance < cfg.viewDistance
    && !e.cast(pos, e.normalize(player.value.Minus(pos)), distance).hit
  }

  /** The engine's clamped interpolation from `a` towards `b`. */
  function Lerp(a: Vec2, b: Vec2, t: real): (r: Vec2)
    ensures 0.0 <= t <= 1.0 ==> r == a.Plus(b.Minus(a).Scale(t))
    ensures t >= 1.0 ==> r == b
    ensures t <= 0.0 ==> r == a
  {
    a.Plus(b.Minus(a).Scale(Clamp01(t)))
  }

  function SqrMagnitude(v: Vec2): real {
    v.x * v.x + v.y * v.y
  }

  /** The engine's `ClampMagnitude`: a vector longer than `max` is shortened to `max` along its direction. */
  function ClampMagnitude(e: Engine, v: Vec2, max: real): (r: Vec2)
    ensures SqrMagnitude(v) <= max * max ==> r == v
    ensures SqrMagnitude(v) > max * max ==> r == e.normalize(v).Scale(max)
  {
    if SqrMagnitude(v) > max * max then e.normalize(v).Scale(max) else v
  }

  /** `MoveTowards`: step towards the target, no farther than the speed allows in this frame. */
  function MoveTowards(cfg: Config, e: Engine, pos: Vec2, target: Vec2, dt: real): (r: Vec2)
    ensures SqrMagnitude(target.Minus(pos)) <= (cfg.movementSpeed * dt) * (cfg.movementSpeed * dt) ==> r == target
    ensures SqrMagnitude(target.Minus(pos)) > (cfg.movementSpeed * dt) * (cfg.movementSpeed * dt) ==>
      r == pos.Plus(e.normalize(target.Minus(pos)).Scale(cfg.movementSpeed * dt))
  {
    pos.Plus(ClampMagnitude(e, target.Minus(pos), cfg.movementSpeed * dt))
  }

  /** The engine's normalisation yields unit vectors for every non-zero vector (the zero vector stays zero). */
  ghost predicate NormalizesToUnit(e: Engine) {
    forall v :: SqrMagnitude(v) > 0.0 ==> SqrMagnitude(e.normalize(v)) == 1.0
  }

  /**
    With a unit-length normalisation, a step of `MoveTowards` is never longer
    than the speed times the frame time, and reaches a target that is close
    enough.
   */
  lemma MoveTowardsIsBounded(cfg: Config, e: Engine, pos: Vec2, target: Vec2, dt: real)
    requires NormalizesToUnit(e)
    ensures SqrMagnitude(MoveTowards(cfg, e, pos, target, dt).Minus(pos)) <= (cfg.movementSpeed * dt) * (cfg.movementSpeed * dt)
    ensures SqrMagnitude(target.Minus(pos)) <= (cfg.movementSpeed * dt) * (cfg.movementSpeed * dt) ==>
      MoveTowards(cfg, e, pos, target, dt) == target
  {
    var v := target.Minus(pos);
    var max := cfg.movementSpeed * dt;
    var step := MoveTowards(cfg, e, pos, target, dt).Minus(pos);
    if SqrMagnitude(v) > max * max {
      assert max * max >= 0.0;
      var n := e.normalize(v);
      assert step == n.Scale(max);
      assert SqrMagnitude(n.Scale(max)) == max * max * SqrMagnitude(n);
    } else {
      assert step == v;
    }
  }

  // ---------------------------------------------------------------------------
  // State entry
  // ---------------------------------------------------------------------------

  /** IdleAir's patrol target: a random point within `patrolArea.x + patrolArea.y` of the patrol centre. */
  function PatrolTarget(cfg: Config, center: Vec2, rolls: Rolls): Vec2 {
    center.Plus(rolls.circle.Scale(cfg.patrolArea.y + cfg.patrolArea.x))
  }

  /** Patrol targets lie within the patrol radius of the centre. */
  lemma PatrolTargetWithinRadius(cfg: Config, center: Vec2, rolls: Rolls)
    ensures var k := cfg.patrolArea.y + cfg.patrolArea.x;
      SqrMagnitude(PatrolTarget(cfg, center, rolls).Minus(center)) <= k * k
  {
    var k := cfg.patrolArea.y + cfg.patrolArea.x;
    var c := rolls.circle;
    assert PatrolTarget(cfg, center, rolls).Minus(center) == c.Scale(k);
    assert SqrMagnitude(c.Scale(k)) == k * k * SqrMagnitude(c);
    assert k * k * SqrMagnitude(c) <= k * k * 1.0;
  }

  /** Alert's preferred x: a random point within half the patrol width of the crow. */
  function PreferredX(cfg: Config, x: real, rolls: Rolls): (r: real)
    ensures 0.0 <= cfg.patrolArea.x ==> x - cfg.patrolArea.x / 2.0 <= r <= x + cfg.patrolArea.x / 2.0
  {
    x + (-cfg.patrolArea.x / 2.0 + rolls.unit * cfg.patrolArea.x)
  }

  /** The spread factor of feather `i` of `n`: from -1 for the first to 1 for the last. */
  function SpreadFactor(i: nat, n: nat): real
    requires n > 1
  {
    -1.0 + ((i as real) / ((n as real) - 1.0)) * 2.0
  }

  /** Fractions of a positive denominator: sums distribute, and a numerator in [0, d] gives a value in [0, 1]. */
  lemma Fractions(a: real, b: real, d: real)
    requires d > 0.0
    ensures a / d + b / d == (a + b) / d
    ensures 0.0 <= a <= d ==> 0.0 <= a / d <= 1.0
    ensures d / d == 1.0
  {
    var x, y, t := a / d, b / d, (a + b) / d;
    assert x * d == a && y * d == b && t * d == a + b;
    assert (x + y) * d == x * d + y * d;
    Cancel(x + y, t, d);
    Cancel(d / d, 1.0, d);
    if 0.0 <= a <= d {
      SignOfFactor(x, d);
      assert (1.0 - x) * d == d - a;
      SignOfFactor(1.0 - x, d);
    }
  }

  /** Equal products with the same positive factor have equal cofactors. */
  lemma Cancel(p: real, q: real, d: real)
    requires d > 0.0 && p * d == q * d
    ensures p == q
  {
    assert (p - q) * d == 0.0 && (q - p) * d == 0.0;
    SignOfFactor(p - q, d);
    SignOfFactor(q - p, d);
  }

  /** A factor whose product with a positive number is not negative is not negative. */
  lemma SignOfFactor(q: real, d: real)
    requires d > 0.0 && q * d >= 0.0
    ensures q >= 0.0
  {
  }

  /** The spread factors fan out symmetrically from -1 to 1. */
  lemma SpreadIsSymmetric(n: nat)
    requires n > 1
    ensures SpreadFactor(0, n) == -1.0 && SpreadFactor(n - 1, n) == 1.0
    ensures forall i :: 0 <= i < n ==> -1.0 <= SpreadFactor(i, n) <= 1.0
    ensures forall i :: 0 <= i < n ==> SpreadFactor(i, n) + SpreadFactor(n - 1 - i, n) == 0.0
  {
    var d := (n as real) - 1.0;
    Fractions(d, 0.0, d);
    forall i | 0 <= i < n
      ensures -1.0 <= SpreadFactor(i, n) <= 1.0
      ensures SpreadFactor(i, n) + SpreadFactor(n - 1 - i, n) == 0.0
    {
      var a := i as real;
      var b := (n - 1 - i) as real;
      Fractions(a, b, d);
      assert a + b == d;
      assert a / d + b / d == 1.0;
    }
  }

  /** The number of feathers the spawning loop runs for. */
  function FeatherCount(cfg: Config): nat {
    if cfg.featherAmount < 0 then 0 else cfg.featherAmount
  }

  /** Feather `i`'s aim: towards the player, turned by its share of the spread when there are several. */
  function FeatherAim(cfg: Config, e: Engine, pos: Vec2, player: Vec2, i: nat): real {
    var toward := e.atan2Deg(e.normalize(player.Minus(pos))) - 90.0;
    if FeatherCount(cfg) > 1 then toward + (cfg.featherSpread / 2.0) * SpreadFactor(i, FeatherCount(cfg)) else toward
  }

  /**
    FeatherAttack's entry: spawn the feathers at the crow, each aimed at the
    player and fanned out over `featherSpread` degrees.  Without a player
    the first feather is spawned unaimed and the loop faults.
   */
  function SpawnFeathers(cfg: Config, e: Engine, pos: Vec2, player: Option<Vec2>): (fs: seq<Feather>)
    ensures player.Some? ==> |fs| == FeatherCount(cfg)
    ensures player.None? ==> |fs| == (if FeatherCount(cfg) > 0 then 1 else 0)
    ensures forall i :: 0 <= i < |fs| ==> fs[i].pos == pos
    ensures player.Some? ==> forall i :: 0 <= i < |fs| ==> fs[i].aim == Some(FeatherAim(cfg, e, pos, player.value, i))
    ensures player.None? ==> forall i :: 0 <= i < |fs| ==> fs[i].aim.None?
  {
    match player
    case None => if FeatherCount(cfg) > 0 then [Feather(pos, None)] else []
    case Some(p) => seq(FeatherCount(cfg), i requires 0 <= i => Feather(pos, Some(FeatherAim(cfg, e, pos, p, i))))
  }

  /**
    The fan of a feather attack is symmetric about the aim at the player:
    the outer feathers are turned by half the spread either way and
    opposite feathers by opposite amounts.
   */
  lemma FeatherFanIsSymmetric(cfg: Config, e: Engine, pos: Vec2, player: Vec2)
    requires cfg.featherAmount > 1
    ensures var fs := SpawnFeathers(cfg, e, pos, Some(player));
      var aim := e.atan2Deg(e.normalize(player.Minus(pos))) - 90.0;
      var n := |fs|;
      && n == cfg.featherAmount
      && fs[0].aim == Some(aim - cfg.featherSpread / 2.0)
      && fs[n - 1].aim == Some(aim + cfg.featherSpread / 2.0)
      && forall i :: 0 <= i < n ==> fs[i].aim.value - aim == -(fs[n - 1 - i].aim.value - aim)
  {
    var n := FeatherCount(cfg);
    SpreadIsSymmetric(n);
    var fs := SpawnFeathers(cfg, e, pos, Some(player));
    var aim := e.atan2Deg(e.normalize(player.Minus(pos))) - 90.0;
    var h := cfg.featherSpread / 2.0;
    assert fs[0].aim == Some(aim + h * SpreadFactor(0, n));
    assert fs[n - 1].aim == Some(aim + h * SpreadFactor(n - 1, n));
    forall i | 0 <= i < n
      ensures fs[i].aim.value - aim == -(fs[n - 1 - i].aim.value - aim)
    {
      var h := cfg.featherSpread / 2.0;
      assert fs[i].aim.value - aim == h * SpreadFactor(i, n);
      assert fs[n - 1 - i].aim.value - aim == h * SpreadFactor(n - 1 - i, n);
      assert h * SpreadFactor(i, n) + h * SpreadFactor(n - 1 - i, n) == h * (SpreadFactor(i, n) + SpreadFactor(n - 1 - i, n));
    }
  }

  /** A single feather flies straight at the player. */
  lemma SingleFeatherFliesStraight(cfg: Config, e: Engine, pos: Vec2, player: Vec2)
    requires cfg.featherAmount == 1
    ensures SpawnFeathers(cfg, e, pos, Some(player)) == [Feather(pos, Some(e.atan2Deg(e.normalize(player.Minus(pos))) - 90.0))]
  {
    var fs := SpawnFeathers(cfg, e, pos, Some(player));
    assert |fs| == 1 && fs[0] == Feather(pos, Some(FeatherAim(cfg, e, pos, player, 0)));
  }

  /** Swooping's windup position relative to the player: above it, on the side the crow faces away from. */
  function SwoopOffset(cfg: Config, facingLeft: bool): (o: Vec2)
    ensures o.y == cfg.patrolArea.y + cfg.swoopingOffset.y
    ensures facingLeft ==> o.x == cfg.patrolArea.x / 2.0 + cfg.swoopingOffset.x
    ensures !facingLeft ==> o.x == -(cfg.patrolArea.x / 2.0 + cfg.swoopingOffset.x)
  {
    Vec2(if facingLeft then (cfg.patrolArea.x / 2.0) + cfg.swoopingOffset.x else -(cfg.patrolArea.x / 2.0) - cfg.swoopingOffset.x,
         cfg.patrolArea.y + cfg.swoopingOffset.y)
  }

  /**
    Entry logic.  IdleAir patrols around where the crow is; Alert schedules
    the next attack and picks a preferred x; FeatherAttack spawns feathers;
    Swooping schedules the windup and its approach offset.  No state has
    exit logic.
   */
  function Enter(cfg: Config, e: Engine, input: Input, s: Mode, b: Bird): (r: Bird)
    ensures r.pos == b.pos && r.facingLeft == b.facingLeft
    ensures s == IdleAir ==> r.patrol == Patrol(b.pos, PatrolTarget(cfg, b.pos, input.rolls))
    ensures s == Alert ==> r.watch == Watch(input.now + cfg.attackInterval, PreferredX(cfg, b.pos.x, input.rolls))
    ensures s == FeatherAttack ==> r.feathers == b.feathers + SpawnFeathers(cfg, e, b.pos, input.player)
    ensures s != FeatherAttack ==> r.feathers == b.feathers
    ensures s != IdleAir ==> r.patrol == b.patrol
    ensures s != Alert ==> r.watch == b.watch
    ensures s != Swooping ==> r.swoop == b.swoop
    ensures s == Swooping ==> r.swoop.pending && r.swoop.windupTime == input.now + cfg.swoopingWindupTime
    ensures s == Swooping ==> r.swoop.targetOffset == SwoopOffset(cfg, b.facingLeft)
  {
    match s
    case Placeholder => b
    case IdleGround => b
    case IdleAir => b.(patrol := Patrol(b.pos, PatrolTarget(cfg, b.pos, input.rolls)))
    case Alert => b.(watch := Watch(input.now + cfg.attackInterval, PreferredX(cfg, b.pos.x, input.rolls)))
    case FeatherAttack => b.(feathers := b.feathers + SpawnFeathers(cfg, e, b.pos, input.player))
    case Swooping =>
      b.(swoop := b.swoop.(windupTime := input.now + cfg.swoopingWindupTime,
                           targetOffset := SwoopOffset(cfg, b.facingLeft), pending := true))
  }

  function CrowHooks(cfg: Config, e: Engine, input: Input): Hooks<Mode, Bird> {
    Hooks((s: Mode, b: Bird) => Enter(cfg, e, input, s, b), (s: Mode, b: Bird) => b)
  }

  function Go(cfg: Config, e: Engine, input: Input, a: Actor, next: Mode): (r: Actor)
    ensures r == Transition(a, next, CrowHooks(cfg, e, input))
    ensures r.active == next && r.ctx == Enter(cfg, e, input, next, a.ctx)
  {
    Transition(a, next, CrowHooks(cfg, e, input))
  }

  // ---------------------------------------------------------------------------
  // State updates
  // ---------------------------------------------------------------------------

  /** One frame's result; `faulted` when the update stopped on a missing player. */
  datatype Step = Step(a: Actor, faulted: bool)

  /** IdleGround: wake up when the player comes into sight. */
  function IdleGroundUpdate(cfg: Config, e: Engine, a: Actor, input: Input): (r: Actor)
    requires a.active == IdleGround
    ensures r.active == Alert <==> CanSee(cfg, e, a.ctx.pos, input.player)
    ensures r.active == IdleGround <==> !CanSee(cfg, e, a.ctx.pos, input.player)
    ensures r.ctx.pos == a.ctx.pos
  {
    if CanSee(cfg, e, a.ctx.pos, input.player) then Go(cfg, e, input, a, Alert) else a
  }

  /**
    IdleAir: face the patrol target and move towards it by `movementSpeed/2*dt`
    of the remaining distance, never more than `movementSpeed*dt`; pick
    a new target once within 0.25 of it; become Alert on seeing the player
    from the new position.
   */
  function IdleAirUpdate(cfg: Config, e: Engine, a: Actor, input: Input): (r: Actor)
    requires a.active == IdleAir
    ensures r.ctx.facingLeft <==> a.ctx.patrol.target.x - a.ctx.pos.x < 0.0
    ensures r.ctx.pos == MoveTowards(cfg, e, a.ctx.pos, Lerp(a.ctx.pos, a.ctx.patrol.target, (cfg.movementSpeed / 2.0) * input.dt), input.dt)
    ensures r.active == Alert <==> CanSee(cfg, e, r.ctx.pos, input.player)
    ensures r.active == IdleAir <==> !CanSee(cfg, e, r.ctx.pos, input.player)
    ensures r.ctx.patrol.center == a.ctx.patrol.center
    ensures e.length(r.ctx.pos.Minus(a.ctx.patrol.target)) < 0.25 ==> r.ctx.patrol.target == PatrolTarget(cfg, a.ctx.patrol.center, input.rolls)
    ensures r.active == IdleAir && e.length(r.ctx.pos.Minus(a.ctx.patrol.target)) >= 0.25 ==> r.ctx.patrol == a.ctx.patrol
  {
    var b := a.ctx;
    var facing := b.patrol.target.x - b.pos.x < 0.0;
    var pos := MoveTowards(cfg, e, b.pos, Lerp(b.pos, b.patrol.target, (cfg.movementSpeed / 2.0) * input.dt), input.dt);
    var patrol := if e.length(pos.Minus(b.patrol.target)) < 0.25
                  then b.patrol.(target := PatrolTarget(cfg, b.patrol.center, input.rolls)) else b.patrol;
    var a1 := WithCtx(a, b.(facingLeft := facing, pos := pos, patrol := patrol));
    if CanSee(cfg, e, pos, input.player) then Go(cfg, e, input, a1, Alert) else a1
  }

  /** Where Alert hovers: above the player, at the preferred x kept within half the patrol width of it. */
  function HoverTarget(cfg: Config, preferredX: real, player: Vec2): (t: Vec2)
    ensures 0.0 <= cfg.patrolArea.x ==> Abs(t.x - player.x) <= cfg.patrolArea.x / 2.0
    ensures t.y == player.y + cfg.patrolArea.y
    ensures Abs(player.x - preferredX) <= cfg.patrolArea.x / 2.0 ==> t.x == preferredX
    ensures 0.0 <= cfg.patrolArea.x && preferredX > player.x + cfg.patrolArea.x / 2.0 ==> t.x == player.x + cfg.patrolArea.x / 2.0
    ensures preferredX < player.x - cfg.patrolArea.x / 2.0 ==> t.x == player.x - cfg.patrolArea.x / 2.0
  {
    Vec2(Clamp(preferredX, player.x - (cfg.patrolArea.x / 2.0), player.x + (cfg.patrolArea.x / 2.0)),
         player.y + cfg.patrolArea.y)
  }

  /** Alert's movement while the player is in sight: face it, hover towards it, re-pick the preferred x if it drifted out of range. */
  function Track(cfg: Config, e: Engine, b: Bird, player: Vec2, dt: real): (r: Bird)
    ensures r.facingLeft <==> !(b.pos.x < player.x)
    ensures r.pos == MoveTowards(cfg, e, b.pos, Lerp(b.pos, HoverTarget(cfg, b.watch.preferredX, player), cfg.movementSpeed * dt), dt)
    ensures r.watch.attackTime == b.watch.attackTime
    ensures r.watch.preferredX == (if Abs(player.x - b.watch.preferredX) > cfg.patrolArea.x / 2.0 then r.pos.x else b.watch.preferredX)
    ensures r == b.(facingLeft := r.facingLeft, pos := r.pos, watch := r.watch)
  {
    var target := HoverTarget(cfg, b.watch.preferredX, player);
    var pos := MoveTowards(cfg, e, b.pos, Lerp(b.pos, target, cfg.movementSpeed * dt), dt);
    var preferred := if Abs(player.x - b.watch.preferredX) > cfg.patrolArea.x / 2.0 then pos.x else b.watch.preferredX;
    b.(facingLeft := !(b.pos.x < player.x), pos := pos, watch := b.watch.(preferredX := preferred))
  }

  /**
    The attack at the end of an Alert update: a feather attack (which spawns
    its feathers and returns straight to Alert) or a swoop.
   */
  function Attack(cfg: Config, e: Engine, a: Actor, input: Input): (r: Step)
    ensures input.rolls.pickFeather ==> r.a.ctx.feathers == a.ctx.feathers + SpawnFeathers(cfg, e, a.ctx.pos, input.player)
    ensures r.faulted <==> input.rolls.pickFeather && input.player.None? && FeatherCount(cfg) > 0
    ensures !r.faulted && input.rolls.pickFeather ==>
      r.a.active == Alert && r.a.trace == a.trace + [Exited(a.active), Entered(FeatherAttack), Exited(FeatherAttack), Entered(Alert)]
    ensures r.faulted ==> r.a.active == FeatherAttack
    ensures !input.rolls.pickFeather ==> !r.faulted && r.a.active == Swooping && r.a.ctx.feathers == a.ctx.feathers
    ensures r.a.ctx.pos == a.ctx.pos
  {
    if input.rolls.pickFeather then
      var a1 := Go(cfg, e, input, a, FeatherAttack);
      if input.player.None? && FeatherCount(cfg) > 0 then Step(a1, true)
      else Step(Go(cfg, e, input, a1, Alert), false)
    else Step(Go(cfg, e, input, a, Swooping), false)
  }

  /**
    Alert: track the player while it is in sight, otherwise start patrolling
    where it was lost; then, whichever happened, attack once this Alert's
    attack time has come.
   */
  function AlertUpdate(cfg: Config, e: Engine, a: Actor, input: Input): (r: Step)
    requires a.active == Alert
    ensures var due := a.ctx.watch.attackTime <= input.now;
      && (!due ==> !r.faulted && r.a.ctx.feathers == a.ctx.feathers)
      && (!due && CanSee(cfg, e, a.ctx.pos, input.player) ==> r.a.active == Alert && r.a.ctx == Track(cfg, e, a.ctx, input.player.value, input.dt))
      && (!due && !CanSee(cfg, e, a.ctx.pos, input.player) ==> r.a.active == IdleAir && r.a.ctx.patrol.center == a.ctx.pos)
      && (due && !r.faulted ==> r.a.active == Alert || r.a.active == Swooping)
      && (due && input.rolls.pickFeather ==> |r.a.ctx.feathers| > |a.ctx.feathers| || FeatherCount(cfg) == 0)
      && (due && !input.rolls.pickFeather ==> r.a.active == Swooping)
      && (due && input.rolls.pickFeather && !r.faulted ==> r.a.ctx.watch.attackTime == input.now + cfg.attackInterval)
    ensures r.a.ctx.pos == (if CanSee(cfg, e, a.ctx.pos, input.player) then Track(cfg, e, a.ctx, input.player.value, input.dt).pos else a.ctx.pos)
  {
    var a1 := if CanSee(cfg, e, a.ctx.pos, input.player)
              then WithCtx(a, Track(cfg, e, a.ctx, input.player.value, input.dt))
              else Go(cfg, e, input, a, IdleAir);
    if a.ctx.watch.attackTime <= input.now then Attack(cfg, e, a1, input) else Step(a1, false)
  }

  /** The swoop's first step fixes its geometry: an ellipse centred at the player's x and the crow's height. */
  function Aim(b: Bird, player: Vec2): (s: Swoop)
    ensures !s.pending
    ensures s.size == Vec2(Abs(player.x - b.pos.x), Abs(player.y - b.pos.y))
    ensures s.center == Vec2(player.x, b.pos.y)
    ensures player.x - b.pos.x >= 0.0 ==> s.angle == 180.0 && s.angleDirection == 1.0
    ensures player.x - b.pos.x < 0.0 ==> s.angle == 0.0 && s.angleDirection == -1.0
    ensures s.windupTime == b.swoop.windupTime && s.targetOffset == b.swoop.targetOffset
  {
    var rel := player.Minus(b.pos);
    var leftOfPlayer := player.x - b.pos.x >= 0.0;
    b.swoop.(size := Vec2(Abs(rel.x), Abs(rel.y)),
             center := Vec2(player.x, b.pos.y),
             angle := if leftOfPlayer then 180.0 else 0.0,
             angleDirection := if leftOfPlayer then 1.0 else -1.0,
             pending := false)
  }

  /** A point of the swoop's ellipse. */
  function ArcPoint(e: Engine, s: Swoop, angle: real): Vec2 {
    s.center.Plus(Vec2(e.cosDeg(angle) * s.size.x, e.sinDeg(angle) * s.size.y))
  }

  /** The trigonometric values the swoop's geometry relies on. */
  predicate TrigFacts(e: Engine) {
    && e.cosDeg(0.0) == 1.0 && e.sinDeg(0.0) == 0.0
    && e.cosDeg(180.0) == -1.0 && e.sinDeg(180.0) == 0.0
    && e.cosDeg(270.0) == 0.0 && e.sinDeg(270.0) == -1.0
    && e.cosDeg(-90.0) == 0.0 && e.sinDeg(-90.0) == -1.0
  }

  /**
    The swoop's ellipse starts at the crow and, for a crow not below the
    player, passes exactly through the player's position (a quarter turn
    from the start, at its lowest point).
   */
  lemma SwoopPassesThroughPlayer(e: Engine, b: Bird, player: Vec2)
    requires TrigFacts(e)
    ensures var s := Aim(b, player);
      ArcPoint(e, s, s.angle) == b.pos
    ensures var s := Aim(b, player);
      b.pos.y >= player.y ==> ArcPoint(e, s, s.angle + 90.0 * s.angleDirection) == player
  {
    var s := Aim(b, player);
    if player.x - b.pos.x >= 0.0 {
      assert s.angle + 90.0 * s.angleDirection == 270.0;
    } else {
      assert s.angle + 90.0 * s.angleDirection == -90.0;
    }
  }

  /** The swoop's geometry once the windup is over: fixed on the first frame, kept afterwards. */
  function Launched(b: Bird, player: Option<Vec2>): (s: Swoop)
    requires b.swoop.pending ==> player.Some?
    ensures b.swoop.pending ==> s == Aim(b, player.value)
    ensures !b.swoop.pending ==> s == b.swoop
  {
    if b.swoop.pending then Aim(b, player.value) else b.swoop
  }

  /** One frame of the swoop: the angle turns by the swoop speed in the swoop's direction. */
  function Advance(cfg: Config, s: Swoop, dt: real): (r: Swoop)
    ensures r == s.(angle := r.angle)
    ensures r.angle - s.angle == cfg.swoopingSpeed * dt * s.angleDirection
  {
    s.(angle := s.angle + cfg.swoopingSpeed * dt * s.angleDirection)
  }

  /**
    Swooping.  Before the windup ends the crow approaches the player's
    position plus the windup offset.  Afterwards the first frame fixes the
    ellipse; every frame advances the angle by the swoop speed and puts the
    crow on the ellipse, and the swoop ends, back in Alert, once the crow is
    back up at the ellipse centre's height.
   */
  function SwoopingUpdate(cfg: Config, e: Engine, a: Actor, input: Input): (r: Step)
    requires a.active == Swooping
    ensures r.faulted <==> input.player.None? && (input.now < a.ctx.swoop.windupTime || a.ctx.swoop.pending)
    ensures r.faulted ==> r.a == a
    ensures !r.faulted && input.now < a.ctx.swoop.windupTime ==>
      r.a.active == Swooping &&
      r.a.ctx.pos == MoveTowards(cfg, e, a.ctx.pos, Lerp(a.ctx.pos, input.player.value.Plus(a.ctx.swoop.targetOffset), cfg.movementSpeed * input.dt), input.dt)
    ensures !r.faulted && a.ctx.swoop.windupTime <= input.now ==>
      var s := Advance(cfg, Launched(a.ctx, input.player), input.dt);
      && r.a.ctx.pos == ArcPoint(e, s, s.angle)
      && r.a.ctx.swoop == s
      && (r.a.active == Alert <==> r.a.ctx.pos.y >= s.center.y)
      && (r.a.active == Swooping <==> r.a.ctx.pos.y < s.center.y)
  {
    var b := a.ctx;
    if b.swoop.windupTime <= input.now then
      if b.swoop.pending && input.player.None? then Step(a, true)
      else
        var s := Advance(cfg, Launched(b, input.player), input.dt);
        var pos := ArcPoint(e, s, s.angle);
        var a1 := WithCtx(a, b.(pos := pos, swoop := s));
        if pos.y >= s.center.y then Step(Go(cfg, e, input, a1, Alert), false) else Step(a1, false)
    else if input.player.None? then Step(a, true)
    else
      var target := input.player.value.Plus(b.swoop.targetOffset);
      Step(WithCtx(a, b.(pos := MoveTowards(cfg, e, b.pos, Lerp(b.pos, target, cfg.movementSpeed * input.dt), input.dt))), false)
  }

  /** The active state's update; the placeholder and a stranded FeatherAttack do nothing. */
  function Update(cfg: Config, e: Engine, a: Actor, input: Input): (r: Step)
    ensures a.active == Placeholder || a.active == FeatherAttack ==> r == Step(a, false)
    ensures !r.faulted ==> r.a.active != FeatherAttack || a.active == FeatherAttack
    ensures r.a.active == IdleGround ==> a.active == IdleGround
    ensures r.a.active == Placeholder ==> a.active == Placeholder
    ensures |a.ctx.feathers| <= |r.a.ctx.feathers| && r.a.ctx.feathers[..|a.ctx.feathers|] == a.ctx.feathers
  {
    match a.active
    case Placeholder => Step(a, false)
    case IdleGround => Step(IdleGroundUpdate(cfg, e, a, input), false)
    case IdleAir => Step(IdleAirUpdate(cfg, e, a, input), false)
    case Alert => AlertUpdate(cfg, e, a, input)
    case FeatherAttack => Step(a, false)
    case Swooping => SwoopingUpdate(cfg, e, a, input)
  }

  /**
    Start-up: with a player in the scene, the placeholder and then
    IdleGround; without one, start-up faults and the crow never gets a
    state (`None`).
   */
  function Start(pos: Vec2, player: Option<Vec2>): (r: Option<Actor>)
    ensures r.Some? <==> player.Some?
    ensures r.Some? ==> r.value.active == IdleGround && r.value.ctx.pos == pos && r.value.ctx.feathers == []
    ensures r.Some? ==> r.value.trace == [Exited(Placeholder), Entered(IdleGround)]
  {
    if player.None? then None
    else
      var b := Bird(pos, false, [], Patrol(Zero, Zero), Watch(0.0, 0.0), Swoop(0.0, Zero, false, 0.0, 0.0, Zero, Zero));
      Some(Transition(Machine(Placeholder, b, []), IdleGround, InertHooks()))
  }

  /** Frames in sequence; a faulted frame leaves its partial effect and the next frame runs as usual. */
  function Simulate(cfg: Config, e: Engine, a: Actor, inputs: seq<Input>): Actor
    decreases |inputs|
  {
    if |inputs| == 0 then a else Simulate(cfg, e, Update(cfg, e, a, inputs[0]).a, inputs[1..])
  }

  /** No frame of the sequence faults. */
  predicate NeverFaults(cfg: Config, e: Engine, a: Actor, inputs: seq<Input>)
    decreases |inputs|
  {
    |inputs| == 0 || (!Update(cfg, e, a, inputs[0]).faulted && NeverFaults(cfg, e, Update(cfg, e, a, inputs[0]).a, inputs[1..]))
  }

  /**
    Once awake the crow never goes back to the ground, and as long as no
    frame faults it is never left in the feather attack, which only passes
    through within a frame.  Feathers are only ever added.
   */
  lemma {:induction false} AwakeCrowStaysAwake(cfg: Config, e: Engine, a: Actor, inputs: seq<Input>)
    requires a.active != IdleGround && a.active != Placeholder
    ensures Simulate(cfg, e, a, inputs).active != IdleGround
    ensures a.active != FeatherAttack && NeverFaults(cfg, e, a, inputs) ==> Simulate(cfg, e, a, inputs).active != FeatherAttack
    ensures |Simulate(cfg, e, a, inputs).ctx.feathers| >= |a.ctx.feathers|
    decreases |inputs|
  {
    if |inputs| > 0 {
      var r := Update(cfg, e, a, inputs[0]);
      AwakeCrowStaysAwake(cfg, e, r.a, inputs[1..]);
    }
  }
}

=== FILE: door.dfy ===
/**
  Doors between scenes (Assets/Scripts/DoorBehaviour.cs).

  When the player leaves a door's trigger on the door's outward side, the
  door survives the scene change, remembers the player's offset from it
  along the door's edge, and loads the next scene.  Once that scene has
  loaded, the door destroys every duplicate player, looks up the door it
  leads to by ID, puts the player on that door shifted by the remembered
  offset, checks that the two doors have the same size, gives the player a
  camera and destroys itself.

  Object identities, tags and the scene queries are parameters: the list of
  player-tagged objects, the doors present in the new scene (this door
  included, since it survived the load) in the engine's order, and the
  object the engine returns for the tag "Player".  Loading the scene and the
  load callback's registration are not modelled.  `Translate` moves in the
  player's local frame; the player is taken to be unrotated.
 */
module Door {
  import opened Common

  datatype Direction = Left | Right | Up | Down

  /** A door's inspector values, where it stands and its collider's size. */
  datatype Door = Door(
    iD: int,
    direction: Direction,
    sceneName: string,
    doorID: int,
    pos: Vec2,
    colliderSize: Vec2)

  /** A scene object's identity. */
  type ObjId = nat

  // ---------------------------------------------------------------------------
  // Leaving the old scene
  // ---------------------------------------------------------------------------

  /**
    The direction gate of `OnTriggerExit2D`: the exit counts only when the
    object is not on the room's side of the door; being level with the door
    counts.
   */
  predicate ExitGate(dir: Direction, doorPos: Vec2, objPos: Vec2) {
    match dir
    case Left => !(objPos.x > doorPos.x)
    case Right => !(objPos.x < doorPos.x)
    case Up => !(objPos.y < doorPos.y)
    case Down => !(objPos.y > doorPos.y)
  }

  /** Opposite doors agree only about an object exactly level with them. */
  lemma OppositeGatesMeetOnlyWhenLevel(doorPos: Vec2, objPos: Vec2)
    ensures ExitGate(Left, doorPos, objPos) && ExitGate(Right, doorPos, objPos) <==> objPos.x == doorPos.x
    ensures ExitGate(Up, doorPos, objPos) && ExitGate(Down, doorPos, objPos) <==> objPos.y == doorPos.y
    ensures ExitGate(Left, doorPos, objPos) || ExitGate(Right, doorPos, objPos)
    ensures ExitGate(Up, doorPos, objPos) || ExitGate(Down, doorPos, objPos)
  {
  }

  /** Doors on the left or right edge of a room carry the vertical offset, the others the horizontal one. */
  predicate Sideways(dir: Direction) {
    dir == Left || dir == Right
  }

  /** A departure through the door: the remembered offset and the scene to load. */
  datatype Departure = Departure(carryover: real, scene: string)

  /**
    `OnTriggerExit2D` for a collider with tag `colliderTag` at `colliderPos`,
    while the persistent player stands at `playerPos`.  The gate looks at
    the exiting collider, the carried offset at the persistent player.
   */
  function OnTriggerExit(d: Door, playerTag: string, colliderTag: string, colliderPos: Vec2, playerPos: Vec2): (r: Option<Departure>)
    ensures r.Some? <==> ExitGate(d.direction, d.pos, colliderPos) && colliderTag == playerTag
    ensures r.Some? ==> r.value.scene == d.sceneName
    ensures r.Some? && Sideways(d.direction) ==> d.pos.y + r.value.carryover == playerPos.y
    ensures r.Some? && !Sideways(d.direction) ==> d.pos.x + r.value.carryover == playerPos.x
  {
    if !ExitGate(d.direction, d.pos, colliderPos) then None
    else if colliderTag != playerTag then None
    else
      var carry := if Sideways(d.direction) then playerPos.y - d.pos.y else playerPos.x - d.pos.x;
      Some(Departure(carry, d.sceneName))
  }

  // ---------------------------------------------------------------------------
  // Arriving in the new scene
  // ---------------------------------------------------------------------------

  /** The first door in the engine's order whose ID is the one this door leads to. */
  function FindTarget(doors: seq<Door>, doorID: int): (r: Option<nat>)
    ensures r.Some? ==> r.value < |doors| && doors[r.value].iD == doorID
    ensures r.Some? ==> forall j :: 0 <= j < r.value ==> doors[j].iD != doorID
    ensures r.None? <==> forall j :: 0 <= j < |doors| ==> doors[j].iD != doorID
    decreases |doors|
  {
    if |doors| == 0 then None
    else if doors[0].iD == doorID then Some(0)
    else match FindTarget(doors[1..], doorID)
      case None => None
      case Some(k) => Some(k + 1)
  }

  /** Where the player is put: on the target, shifted along the source door's edge. */
  function Relocate(dir: Direction, target: Vec2, carryover: real): (p: Vec2)
    ensures Sideways(dir) ==> p.x == target.x && p.y - target.y == carryover
    ensures !Sideways(dir) ==> p.y == target.y && p.x - target.x == carryover
  {
    if Sideways(dir) then target.Plus(Vec2(0.0, carryover)) else target.Plus(Vec2(carryover, 0.0))
  }

  /** How the load callback ends after moving the player. */
  datatype Finish =
    | Completed(sizeMismatch: bool)   // the size check ran, a camera was added, this door is destroyed
    | TargetWithoutCollider           // no door matched: the stand-in object has no collider and the size check faults

  datatype Arrival =
    | PlayerMissing(destroyed: set<ObjId>)
    | Relocated(player: ObjId, pos: Vec2, destroyed: set<ObjId>, finish: Finish)

  /** The player objects that are not the persistent one, all marked for destruction. */
  function Duplicates(tagged: seq<ObjId>, persistent: ObjId): (s: set<ObjId>)
    ensures forall o :: o in s <==> o in tagged && o != persistent
  {
    set i | 0 <= i < |tagged| && tagged[i] != persistent :: tagged[i]
  }

  /** The size check compares the dimension along the source door's edge. */
  predicate SizeMismatch(dir: Direction, mine: Vec2, theirs: Vec2) {
    if Sideways(dir) then mine.y != theirs.y else mine.x != theirs.x
  }

  /**
    `OnSceneLoad` for door `d` after departing with `dep`.  `tagged` are the
    objects with the player tag, `doors` the doors of the loaded scene and
    `found` the object returned for the tag "Player" (`None` faults).
   */
  function OnSceneLoad(d: Door, dep: Departure, persistent: ObjId, tagged: seq<ObjId>, doors: seq<Door>, found: Option<ObjId>): (r: Arrival)
    ensures r.destroyed == Duplicates(tagged, persistent)
    ensures r.PlayerMissing? <==> found.None?
    ensures r.Relocated? ==> r.player == found.value
    ensures r.Relocated? ==> (r.finish == TargetWithoutCollider <==> FindTarget(doors, d.doorID).None?)
    ensures r.Relocated? && FindTarget(doors, d.doorID).Some? ==>
      var t := doors[FindTarget(doors, d.doorID).value];
      r.pos == Relocate(d.direction, t.pos, dep.carryover) &&
      r.finish == Completed(SizeMismatch(d.direction, d.colliderSize, t.colliderSize))
    ensures r.Relocated? && FindTarget(doors, d.doorID).None? ==> r.pos == Relocate(d.direction, Zero, dep.carryover)
  {
    var destroyed := Duplicates(tagged, persistent);
    match found
    case None => PlayerMissing(destroyed)
    case Some(player) =>
      match FindTarget(doors, d.doorID)
      case None => Relocated(player, Relocate(d.direction, Zero, dep.carryover), destroyed, TargetWithoutCollider)
      case Some(k) =>
        var t := doors[k];
        Relocated(player, Relocate(d.direction, t.pos, dep.carryover), destroyed, Completed(SizeMismatch(d.direction, d.colliderSize, t.colliderSize)))
  }

  /**
    The round trip through a door: when the target exists and the engine
    returns the persistent player, the player arrives exactly as far along
    the target door's edge as it was along the source door's edge when it
    left, and sits on the target's line across the edge.
   */
  lemma OffsetSurvivesTheDoor(
    d: Door, playerTag: string, colliderPos: Vec2, playerPos: Vec2,
    persistent: ObjId, tagged: seq<ObjId>, doors: seq<Door>)
    requires ExitGate(d.direction, d.pos, colliderPos)
    requires exists j :: 0 <= j < |doors| && doors[j].iD == d.doorID
    ensures OnTriggerExit(d, playerTag, playerTag, colliderPos, playerPos).Some?
    ensures
      var dep := OnTriggerExit(d, playerTag, playerTag, colliderPos, playerPos).value;
      var arrival := OnSceneLoad(d, dep, persistent, tagged, doors, Some(persistent));
      var t := doors[FindTarget(doors, d.doorID).value];
      && arrival.Relocated? && arrival.player == persistent
      && persistent !in arrival.destroyed
      && (Sideways(d.direction) ==> arrival.pos.x == t.pos.x && arrival.pos.y - t.pos.y == playerPos.y - d.pos.y)
      && (!Sideways(d.direction) ==> arrival.pos.y == t.pos.y && arrival.pos.x - t.pos.x == playerPos.x - d.pos.x)
  {
  }

  /**
    When the "Player" lookup returns the new scene's own player instead of
    the persistent one, that duplicate is moved to the target although it is
    being destroyed, and the persistent player is not moved at all.
   */
  lemma DuplicateLookupMovesTheWrongPlayer(d: Door, dep: Departure, persistent: ObjId, tagged: seq<ObjId>, doors: seq<Door>, dup: ObjId)
    requires dup in tagged && dup != persistent
    ensures var arrival := OnSceneLoad(d, dep, persistent, tagged, doors, Some(dup));
      && arrival.Relocated? && arrival.player == dup && arrival.player != persistent
      && dup in arrival.destroyed && persistent !in arrival.destroyed
  {
  }

  /** The player arrives on the first matching door even when a later one shares its ID. */
  lemma FirstMatchWins(d: Door, dep: Departure, persistent: ObjId, tagged: seq<ObjId>, doors: seq<Door>, k: nat)
    requires k < |doors| && doors[k].iD == d.doorID
    requires forall j :: 0 <= j < k ==> doors[j].iD != d.doorID
    ensures OnSceneLoad(d, dep, persistent, tagged, doors, Some(persistent)).pos == Relocate(d.direction, doors[k].pos, dep.carryover)
  {
    assert FindTarget(doors, d.doorID).Some?;
  }
}

=== FILE: enemy_basic.dfy ===
/**
  The basic enemy's damage handling (Assets/Scripts/Entities/Enemies/EnemyBasic.cs
  with its Stats record, Assets/Scripts/Stats.cs).

  Health and damage are C# `int`s: the subtraction wraps around on overflow
  (C# arithmetic is unchecked by default), then the result is clamped to
  `[0, maxHealth]`, and the enemy is killed when nothing is left.

  `TakeDamageAsWritten` is the source's behaviour; `TakeDamage` is the
  overflow-free version the rest of the model uses.  The two agree whenever
  `health - amount` fits in 32 bits (`AgreesWithoutOverflow`).
 */
module EnemyBasic {
  import opened Common

  const Int32Min: int := -0x8000_0000
  const Int32Max: int := 0x7FFF_FFFF

  /** A value of C#'s 32-bit `int`. */
  type Int32 = x: int | Int32Min <= x <= Int32Max

  /** Two's-complement wrap-around of an unbounded result into 32 bits. */
  function Wrap(x: int): (r: Int32)
    ensures Int32Min <= x <= Int32Max ==> r == x
    ensures (r - x) % 0x1_0000_0000 == 0
  {
    (x - Int32Min) % 0x1_0000_0000 + Int32Min
  }

  /** The enemy's health pool. */
  datatype Stats = Stats(maxHealth: Int32, health: Int32)

  /** The outcome of one hit: the new stats and whether `Kill` ran. */
  datatype Hit = Hit(stats: Stats, killed: bool)

  /**
    `TakeDamage` as written: subtract with 32-bit wrap-around, clamp to
    `[0, maxHealth]`, kill when the result is not positive.
   */
  function TakeDamageAsWritten(s: Stats, amount: Int32): (r: Hit)
    ensures r.stats.maxHealth == s.maxHealth
    ensures 0 <= s.maxHealth ==> 0 <= r.stats.health <= s.maxHealth
    ensures r.killed <==> r.stats.health <= 0
  {
    var health := ClampInt(Wrap(s.health - amount), 0, s.maxHealth);
    Hit(s.(health := health), health <= 0)
  }

  /**
    A heal (a negative amount) large enough to overflow turns into a lethal
    hit: a full-health enemy is killed by a heal.
   */
  lemma HealOverflowKills()
    ensures TakeDamageAsWritten(Stats(100, 100), -2147483600).killed
  {
    assert Wrap(100 + 2147483600) == -2147483596;
  }

  /**
    The evidently intended damage rule: the subtraction does not overflow,
    the result is clamped to `[0, maxHealth]` and the enemy dies exactly
    when its health is used up.
   */
  function TakeDamage(s: Stats, amount: Int32): (r: Hit)
    ensures r.stats.maxHealth == s.maxHealth
    ensures 0 <= s.maxHealth ==> 0 <= r.stats.health <= s.maxHealth
    ensures 0 < s.maxHealth ==> (r.killed <==> s.health - amount <= 0)
    ensures s.maxHealth <= 0 ==> r.killed
    ensures 0 <= s.maxHealth && 0 <= s.health - amount <= s.maxHealth ==> r.stats.health == s.health - amount
  {
    var health := ClampInt(s.health - amount, 0, s.maxHealth);
    Hit(s.(health := health), health <= 0)
  }

  /** With the intended rule a heal never kills a living enemy. */
  lemma HealNeverKills(s: Stats, amount: Int32)
    requires 0 < s.maxHealth && 0 < s.health && amount <= 0
    ensures !TakeDamage(s, amount).killed
    ensures TakeDamage(s, amount).stats.health >= Min(s.health, s.maxHealth)
  {
  }

  /** The smaller of two integers. */
  function Min(a: int, b: int): (m: int)
    ensures m <= a && m <= b && (m == a || m == b)
  {
    if a <= b then a else b
  }

  /** Whenever the subtraction fits in 32 bits the source and the intended rule coincide. */
  lemma AgreesWithoutOverflow(s: Stats, amount: Int32)
    requires Int32Min <= s.health - amount <= Int32Max
    ensures TakeDamageAsWritten(s, amount) == TakeDamage(s, amount)
  {
  }

  /** More damage never leaves more health. */
  lemma DamageIsMonotone(s: Stats, a: Int32, b: Int32)
    requires 0 <= s.maxHealth && a <= b
    ensures TakeDamage(s, b).stats.health <= TakeDamage(s, a).stats.health
    ensures TakeDamage(s, a).killed ==> TakeDamage(s, b).killed
  {
  }

  /**
    Repeated hits, as a trigger that lists the enemy's tag several times
    delivers them: the enemy object survives destruction to the end of the
    frame, so every hit lands and `killed` records whether any of them killed.
   */
  function Hits(s: Stats, amount: Int32, n: nat): (r: Hit)
    decreases n
  {
    if n == 0 then Hit(s, false)
    else
      var first := TakeDamage(s, amount);
      var rest := Hits(first.stats, amount, n - 1);
      Hit(rest.stats, first.killed || rest.killed)
  }

  /**
    Taking the same non-negative damage `n` times removes `n` times that
    damage, down to zero, and kills exactly when that exhausts the health.
   */
  lemma {:induction false} HitsAccumulate(s: Stats, amount: Int32, n: nat)
    requires 0 <= s.health <= s.maxHealth && 0 <= amount
    ensures Hits(s, amount, n).stats.maxHealth == s.maxHealth
    ensures Hits(s, amount, n).stats.health == (if s.health - n * amount < 0 then 0 else s.health - n * amount)
    ensures Hits(s, amount, n).killed <==> 0 < n && s.health - n * amount <= 0
    decreases n
  {
    if n > 0 {
      var first := TakeDamage(s, amount);
      HitsAccumulate(first.stats, amount, n - 1);
      assert (n - 1) * amount + amount == n * amount;
      if s.health - amount <= 0 {
        assert (n - 1) * amount >= 0;
      }
    }
  }
}

=== FILE: kinematic_player.dfy ===
/**
  The kinematic player controller (Assets/Scripts/Entities/PlayerController.cs).

  Each fixed update runs the active state's logic (which sets the velocity and
  may transition), then resolves the motion one axis at a time with batches of
  parallel rays, snaps down descending slopes and records whether the player
  ended on the ground.

  Engine services are parameters: ray queries (`Engine.cast`), the angle between
  a surface normal and straight up, and the tangent and cosine of an angle in
  degrees.  Input and time arrive once per update in `Input`.
 */
module KinematicPlayer {
  import opened Common
  import opened Raycast
  import opened StateMachine

  /** Inspector settings plus the collider geometry cached at start-up. */
  datatype Config = Config(
    movementSpeed: real,
    jumpingSpeed: real,
    gravity: real,
    maxSlopeSnapDistance: real,
    maxSlopeAngle: real,
    slopeNormalization: bool,
    terminalVelocity: real,
    jumpingTime: real,
    testingDistance: real,
    sizeTolerance: real,
    skinSize: real,
    horizontalRays: nat,
    verticalRays: nat,
    extents: Vec2,
    colliderOffset: Vec2)
  {
    /** The collider's full width and height. */
    function Size(): Vec2 { extents.Scale(2.0) }

    /** Corner offsets from the player's position, collider offset included. */
    function TopLeft(): Vec2 { Vec2(-extents.x, extents.y).Plus(colliderOffset) }
    function BottomLeft(): Vec2 { Vec2(-extents.x, -extents.y).Plus(colliderOffset) }
    function BottomRight(): Vec2 { Vec2(extents.x, -extents.y).Plus(colliderOffset) }
  }

  /** The engine queries the controller consumes. */
  datatype Engine = Engine(
    cast: Caster,
    angleFromUp: Vec2 -> real,
    tanDeg: real -> real,
    cosDeg: real -> real)

  /** One fixed update's input axes and clock readings. */
  datatype Input = Input(horizontal: real, vertical: real, now: real, dt: real)

  // ---------------------------------------------------------------------------
  // Ray batches
  // ---------------------------------------------------------------------------

  /**
    Origin of horizontal ray `i`: `skinSize` inside the leading vertical edge,
    `sizeTolerance/2` above the bottom edge, then evenly spaced upwards.
   */
  function HorizontalOrigin(cfg: Config, pos: Vec2, distance: real, i: nat): Vec2 {
    var dir := Direction(distance);
    var leadingEdge := pos.x + cfg.colliderOffset.x + dir * cfg.extents.x;
    var bottomEdge := pos.y + cfg.colliderOffset.y - cfg.extents.y;
    Vec2(leadingEdge - dir * cfg.skinSize,
         bottomEdge + EdgeOffset(cfg.sizeTolerance, cfg.Size().y, cfg.horizontalRays, i))
  }

  /**
    Origin of vertical ray `i`: `skinSize` inside the leading horizontal edge,
    `sizeTolerance/2` right of the left edge, then evenly spaced rightwards.
   */
  function VerticalOrigin(cfg: Config, pos: Vec2, distance: real, i: nat): Vec2 {
    var dir := Direction(distance);
    var leadingEdge := pos.y + cfg.colliderOffset.y + dir * cfg.extents.y;
    var leftEdge := pos.x + cfg.colliderOffset.x - cfg.extents.x;
    Vec2(leftEdge + EdgeOffset(cfg.sizeTolerance, cfg.Size().x, cfg.verticalRays, i),
         leadingEdge - dir * cfg.skinSize)
  }

  /**
    Horizontal ray batch: always `horizontalRays` results; a zero distance
    casts nothing; otherwise every ray points in the direction of travel and
    is `|distance| + skinSize` long.
   */
  function HorizontalRaycast(cfg: Config, e: Engine, pos: Vec2, distance: real): (rays: seq<Ray>)
    ensures |rays| == cfg.horizontalRays
    ensures distance == 0.0 ==> forall i :: 0 <= i < |rays| ==> rays[i] == Miss
    ensures distance != 0.0 ==> forall i :: 0 <= i < |rays| ==>
      rays[i] == e.cast(HorizontalOrigin(cfg, pos, distance, i), Vec2(Direction(distance), 0.0), Abs(distance) + cfg.skinSize)
  {
    if distance == 0.0 then Misses(cfg.horizontalRays)
    else
      var corner := pos.Plus(if distance < 0.0 then cfg.BottomLeft() else cfg.BottomRight());
      var first := Vec2(corner.x + (if distance < 0.0 then cfg.skinSize else -cfg.skinSize),
                        corner.y + cfg.sizeTolerance / 2.0);
      var step := Vec2(0.0, Spacing(cfg.Size().y - cfg.sizeTolerance, cfg.horizontalRays));
      var rays := Batch(e.cast, first, step, Vec2(Direction(distance), 0.0), Abs(distance) + cfg.skinSize, cfg.horizontalRays);
      assert forall i :: 0 <= i < |rays| ==> RayOrigin(first, step, i) == HorizontalOrigin(cfg, pos, distance, i) by {
        forall i | 0 <= i < |rays| ensures RayOrigin(first, step, i) == HorizontalOrigin(cfg, pos, distance, i) {
          assert step.Scale(i as real) == Vec2(0.0, (i as real) * step.y);
        }
      }
      rays
  }

  /**
    Vertical ray batch: always `verticalRays` results; a zero distance casts
    nothing; otherwise every ray points up or down with the travel and is
    `|distance| + skinSize` long.
   */
  function VerticalRaycast(cfg: Config, e: Engine, pos: Vec2, distance: real): (rays: seq<Ray>)
    ensures |rays| == cfg.verticalRays
    ensures distance == 0.0 ==> forall i :: 0 <= i < |rays| ==> rays[i] == Miss
    ensures distance != 0.0 ==> forall i :: 0 <= i < |rays| ==>
      rays[i] == e.cast(VerticalOrigin(cfg, pos, distance, i), Vec2(0.0, Direction(distance)), Abs(distance) + cfg.skinSize)
  {
    if distance == 0.0 then Misses(cfg.verticalRays)
    else
      var corner := pos.Plus(if distance > 0.0 then cfg.TopLeft() else cfg.BottomLeft());
      var first := Vec2(corner.x + cfg.sizeTolerance / 2.0,
                        corner.y + (if distance > 0.0 then -cfg.skinSize else cfg.skinSize));
      var step := Vec2(Spacing(cfg.Size().x - cfg.sizeTolerance, cfg.verticalRays), 0.0);
      var rays := Batch(e.cast, first, step, Vec2(0.0, Direction(distance)), Abs(distance) + cfg.skinSize, cfg.verticalRays);
      assert forall i :: 0 <= i < |rays| ==> RayOrigin(first, step, i) == VerticalOrigin(cfg, pos, distance, i) by {
        forall i | 0 <= i < |rays| ensures RayOrigin(first, step, i) == VerticalOrigin(cfg, pos, distance, i) {
          assert step.Scale(i as real) == Vec2((i as real) * step.x, 0.0);
        }
      }
      rays
  }

  /**
    With a ray count in the inspector's range, the horizontal origins run from
    `sizeTolerance/2` above the bottom edge to `sizeTolerance/2` below the top
    edge in equal steps; the vertical origins do the same along the width.
   */
  lemma OriginsSpanEdges(cfg: Config, pos: Vec2, distance: real)
    requires 2 <= cfg.horizontalRays <= 15 && 2 <= cfg.verticalRays <= 15
    ensures HorizontalOrigin(cfg, pos, distance, 0).y == pos.y + cfg.colliderOffset.y - cfg.extents.y + cfg.sizeTolerance / 2.0
    ensures HorizontalOrigin(cfg, pos, distance, cfg.horizontalRays - 1).y
         == pos.y + cfg.colliderOffset.y + cfg.extents.y - cfg.sizeTolerance / 2.0
    ensures forall i :: 0 <= i < cfg.horizontalRays - 1 ==>
      HorizontalOrigin(cfg, pos, distance, i + 1).y - HorizontalOrigin(cfg, pos, distance, i).y
        == (cfg.Size().y - cfg.sizeTolerance) / ((cfg.horizontalRays - 1) as real)
    ensures VerticalOrigin(cfg, pos, distance, 0).x == pos.x + cfg.colliderOffset.x - cfg.extents.x + cfg.sizeTolerance / 2.0
    ensures VerticalOrigin(cfg, pos, distance, cfg.verticalRays - 1).x
         == pos.x + cfg.colliderOffset.x + cfg.extents.x - cfg.sizeTolerance / 2.0
    ensures forall i :: 0 <= i < cfg.verticalRays - 1 ==>
      VerticalOrigin(cfg, pos, distance, i + 1).x - VerticalOrigin(cfg, pos, distance, i).x
        == (cfg.Size().x - cfg.sizeTolerance) / ((cfg.verticalRays - 1) as real)
  {
    EdgeOffsetsSpan(cfg.sizeTolerance, cfg.Size().y, cfg.horizontalRays);
    EdgeOffsetsSpan(cfg.sizeTolerance, cfg.Size().x, cfg.verticalRays);
  }

  /** The grounded test: any ray of a short downward batch hits. */
  function IsGrounded(cfg: Config, e: Engine, pos: Vec2): (b: bool)
    ensures b <==> SomeHit(VerticalRaycast(cfg, e, pos, -cfg.testingDistance))
    ensures cfg.testingDistance == 0.0 ==> !b
  {
    AnyHit(VerticalRaycast(cfg, e, pos, -cfg.testingDistance))
  }

  /** The ceiling test: any ray of a short upward batch hits. */
  function HitsCeiling(cfg: Config, e: Engine, pos: Vec2): (b: bool)
    ensures b <==> SomeHit(VerticalRaycast(cfg, e, pos, cfg.testingDistance))
    ensures cfg.testingDistance == 0.0 ==> !b
  {
    AnyHit(VerticalRaycast(cfg, e, pos, cfg.testingDistance))
  }

  // ---------------------------------------------------------------------------
  // Axis-separated movement
  // ---------------------------------------------------------------------------

  /**
    Horizontal resolution against the nearest hit: on a hit the collider's
    leading edge is placed on the hit point; otherwise the player moves the
    full distance.  The vertical coordinate never changes.
   */
  function ResolveX(cfg: Config, pos: Vec2, distance: real, nearest: Ray): (r: Vec2)
    ensures r.y == pos.y
    ensures nearest.hit ==> r.x + cfg.colliderOffset.x + Direction(distance) * cfg.extents.x == nearest.point.x
    ensures !nearest.hit ==> r.x == pos.x + distance
  {
    if nearest.hit then
      Vec2(Against(nearest.point.x, cfg.Size().x / 2.0, cfg.colliderOffset.x, Direction(distance)), pos.y)
    else
      Vec2(pos.x + distance, pos.y)
  }

  /** Vertical resolution, as `ResolveX` with the axes swapped. */
  function ResolveY(cfg: Config, pos: Vec2, distance: real, nearest: Ray): (r: Vec2)
    ensures r.x == pos.x
    ensures nearest.hit ==> r.y + cfg.colliderOffset.y + Direction(distance) * cfg.extents.y == nearest.point.y
    ensures !nearest.hit ==> r.y == pos.y + distance
  {
    if nearest.hit then
      Vec2(pos.x, Against(nearest.point.y, cfg.Size().y / 2.0, cfg.colliderOffset.y, Direction(distance)))
    else
      Vec2(pos.x, pos.y + distance)
  }

  /** Vertical movement: cast, reduce to the nearest hit, resolve. */
  function VerticalMovement(cfg: Config, e: Engine, pos: Vec2, distance: real): (r: Vec2)
    ensures r.x == pos.x
    ensures distance == 0.0 ==> r == pos
    ensures !SomeHit(VerticalRaycast(cfg, e, pos, distance)) ==> r.y == pos.y + distance
    ensures SomeHit(VerticalRaycast(cfg, e, pos, distance)) ==>
      exists k :: IsNearest(VerticalRaycast(cfg, e, pos, distance), k) &&
        r.y + cfg.colliderOffset.y + Direction(distance) * cfg.extents.y == VerticalRaycast(cfg, e, pos, distance)[k].point.y
  {
    var rays := VerticalRaycast(cfg, e, pos, distance);
    assert distance == 0.0 ==> !SomeHit(rays);
    ResolveY(cfg, pos, distance, EvaluateRaycasts(rays))
  }

  /**
    The upward-slope gate and correction.  Nothing happens while the player
    moves vertically, on a 90-degree surface or on one steeper than
    `maxSlopeAngle`; otherwise the lift is `|tan(angle) * distance|`, scaled by
    `cos(angle)` when slope normalization is on.
   */
  function SlopeCorrection(cfg: Config, e: Engine, vy: real, angle: real, distance: real): (r: Option<real>)
    ensures r.Some? <==> vy == 0.0 && angle != 90.0 && angle <= cfg.maxSlopeAngle
    ensures r.Some? && (!cfg.slopeNormalization || 0.0 <= e.cosDeg(angle)) ==> r.value >= 0.0
    ensures r.Some? && distance == 0.0 ==> r.value == 0.0
  {
    if vy != 0.0 then None
    else if angle == 90.0 || angle > cfg.maxSlopeAngle then None
    else
      var lift := Abs(e.tanDeg(angle) * distance);
      Some(if cfg.slopeNormalization then lift * e.cosDeg(angle) else lift)
  }

  /** Lift the player by the slope correction of the foot ray, if any. */
  function UpwardSlope(cfg: Config, e: Engine, pos: Vec2, vy: real, distance: real, foot: Ray): (r: Vec2)
    ensures r.x == pos.x
    ensures SlopeCorrection(cfg, e, vy, e.angleFromUp(foot.normal), distance).None? ==> r == pos
    ensures distance == 0.0 ==> r == pos
    ensures var c := SlopeCorrection(cfg, e, vy, e.angleFromUp(foot.normal), distance);
      c.Some? ==> r == VerticalMovement(cfg, e, pos, c.value)
    ensures var c := SlopeCorrection(cfg, e, vy, e.angleFromUp(foot.normal), distance);
      c.Some? && !SomeHit(VerticalRaycast(cfg, e, pos, c.value)) ==> r.y == pos.y + c.value
  {
    match SlopeCorrection(cfg, e, vy, e.angleFromUp(foot.normal), distance)
    case None => pos
    case Some(lift) => VerticalMovement(cfg, e, pos, lift)
  }

  /**
    The test guarding the slope logic, as written: the source compares the
    nearest result with the foot ray using `==` on two ray results, which only
    compiles through their implicit conversion to `bool`.  It therefore holds
    when both hit or both miss, not when the foot ray is the nearest one.
   */
  predicate FootRayTest(nearest: Ray, rays: seq<Ray>)
    requires |rays| > 0
  {
    nearest.hit == rays[0].hit
  }

  /** The foot test accepts a batch whose nearest hit is not the foot ray. */
  lemma FootRayTestAcceptsFartherFoot()
    ensures var rays := [Ray(true, 2.0, Vec2(2.0, 0.0), Vec2(-1.0, 0.0)), Ray(true, 1.0, Vec2(1.0, 0.5), Vec2(-1.0, 0.0))];
      FootRayTest(EvaluateRaycasts(rays), rays) && !IsNearest(rays, 0)
  {
    var rays := [Ray(true, 2.0, Vec2(2.0, 0.0), Vec2(-1.0, 0.0)), Ray(true, 1.0, Vec2(1.0, 0.5), Vec2(-1.0, 0.0))];
    assert rays[1].hit;
  }

  /** The foot test is exactly hit parity between the nearest result and the foot ray. */
  lemma FootRayTestIsHitParity(rays: seq<Ray>)
    requires |rays| > 0
    ensures FootRayTest(EvaluateRaycasts(rays), rays) <==> (rays[0].hit ==> SomeHit(rays)) && (SomeHit(rays) ==> rays[0].hit)
  {
  }

  /**
    Horizontal movement: cast and reduce; when the foot test passes, apply the
    upward-slope correction (using the nearest result's normal) and cast again
    from the lifted position; then resolve against the nearest hit.
   */
  function HorizontalMovement(cfg: Config, e: Engine, pos: Vec2, vy: real, distance: real): (r: Vec2)
    requires cfg.horizontalRays > 0
    ensures distance == 0.0 ==> r == pos
    ensures !FootRayTest(EvaluateRaycasts(HorizontalRaycast(cfg, e, pos, distance)), HorizontalRaycast(cfg, e, pos, distance))
      ==> r == ResolveX(cfg, pos, distance, EvaluateRaycasts(HorizontalRaycast(cfg, e, pos, distance)))
    ensures vy != 0.0 ==> r == ResolveX(cfg, pos, distance, EvaluateRaycasts(HorizontalRaycast(cfg, e, pos, distance)))
  {
    var rays := HorizontalRaycast(cfg, e, pos, distance);
    var nearest := EvaluateRaycasts(rays);
    if FootRayTest(nearest, rays) then
      var lifted := UpwardSlope(cfg, e, pos, vy, distance, nearest);
      ResolveX(cfg, lifted, distance, EvaluateRaycasts(HorizontalRaycast(cfg, e, lifted, distance)))
    else
      ResolveX(cfg, pos, distance, nearest)
  }

  /** All conditions of the downward-slope snap. */
  predicate SnapApplies(cfg: Config, e: Engine, pos: Vec2, vy: real, previouslyGrounded: bool) {
    && vy == 0.0
    && previouslyGrounded
    && !IsGrounded(cfg, e, pos)
    && AnyHit(VerticalRaycast(cfg, e, pos, -cfg.maxSlopeSnapDistance))
  }

  /**
    Downward-slope snap: move down by `maxSlopeSnapDistance` (resolved against
    the ground) only when the player is not moving vertically, was grounded
    on the previous update, is not grounded now and some snap ray hits.
   */
  function DownwardSlope(cfg: Config, e: Engine, pos: Vec2, vy: real, previouslyGrounded: bool): (r: Vec2)
    ensures r.x == pos.x
    ensures !SnapApplies(cfg, e, pos, vy, previouslyGrounded) ==> r == pos
    ensures SnapApplies(cfg, e, pos, vy, previouslyGrounded) ==> r == VerticalMovement(cfg, e, pos, -cfg.maxSlopeSnapDistance)
  {
    if vy != 0.0 then pos
    else if !IsGrounded(cfg, e, pos) && previouslyGrounded then
      var snap := -cfg.maxSlopeSnapDistance;
      var hit := AnyHit(VerticalRaycast(cfg, e, pos, snap));
      if hit then VerticalMovement(cfg, e, pos, snap) else pos
    else pos
  }

  // ---------------------------------------------------------------------------
  // States
  // ---------------------------------------------------------------------------

  /** The active-state slot: the inert placeholder used before start-up, then one of three states. */
  datatype Mode = Placeholder | Grounded | Jumping | Falling

  /**
    The player.  `prevVertical` is the previous vertical input kept by the
    Grounded and Falling states and `jumpDeadline` the Jumping state's
    deadline: each transition builds a fresh state object and only the
    active one's fields are ever read, so they live here.
   */
  datatype Player = Player(
    pos: Vec2,
    vel: Vec2,
    prevVertical: real,
    jumpDeadline: real,
    previouslyGrounded: bool,
    hasDoubleJumped: bool,
    dropDown: bool,
    delta: Vec2)

  type Actor = Machine<Mode, Player>

  /**
    The work done when a state object is built and entered: Grounded zeroes
    the vertical velocity and records the vertical input; Jumping sets the
    jumping speed and the deadline; Falling's constructor records the
    vertical input.  No state has exit logic.
   */
  function Enter(cfg: Config, input: Input, s: Mode, p: Player): (r: Player)
    ensures r.pos == p.pos && r.vel.x == p.vel.x && r.hasDoubleJumped == p.hasDoubleJumped
    ensures s == Grounded ==> r.vel.y == 0.0 && r.prevVertical == input.vertical
    ensures s == Jumping ==> r.vel.y == cfg.jumpingSpeed && r.jumpDeadline == input.now + cfg.jumpingTime
    ensures s == Falling ==> r.vel == p.vel && r.prevVertical == input.vertical
  {
    match s
    case Placeholder => p
    case Grounded => p.(vel := Vec2(p.vel.x, 0.0), prevVertical := input.vertical)
    case Jumping => p.(vel := Vec2(p.vel.x, cfg.jumpingSpeed), jumpDeadline := input.now + cfg.jumpingTime)
    case Falling => p.(prevVertical := input.vertical)
  }

  function PlayerHooks(cfg: Config, input: Input): Hooks<Mode, Player> {
    Hooks((s: Mode, p: Player) => Enter(cfg, input, s, p), (s: Mode, p: Player) => p)
  }

  function Go(cfg: Config, input: Input, a: Actor, next: Mode): (r: Actor)
    ensures r == Transition(a, next, PlayerHooks(cfg, input))
    ensures r.active == next && r.ctx == Enter(cfg, input, next, a.ctx)
  {
    Transition(a, next, PlayerHooks(cfg, input))
  }

  /** The input is a rising jump press: above zero and above the previous reading. */
  predicate RisingJump(input: Input, previous: real) {
    input.vertical > 0.0 && input.vertical > previous
  }

  function WithHorizontalSpeed(cfg: Config, input: Input, p: Player): Player {
    p.(vel := Vec2(input.horizontal * cfg.movementSpeed, p.vel.y))
  }

  /**
    Grounded: set the horizontal speed; fall when not grounded; then, with no
    ceiling above, jump on a rising input (so both transitions may run in one
    update, the jump winning); finally record the drop-down request.
   */
  function GroundedUpdate(cfg: Config, e: Engine, a: Actor, input: Input): (r: Actor)
    requires a.active == Grounded
    ensures r.ctx.vel.x == input.horizontal * cfg.movementSpeed
    ensures r.ctx.pos == a.ctx.pos && r.ctx.dropDown == (input.vertical < 0.0)
    ensures r.ctx.hasDoubleJumped == a.ctx.hasDoubleJumped
    ensures r.active == Jumping <==> !HitsCeiling(cfg, e, a.ctx.pos) && RisingJump(input, a.ctx.prevVertical)
    ensures r.active == Falling <==> r.active != Jumping && !IsGrounded(cfg, e, a.ctx.pos)
    ensures r.active == Jumping ==> r.ctx.vel.y == cfg.jumpingSpeed && r.ctx.jumpDeadline == input.now + cfg.jumpingTime
    ensures r.active == Grounded ==> r.ctx.vel.y == a.ctx.vel.y && r.trace == a.trace
  {
    var own := a.ctx.prevVertical;
    var a1 := WithCtx(a, WithHorizontalSpeed(cfg, input, a.ctx));
    var a2 := if !IsGrounded(cfg, e, a.ctx.pos) then Go(cfg, input, a1, Falling) else a1;
    var a3 := if !HitsCeiling(cfg, e, a.ctx.pos) && RisingJump(input, own) then Go(cfg, input, a2, Jumping) else a2;
    // The Grounded object writes its own previous-input field last; once a
    // transition has replaced it that write is dead, and the field here then
    // already holds the same reading (Falling records it) or is unused (Jumping).
    WithCtx(a3, a3.ctx.(dropDown := input.vertical < 0.0, prevVertical := input.vertical))
  }

  /**
    Jumping: set the horizontal speed; under a ceiling zero the vertical
    speed and fall; fall as well on a released input or past the deadline.
   */
  function JumpingUpdate(cfg: Config, e: Engine, a: Actor, input: Input): (r: Actor)
    requires a.active == Jumping
    ensures r.ctx.vel.x == input.horizontal * cfg.movementSpeed
    ensures r.ctx.pos == a.ctx.pos && r.ctx.hasDoubleJumped == a.ctx.hasDoubleJumped
    ensures r.active == Falling <==> HitsCeiling(cfg, e, a.ctx.pos) || input.vertical <= 0.0 || a.ctx.jumpDeadline < input.now
    ensures r.active == Jumping <==> !(r.active == Falling)
    ensures r.ctx.vel.y == (if HitsCeiling(cfg, e, a.ctx.pos) then 0.0 else a.ctx.vel.y)
  {
    var a1 := WithCtx(a, WithHorizontalSpeed(cfg, input, a.ctx));
    var ceiling := HitsCeiling(cfg, e, a.ctx.pos);
    var a2 := if ceiling then Go(cfg, input, WithCtx(a1, a1.ctx.(vel := Vec2(a1.ctx.vel.x, 0.0))), Falling) else a1;
    if input.vertical <= 0.0 || a.ctx.jumpDeadline < input.now then Go(cfg, input, a2, Falling) else a2
  }

  /** Falling's gravity step: accelerate, stop rising under a ceiling, cap the fall speed. */
  function FallSpeed(cfg: Config, vy: real, ceiling: bool): (r: real)
    ensures r >= -cfg.terminalVelocity
    ensures ceiling ==> r <= 0.0 || r == -cfg.terminalVelocity
    ensures vy - cfg.gravity >= -cfg.terminalVelocity && !(ceiling && vy - cfg.gravity > 0.0) ==> r == vy - cfg.gravity
  {
    var v1 := vy - cfg.gravity;
    var v2 := if ceiling && v1 > 0.0 then 0.0 else v1;
    if v2 < -cfg.terminalVelocity then -cfg.terminalVelocity else v2
  }

  /** Falling performs an air jump in this update. */
  predicate AirJump(cfg: Config, e: Engine, a: Actor, input: Input) {
    a.active == Falling && !a.ctx.hasDoubleJumped && !HitsCeiling(cfg, e, a.ctx.pos) && RisingJump(input, a.ctx.prevVertical)
  }

  /** Falling lands in this update (the only place the air jump is given back). */
  predicate Lands(cfg: Config, e: Engine, a: Actor) {
    a.active == Falling && IsGrounded(cfg, e, a.ctx.pos)
  }

  /**
    Falling: set the horizontal speed and the gravity step; jump once in the
    air on a rising input when no air jump was used and no ceiling is above;
    on the ground, give the air jump back and become Grounded.
   */
  function FallingUpdate(cfg: Config, e: Engine, a: Actor, input: Input): (r: Actor)
    requires a.active == Falling
    ensures r.ctx.vel.x == input.horizontal * cfg.movementSpeed
    ensures r.ctx.pos == a.ctx.pos
    ensures r.active == Grounded <==> Lands(cfg, e, a)
    ensures r.active == Jumping <==> AirJump(cfg, e, a, input) && !Lands(cfg, e, a)
    ensures r.active == Falling ==> r.ctx.vel.y == FallSpeed(cfg, a.ctx.vel.y, HitsCeiling(cfg, e, a.ctx.pos))
    ensures r.active == Falling ==> r.ctx.vel.y >= -cfg.terminalVelocity
    ensures r.active == Jumping ==> r.ctx.vel.y == cfg.jumpingSpeed
    ensures r.active == Grounded ==> r.ctx.vel.y == 0.0
    ensures r.ctx.hasDoubleJumped == (if Lands(cfg, e, a) then false else a.ctx.hasDoubleJumped || AirJump(cfg, e, a, input))
  {
    var own := a.ctx.prevVertical;
    var ceiling := HitsCeiling(cfg, e, a.ctx.pos);
    var p1 := WithHorizontalSpeed(cfg, input, a.ctx);
    var a1 := WithCtx(a, p1.(vel := Vec2(p1.vel.x, FallSpeed(cfg, a.ctx.vel.y, ceiling))));
    var a2 := if !a.ctx.hasDoubleJumped && !ceiling && RisingJump(input, own)
              then Go(cfg, input, WithCtx(a1, a1.ctx.(hasDoubleJumped := true)), Jumping)
              else a1;
    var a3 := if IsGrounded(cfg, e, a.ctx.pos)
              then Go(cfg, input, WithCtx(a2, a2.ctx.(hasDoubleJumped := false)), Grounded)
              else a2;
    WithCtx(a3, a3.ctx.(prevVertical := input.vertical))
  }

  /** The active state's fixed-update logic; the placeholder does nothing. */
  function StateUpdate(cfg: Config, e: Engine, a: Actor, input: Input): (r: Actor)
    ensures r.ctx.pos == a.ctx.pos
    ensures a.active != Placeholder ==> r.ctx.vel.x == input.horizontal * cfg.movementSpeed
    ensures a.active == Placeholder ==> r == a
  {
    match a.active
    case Placeholder => a
    case Grounded => GroundedUpdate(cfg, e, a, input)
    case Jumping => JumpingUpdate(cfg, e, a, input)
    case Falling => FallingUpdate(cfg, e, a, input)
  }

  /**
    Start-up: zero velocity, the placeholder state, then a transition into
    Falling, whose constructor records the current vertical input.
   */
  function Start(cfg: Config, pos: Vec2, input: Input): (a: Actor)
    ensures a.active == Falling && a.ctx.pos == pos && a.ctx.vel == Zero
    ensures a.trace == [Exited(Placeholder), Entered(Falling)]
    ensures !a.ctx.hasDoubleJumped && !a.ctx.previouslyGrounded
  {
    var initial := Machine(Placeholder, Player(pos, Zero, 0.0, 0.0, false, false, false, Zero), []);
    Go(cfg, input, initial, Falling)
  }

  /**
    Moving vertically by `d`, with no ray of the horizontal cast nor of the
    vertical cast after it hitting anything.
   */
  ghost predicate OpenSpace(cfg: Config, e: Engine, pos: Vec2, vy: real, d: Vec2) {
    && vy != 0.0
    && !SomeHit(HorizontalRaycast(cfg, e, pos, d.x))
    && !SomeHit(VerticalRaycast(cfg, e, Vec2(pos.x + d.x, pos.y), d.y))
  }

  /** In open space the horizontal and the vertical move together displace by exactly `d`. */
  lemma OpenSpaceMove(cfg: Config, e: Engine, pos: Vec2, vy: real, d: Vec2)
    requires cfg.horizontalRays > 0
    requires OpenSpace(cfg, e, pos, vy, d)
    ensures VerticalMovement(cfg, e, HorizontalMovement(cfg, e, pos, vy, d.x), d.y) == pos.Plus(d)
  {
    var x1 := HorizontalMovement(cfg, e, pos, vy, d.x);
    assert !EvaluateRaycasts(HorizontalRaycast(cfg, e, pos, d.x)).hit;
    assert x1 == Vec2(pos.x + d.x, pos.y);
  }

  /**
    The three moves of an update by the displacement `d` (velocity times the
    time step): horizontal, then vertical from there, then the downward snap.
    In open space they displace the player by exactly `d`.
   */
  function Move(cfg: Config, e: Engine, pos: Vec2, vy: real, d: Vec2, previouslyGrounded: bool): (r: Vec2)
    requires cfg.horizontalRays > 0
    ensures OpenSpace(cfg, e, pos, vy, d) ==> r == pos.Plus(d)
  {
    var y1 := VerticalMovement(cfg, e, HorizontalMovement(cfg, e, pos, vy, d.x), d.y);
    assert OpenSpace(cfg, e, pos, vy, d) ==> y1 == pos.Plus(d) by {
      if OpenSpace(cfg, e, pos, vy, d) {
        OpenSpaceMove(cfg, e, pos, vy, d);
      }
    }
    DownwardSlope(cfg, e, y1, vy, previouslyGrounded)
  }

  /**
    One fixed update: state logic, horizontal then vertical movement by
    velocity times the time step, the downward-slope snap, then the grounded
    flag for the next update and the displacement of this one.
   */
  function FixedUpdate(cfg: Config, e: Engine, a: Actor, input: Input): (r: Actor)
    requires cfg.horizontalRays > 0
    ensures r.active == StateUpdate(cfg, e, a, input).active
    ensures r.trace == StateUpdate(cfg, e, a, input).trace
    ensures r.ctx.vel == StateUpdate(cfg, e, a, input).ctx.vel
    ensures r.ctx.hasDoubleJumped == StateUpdate(cfg, e, a, input).ctx.hasDoubleJumped
    ensures r.ctx.previouslyGrounded == IsGrounded(cfg, e, r.ctx.pos)
    ensures r.ctx.delta == r.ctx.pos.Minus(a.ctx.pos)
    ensures OpenSpace(cfg, e, a.ctx.pos, r.ctx.vel.y, r.ctx.vel.Scale(input.dt))
      ==> r.ctx.pos == a.ctx.pos.Plus(r.ctx.vel.Scale(input.dt))
  {
    Integrate(cfg, e, StateUpdate(cfg, e, a, input), input.dt)
  }

  /** The movement half of a fixed update, applied to the actor the state logic produced. */
  function Integrate(cfg: Config, e: Engine, a: Actor, dt: real): (r: Actor)
    requires cfg.horizontalRays > 0
    ensures r.active == a.active && r.trace == a.trace
    ensures r.ctx.vel == a.ctx.vel && r.ctx.hasDoubleJumped == a.ctx.hasDoubleJumped
    ensures r.ctx.previouslyGrounded == IsGrounded(cfg, e, r.ctx.pos)
    ensures r.ctx.delta == r.ctx.pos.Minus(a.ctx.pos)
    ensures OpenSpace(cfg, e, a.ctx.pos, a.ctx.vel.y, a.ctx.vel.Scale(dt))
      ==> r.ctx.pos == a.ctx.pos.Plus(a.ctx.vel.Scale(dt))
  {
    var moved := Move(cfg, e, a.ctx.pos, a.ctx.vel.y, a.ctx.vel.Scale(dt), a.ctx.previouslyGrounded);
    var grounded := IsGrounded(cfg, e, moved);
    Machine(a.active, a.ctx.(pos := moved, previouslyGrounded := grounded, delta := moved.Minus(a.ctx.pos)), a.trace)
  }


  /**
    A single update may transition twice: a Grounded player that is no
    longer on the ground but presses jump first falls and then jumps.  The
    jump wins, and both entries ran in order.
   */
  lemma FallThenJumpInOneUpdate(cfg: Config, e: Engine, a: Actor, input: Input)
    requires a.active == Grounded
    requires !IsGrounded(cfg, e, a.ctx.pos) && !HitsCeiling(cfg, e, a.ctx.pos) && RisingJump(input, a.ctx.prevVertical)
    ensures GroundedUpdate(cfg, e, a, input).active == Jumping
    ensures GroundedUpdate(cfg, e, a, input).trace == a.trace + [Exited(Grounded), Entered(Falling), Exited(Falling), Entered(Jumping)]
  {
  }

  /** The air-jump bookkeeping of one whole fixed update. */
  lemma AirJumpBookkeeping(cfg: Config, e: Engine, a: Actor, input: Input)
    requires cfg.horizontalRays > 0
    ensures a.ctx.hasDoubleJumped && !Lands(cfg, e, a) ==> FixedUpdate(cfg, e, a, input).ctx.hasDoubleJumped
    ensures AirJump(cfg, e, a, input) && !Lands(cfg, e, a) ==> FixedUpdate(cfg, e, a, input).ctx.hasDoubleJumped
    ensures AirJump(cfg, e, a, input) ==> !a.ctx.hasDoubleJumped
  {
    var r := StateUpdate(cfg, e, a, input);
    if a.active == Falling {
      assert r == FallingUpdate(cfg, e, a, input);
    }
  }

  /** Fixed updates in sequence, one input per update. */
  function Simulate(cfg: Config, e: Engine, a: Actor, inputs: seq<Input>): Actor
    requires cfg.horizontalRays > 0
    decreases |inputs|
  {
    if |inputs| == 0 then a else Simulate(cfg, e, FixedUpdate(cfg, e, a, inputs[0]), inputs[1..])
  }

  /** The number of air jumps performed along a sequence of updates. */
  function AirJumps(cfg: Config, e: Engine, a: Actor, inputs: seq<Input>): nat
    requires cfg.horizontalRays > 0
    decreases |inputs|
  {
    if |inputs| == 0 then 0
    else (if AirJump(cfg, e, a, inputs[0]) then 1 else 0) + AirJumps(cfg, e, FixedUpdate(cfg, e, a, inputs[0]), inputs[1..])
  }

  /** No update of the sequence lands. */
  predicate NoLanding(cfg: Config, e: Engine, a: Actor, inputs: seq<Input>)
    requires cfg.horizontalRays > 0
    decreases |inputs|
  {
    |inputs| == 0 || (!Lands(cfg, e, a) && NoLanding(cfg, e, FixedUpdate(cfg, e, a, inputs[0]), inputs[1..]))
  }

  /**
    Between two landings the player jumps in the air at most once, and not
    at all once the air jump has been used.
   */
  lemma {:induction false} AtMostOneAirJumpPerLanding(cfg: Config, e: Engine, a: Actor, inputs: seq<Input>)
    requires cfg.horizontalRays > 0
    requires NoLanding(cfg, e, a, inputs)
    ensures AirJumps(cfg, e, a, inputs) <= 1
    ensures a.ctx.hasDoubleJumped ==> AirJumps(cfg, e, a, inputs) == 0
    decreases |inputs|
  {
    if |inputs| > 0 {
      var next := FixedUpdate(cfg, e, a, inputs[0]);
      AirJumpBookkeeping(cfg, e, a, inputs[0]);
      AtMostOneAirJumpPerLanding(cfg, e, next, inputs[1..]);
    }
  }
}

=== FILE: legacy_player.dfy ===
/**
  The legacy rigid-body player controller (Assets/Scripts/PlayerController.cs).

  Every fixed update reads the input, updates the facing and the movement
  state shown by the animator, runs the horizontal movement (a wind-up
  multiplier that grows while a direction is held and decays otherwise)
  and then the jump logic: a jump follows a height curve while the button
  is held, is cut short (handing its speed to the rigid body) when the
  button is released, ends when its time is up or the head hits something,
  and is reset on landing.  One double jump is available per landing.

  Engine services are parameters: the ray query used by the ground and
  ceiling probes, and the jump curve.  Only the script's own translations
  move the player here: the rigid body's integration between updates (its
  gravity and velocity) is not modelled, the velocity is only recorded.
 */
module LegacyPlayer {
  import opened Common
  import opened Raycast
  import PlayerAttack

  datatype MovementState = Idle | Running | Jumping | Falling | Landing

  /** The inspector values. */
  datatype Config = Config(
    runWindupScale: real,
    runDecayScale: real,
    dirChangeScale: real,
    speed: real,
    jumpHeight: real,
    doubleJumpHeight: real,
    jumpTime: real,
    jumpDecayScale: real,
    loadout: PlayerAttack.Loadout)

  /**
    Engine services: the ray query and the jump curve, sampled at the
    fraction `elapsed / total` of the current jump.
   */
  datatype Env = Env(cast: Caster, curve: (real, real) -> real)

  /** The fixed time step is positive. */
  type Step = r: real | r > 0.0 witness 1.0

  /** One fixed update's input: the horizontal axis, the jump button, the attack press and the clock. */
  datatype Input = Input(horizontal: real, jumpHeld: bool, fire1Down: bool, now: real, dt: Step)

  /**
    The controller's fields.  `lockedUntil` is the attack animation's lock:
    the player cannot act while it is set.
   */
  datatype Player = Player(
    pos: Vec2,
    rbVel: Vec2,
    state: MovementState,
    currentJumpTime: real,
    jumpTimeElapsed: real,
    currentMaxJumpHeight: real,
    currentJumpHeight: real,
    runWindupMult: real,
    lastXValue: real,
    jumpCancelled: bool,
    canJump: bool,
    jumpObstructed: bool,
    doubleJumpTriggered: bool,
    canDoubleJump: bool,
    lockedUntil: Option<real>,
    lastFlipDir: bool)
  {
    predicate CanMove() { lockedUntil.None? }
  }

  /** Start-up: the jump limits take their configured values; every other field starts cleared. */
  function Start(cfg: Config, pos: Vec2, state: MovementState): (p: Player)
    ensures p.currentJumpTime == cfg.jumpTime && p.currentMaxJumpHeight == cfg.jumpHeight
    ensures p.CanMove() && !p.canJump && !p.canDoubleJump && !p.doubleJumpTriggered
    ensures p.jumpTimeElapsed == 0.0 && p.runWindupMult == 0.0 && p.lastXValue == 0.0
  {
    Player(pos, Zero, state, cfg.jumpTime, 0.0, cfg.jumpHeight, 0.0, 0.0, 0.0,
           false, false, false, false, false, None, false)
  }

  // ---------------------------------------------------------------------------
  // Probes
  // ---------------------------------------------------------------------------

  const ProbeLength: real := 0.2
  const Down: Vec2 := Vec2(0.0, -1.0)
  const Up: Vec2 := Vec2(0.0, 1.0)

  /** Two short rays straight down from 0.4 either side of centre, 0.5 below it. */
  predicate OnGround(cast: Caster, pos: Vec2) {
    cast(pos.Plus(Vec2(0.4, -0.5)), Down, ProbeLength).hit || cast(pos.Plus(Vec2(-0.4, -0.5)), Down, ProbeLength).hit
  }

  /** Two short rays straight up from 0.4 either side of centre, 0.5 above it. */
  predicate HeadBlocked(cast: Caster, pos: Vec2) {
    cast(pos.Plus(Vec2(0.4, 0.5)), Up, ProbeLength).hit || cast(pos.Plus(Vec2(-0.4, 0.5)), Up, ProbeLength).hit
  }

  // ---------------------------------------------------------------------------
  // Input and animation state
  // ---------------------------------------------------------------------------

  /** The length of the attack animation, during which the player cannot act. */
  const AttackLock: real := 0.9

  datatype Read = Read(dir: Vec2, attack: PlayerAttack.Outcome, p: Player)

  /**
    `InputUpdate`: a locked player reads nothing.  Otherwise an attack press
    locks the player and performs a light attack facing the stored flip
    direction, and the direction is the horizontal axis and 1 or 0 for the
    jump button.
   */
  function InputUpdate(cfg: Config, p: Player, input: Input): (r: Read)
    ensures !p.CanMove() ==> r == Read(Zero, PlayerAttack.Nothing, p)
    ensures p.CanMove() ==> r.dir == Vec2(input.horizontal, if input.jumpHeld then 1.0 else 0.0)
    ensures p.CanMove() && input.fire1Down ==>
      r.attack == PlayerAttack.Attack(cfg.loadout, p.pos, PlayerAttack.Light, p.lastFlipDir) &&
      r.p == p.(lockedUntil := Some(input.now + AttackLock))
    ensures p.CanMove() && !input.fire1Down ==> r.attack == PlayerAttack.Nothing && r.p == p
  {
    if !p.CanMove() then Read(Zero, PlayerAttack.Nothing, p)
    else
      var dir := Vec2(input.horizontal, if input.jumpHeld then 1.0 else 0.0);
      if input.fire1Down then
        Read(dir, PlayerAttack.Attack(cfg.loadout, p.pos, PlayerAttack.Light, p.lastFlipDir),
             p.(lockedUntil := Some(input.now + AttackLock)))
      else Read(dir, PlayerAttack.Nothing, p)
  }

  /**
    The game-state part of `AnimationUpdate`: remember the facing of a
    non-zero horizontal input, and turn a jump into a fall on the update
    after it started.
   */
  function AnimationUpdate(p: Player, dir: Vec2): (r: Player)
    ensures r == p.(lastFlipDir := r.lastFlipDir, state := r.state)
    ensures r.lastFlipDir == (if dir.x > 0.0 then true else if dir.x < 0.0 then false else p.lastFlipDir)
    ensures r.state == (if p.state == Jumping then Falling else p.state)
  {
    var flip := if dir.x > 0.0 then true else if dir.x < 0.0 then false else p.lastFlipDir;
    p.(lastFlipDir := flip, state := if p.state == Jumping then Falling else p.state)
  }

  // ---------------------------------------------------------------------------
  // Running
  // ---------------------------------------------------------------------------

  /**
    `MoveUpdate`: while a direction is held the multiplier winds up (and a
    changed input sets a new, clamped direction); otherwise it decays.  The
    multiplier is kept in [0, 1], a spent multiplier forgets the direction,
    and the player moves by direction times multiplier times speed times
    the time step.
   */
  function MoveUpdate(cfg: Config, p: Player, x: real, dt: Step): (r: Player)
    requires -1.0 <= p.lastXValue <= 1.0
    ensures 0.0 <= r.runWindupMult <= 1.0
    ensures -1.0 <= r.lastXValue <= 1.0
    ensures r.runWindupMult == 0.0 ==> r.lastXValue == 0.0 && r.pos == p.pos
    ensures r.pos.y == p.pos.y
    ensures 0.0 <= cfg.speed ==> Abs(r.pos.x - p.pos.x) <= cfg.speed * dt
    ensures x == 0.0 && 0.0 <= p.runWindupMult <= 1.0 && 0.0 <= cfg.runDecayScale ==>
      r.runWindupMult == (if p.runWindupMult - cfg.runDecayScale < 0.0 then 0.0 else p.runWindupMult - cfg.runDecayScale)
    ensures x != 0.0 && 0.0 <= p.runWindupMult + Abs(x) * cfg.runWindupScale <= 1.0 ==>
      r.runWindupMult == p.runWindupMult + Abs(x) * cfg.runWindupScale
    ensures x != 0.0 && p.runWindupMult + Abs(x) * cfg.runWindupScale >= 1.0 ==> r.runWindupMult == 1.0
    ensures r == p.(runWindupMult := r.runWindupMult, lastXValue := r.lastXValue, pos := r.pos)
  {
    var mult := WindUp(cfg, p.runWindupMult, x);
    var lastX := RunDirection(cfg, p.lastXValue, x, mult);
    p.(runWindupMult := mult, lastXValue := lastX, pos := Vec2(p.pos.x + RunDisplacement(lastX, mult, cfg.speed, dt), p.pos.y))
  }

  /** The wind-up multiplier after one update: up by the input's size while moving, down by the decay otherwise, clamped to [0, 1]. */
  function WindUp(cfg: Config, mult: real, x: real): (r: real)
    ensures 0.0 <= r <= 1.0
    ensures x == 0.0 && 0.0 <= mult <= 1.0 && 0.0 <= cfg.runDecayScale ==>
      r == (if mult - cfg.runDecayScale < 0.0 then 0.0 else mult - cfg.runDecayScale)
    ensures x != 0.0 && 0.0 <= mult + Abs(x) * cfg.runWindupScale <= 1.0 ==> r == mult + Abs(x) * cfg.runWindupScale
    ensures x != 0.0 && mult + Abs(x) * cfg.runWindupScale >= 1.0 ==> r == 1.0
    ensures x != 0.0 && mult + Abs(x) * cfg.runWindupScale <= 0.0 ==> r == 0.0
  {
    Clamp01(if x != 0.0 then mult + Abs(x) * cfg.runWindupScale else mult - cfg.runDecayScale)
  }

  /** The run direction: a changed non-zero input sets a new one, clamped to [-1, 1]; a spent multiplier clears it. */
  function RunDirection(cfg: Config, lastX: real, x: real, mult: real): (r: real)
    requires -1.0 <= lastX <= 1.0
    ensures -1.0 <= r <= 1.0
    ensures mult == 0.0 ==> r == 0.0
    ensures mult != 0.0 && x == 0.0 ==> r == lastX
    ensures mult != 0.0 && x != 0.0 && lastX != x ==> r == Clamp(x * cfg.dirChangeScale, -1.0, 1.0)
  {
    if mult == 0.0 then 0.0
    else if x != 0.0 && lastX != x then Clamp(x * cfg.dirChangeScale, -1.0, 1.0)
    else lastX
  }

  /** The run translation: direction times multiplier times speed times the time step. */
  function RunDisplacement(dir: real, mult: real, speed: real, dt: Step): (dx: real)
    requires -1.0 <= dir <= 1.0 && 0.0 <= mult <= 1.0
    ensures 0.0 <= speed ==> Abs(dx) <= speed * dt
    ensures mult == 0.0 || dir == 0.0 ==> dx == 0.0
  {
    BoundedProduct(dir, mult, speed * dt);
    dir * mult * (speed * dt)
  }

  /** Multiplying by a non-negative factor keeps an inequality. */
  lemma ScaleKeepsOrder(x: real, y: real, c: real)
    requires x <= y && 0.0 <= c
    ensures x * c <= y * c
  {
    assert y * c - x * c == (y - x) * c;
  }

  /** A direction in [-1, 1] times a multiplier in [0, 1] scales a non-negative bound by at most 1. */
  lemma BoundedProduct(d: real, m: real, b: real)
    requires -1.0 <= d <= 1.0 && 0.0 <= m <= 1.0
    ensures 0.0 <= b ==> Abs(d * m * b) <= b
  {
    ScaleKeepsOrder(d, 1.0, m);
    assert d * m <= m;
    ScaleKeepsOrder(-1.0, d, m);
    assert -m <= d * m;
    var p := d * m;
    if 0.0 <= b {
      ScaleKeepsOrder(p, 1.0, b);
      assert p * b <= b;
      ScaleKeepsOrder(-1.0, p, b);
      assert -b <= p * b;
      var a := Abs(p * b);
      assert a == p * b || a == -(p * b);
    }
  }

  // ---------------------------------------------------------------------------
  // Jumping
  // ---------------------------------------------------------------------------

  /** `JumpResetVars`: a fresh jump may start. */
  function ResetVars(p: Player): (r: Player)
    ensures r.canJump && !r.jumpCancelled && !r.jumpObstructed
    ensures r.jumpTimeElapsed == 0.0 && r.currentJumpHeight == 0.0
    ensures r.pos == p.pos && r.rbVel == p.rbVel && r.state == p.state
  {
    p.(canJump := true, jumpCancelled := false, jumpObstructed := false, jumpTimeElapsed := 0.0, currentJumpHeight := 0.0)
  }

  /** The jump logic's result and the two events the run-level lemmas count. */
  datatype Jump = Jump(p: Player, landed: bool, doubleJumped: bool)

  /** The double jump's duration: the base jump time scaled by the height ratio. */
  function DoubleJumpTime(cfg: Config): real
    requires cfg.jumpHeight != 0.0
  {
    cfg.jumpTime * cfg.doubleJumpHeight / cfg.jumpHeight
  }

  /**
    `JumpReset`.  In the air with the button up, a jump that is over (its
    time used up, never started, cancelled or obstructed) earns the double
    jump.  A jump past its time loses its upward speed.  Landing with the
    button up restores the ground jump (recording the landing when no jump
    was available).  The double jump, once earned, starts on a held button
    if it was not already used since the last landing.
   */
  function JumpReset(cfg: Config, p: Player, y: real, onGround: bool): (r: Jump)
    requires cfg.jumpHeight != 0.0
    ensures r.landed <==> onGround && y == 0.0
    ensures r.doubleJumped ==> !r.landed && !p.doubleJumpTriggered && y == 1.0
    ensures r.doubleJumped <==> r.p.doubleJumpTriggered && !r.landed && !p.doubleJumpTriggered
    ensures r.landed ==> !r.p.doubleJumpTriggered && !r.p.canDoubleJump && r.p.canJump
    ensures r.landed ==> r.p.currentMaxJumpHeight == cfg.jumpHeight && r.p.currentJumpTime == cfg.jumpTime
    ensures r.landed ==> (r.p.state == Landing <==> !p.canJump || p.jumpTimeElapsed > p.currentJumpTime || p.state == Landing)
    ensures r.doubleJumped ==> r.p.canJump && r.p.currentMaxJumpHeight == cfg.doubleJumpHeight && r.p.currentJumpTime == DoubleJumpTime(cfg)
    ensures !r.landed ==> (p.doubleJumpTriggered ==> r.p.doubleJumpTriggered)
    ensures !r.landed && !r.doubleJumped ==> r.p.jumpCancelled == p.jumpCancelled
    ensures r.p.pos == p.pos
  {
    var earns := !onGround && !p.canDoubleJump && y == 0.0 &&
      (p.jumpTimeElapsed >= p.currentJumpTime || p.jumpTimeElapsed <= 0.0 || p.jumpCancelled || p.jumpObstructed);
    var p1 := if earns then p.(canDoubleJump := true) else p;
    var p2 := if p1.jumpTimeElapsed > p1.currentJumpTime && p1.canJump
              then p1.(canJump := false, rbVel := Vec2(p1.rbVel.x, 0.0)) else p1;
    var landed := onGround && y == 0.0;
    var p3 := if landed
              then ResetVars(p2.(state := if !p2.canJump then Landing else p2.state,
                                 doubleJumpTriggered := false, canDoubleJump := false,
                                 currentMaxJumpHeight := cfg.jumpHeight, currentJumpTime := cfg.jumpTime))
              else p2;
    var doubles := p3.canDoubleJump && y == 1.0 && !p3.doubleJumpTriggered;
    var p4 := if doubles
              then ResetVars(p3.(doubleJumpTriggered := true, canDoubleJump := false,
                                 currentMaxJumpHeight := cfg.doubleJumpHeight, currentJumpTime := DoubleJumpTime(cfg)))
              else p3;
    Jump(p4, landed, doubles)
  }

  /**
    `JumpTranslate`: lift the player to the curve's height for the elapsed
    time (scaled by the button value), compensating the rigid body's
    vertical speed, advance the jump clock, and stop the jump when the head
    is blocked at the new position.
   */
  function JumpTranslate(env: Env, p: Player, y: real, dt: Step): (r: Player)
    ensures r.pos.x == p.pos.x
    ensures r.pos.y - r.currentJumpHeight == p.pos.y - p.currentJumpHeight - p.rbVel.y * dt
    ensures r.currentJumpHeight == env.curve(p.jumpTimeElapsed, p.currentJumpTime) * p.currentMaxJumpHeight * y
    ensures r.jumpTimeElapsed == p.jumpTimeElapsed + dt
    ensures HeadBlocked(env.cast, r.pos) ==> !r.canJump && r.jumpObstructed && r.rbVel.y == 0.0
    ensures !HeadBlocked(env.cast, r.pos) ==> r.canJump == p.canJump && r.jumpObstructed == p.jumpObstructed && r.rbVel == p.rbVel
    ensures r.jumpCancelled == p.jumpCancelled && r.doubleJumpTriggered == p.doubleJumpTriggered
  {
    var height := env.curve(p.jumpTimeElapsed, p.currentJumpTime) * p.currentMaxJumpHeight * y;
    var compensation := p.rbVel.y * dt;
    var pos := Vec2(p.pos.x, p.pos.y + ((height - p.currentJumpHeight) - compensation));
    var p1 := p.(pos := pos, currentJumpHeight := height, jumpTimeElapsed := p.jumpTimeElapsed + dt);
    if HeadBlocked(env.cast, pos) then p1.(rbVel := Vec2(p1.rbVel.x, 0.0), canJump := false, jumpObstructed := true)
    else p1
  }

  /**
    `JumpDecay`: hand the jump's current rise rate, scaled by the decay
    factor, to the rigid body as its vertical speed.
   */
  function JumpDecay(cfg: Config, env: Env, p: Player, dt: Step): (r: Player)
    ensures r == p.(rbVel := Vec2(p.rbVel.x, r.rbVel.y))
    ensures r.rbVel.y * dt == (env.curve(p.jumpTimeElapsed, p.currentJumpTime) * p.currentMaxJumpHeight - p.currentJumpHeight) * cfg.jumpDecayScale
  {
    var height := env.curve(p.jumpTimeElapsed, p.currentJumpTime) * p.currentMaxJumpHeight;
    p.(rbVel := Vec2(p.rbVel.x, (height - p.currentJumpHeight) / dt * cfg.jumpDecayScale))
  }

  /** The jump button is held, the jump has time left, was not cut short and is allowed. */
  predicate Rising(p: Player, y: real) {
    y > 0.0 && p.jumpTimeElapsed < p.currentJumpTime && !p.jumpCancelled && p.canJump
  }

  /** The button was released in the middle of an unobstructed jump. */
  predicate Released(p: Player, y: real) {
    y == 0.0 && p.jumpTimeElapsed < p.currentJumpTime && p.jumpTimeElapsed != 0.0 && !p.jumpCancelled && !p.jumpObstructed
  }

  /**
    `JumpUpdate`: rise along the curve (resetting first when airborne), or
    cut a released jump short, or run the reset logic.
   */
  function JumpUpdate(cfg: Config, env: Env, p: Player, y: real, dt: Step): (r: Jump)
    requires cfg.jumpHeight != 0.0
    ensures Rising(p, y) ==> r.p.state == Jumping && !r.landed && r.p.pos.x == p.pos.x
    ensures Rising(p, y) ==> r.p.jumpTimeElapsed == (if r.doubleJumped then 0.0 else p.jumpTimeElapsed) + dt
    ensures Rising(p, y) && !r.doubleJumped ==>
      r.p.currentJumpHeight == env.curve(p.jumpTimeElapsed, p.currentJumpTime) * p.currentMaxJumpHeight * y &&
      r.p.pos.y == p.pos.y + (r.p.currentJumpHeight - p.currentJumpHeight) - p.rbVel.y * dt
    ensures Rising(p, y) && r.doubleJumped ==>
      r.p.currentMaxJumpHeight == cfg.doubleJumpHeight &&
      r.p.currentJumpHeight == env.curve(0.0, DoubleJumpTime(cfg)) * cfg.doubleJumpHeight * y &&
      r.p.pos.y == p.pos.y + r.p.currentJumpHeight - p.rbVel.y * dt
    ensures Rising(p, y) && HeadBlocked(env.cast, r.p.pos) ==> !r.p.canJump && r.p.jumpObstructed && r.p.rbVel.y == 0.0
    ensures Rising(p, y) && !HeadBlocked(env.cast, r.p.pos) ==> r.p.canJump && r.p.rbVel == p.rbVel
    ensures !Rising(p, y) && Released(p, y) ==>
      r == Jump(JumpDecay(cfg, env, p, dt).(jumpCancelled := true, canJump := false), false, false)
    ensures !Rising(p, y) && !Released(p, y) ==> r == JumpReset(cfg, p, y, OnGround(env.cast, p.pos))
    ensures !Rising(p, y) ==> r.p.pos == p.pos
    ensures r.doubleJumped ==> !r.landed && !p.doubleJumpTriggered && r.p.doubleJumpTriggered
    ensures !r.landed ==> (p.doubleJumpTriggered ==> r.p.doubleJumpTriggered)
    ensures p.jumpCancelled ==> r.p.pos == p.pos
    ensures p.jumpCancelled && !r.landed && !r.doubleJumped ==> r.p.jumpCancelled
    ensures r.p.lastXValue == p.lastXValue && r.p.runWindupMult == p.runWindupMult && r.p.lockedUntil == p.lockedUntil
  {
    var onGround := OnGround(env.cast, p.pos);
    if Rising(p, y) then
      var reset := if !onGround then JumpReset(cfg, p, y, onGround) else Jump(p, false, false);
      assert !reset.doubleJumped ==> reset.p == p;
      assert reset.doubleJumped ==>
        reset.p == ResetVars(p.(doubleJumpTriggered := true, canDoubleJump := false,
                                currentMaxJumpHeight := cfg.doubleJumpHeight, currentJumpTime := DoubleJumpTime(cfg)));
      Jump(JumpTranslate(env, reset.p, y, dt).(state := Jumping), false, reset.doubleJumped)
    else if Released(p, y) then
      Jump(JumpDecay(cfg, env, p, dt).(jumpCancelled := true, canJump := false), false, false)
    else
      JumpReset(cfg, p, y, onGround)
  }

  /**
    Landing with the button held skips the landing branch, so a double jump
    earned in the air fires on the ground as soon as the player touches it.
   */
  lemma DoubleJumpOnTheGround(cfg: Config, env: Env, p: Player, dt: Step)
    requires cfg.jumpHeight != 0.0
    requires OnGround(env.cast, p.pos) && !p.canJump && p.canDoubleJump && !p.doubleJumpTriggered
    ensures JumpUpdate(cfg, env, p, 1.0, dt).doubleJumped && !JumpUpdate(cfg, env, p, 1.0, dt).landed
    ensures JumpUpdate(cfg, env, p, 1.0, dt).p.currentMaxJumpHeight == cfg.doubleJumpHeight
  {
  }

  // ---------------------------------------------------------------------------
  // The fixed update
  // ---------------------------------------------------------------------------

  /** One update's result: the player, the attack it issued, and the jump events. */
  datatype Tick = Tick(p: Player, attack: PlayerAttack.Outcome, landed: bool, doubleJumped: bool)

  /**
    The attack lock ends once its time has come (the animation coroutine
    resumes between updates).
   */
  function ReleaseLock(p: Player, now: real): (r: Player)
    ensures r.CanMove() <==> p.CanMove() || now >= p.lockedUntil.value
    ensures r == p.(lockedUntil := r.lockedUntil)
  {
    if p.lockedUntil.Some? && now >= p.lockedUntil.value then p.(lockedUntil := None) else p
  }

  /**
    `FixedUpdate`: input, animation state, running, jumping.  An attack
    that faults (no attack or prefab configured) ends the update after the
    lock has been set.
   */
  function FixedUpdate(cfg: Config, env: Env, p: Player, input: Input): (r: Tick)
    requires cfg.jumpHeight != 0.0
    requires -1.0 <= p.lastXValue <= 1.0
    ensures -1.0 <= r.p.lastXValue <= 1.0
    ensures r.attack.Spawned? ==> ReleaseLock(p, input.now).CanMove() && input.fire1Down && !r.p.CanMove()
    ensures r.attack == PlayerAttack.Faulted ==> !r.landed && !r.doubleJumped && r.p.pos == p.pos
    ensures r.doubleJumped ==> !r.landed && !p.doubleJumpTriggered && r.p.doubleJumpTriggered
    ensures !r.landed ==> (p.doubleJumpTriggered ==> r.p.doubleJumpTriggered)
    ensures p.jumpCancelled ==> r.p.pos.y == p.pos.y
    ensures p.jumpCancelled && !r.landed && !r.doubleJumped ==> r.p.jumpCancelled
    ensures r.attack != PlayerAttack.Faulted ==> 0.0 <= r.p.runWindupMult <= 1.0
  {
    var p0 := ReleaseLock(p, input.now);
    var read := InputUpdate(cfg, p0, input);
    if read.attack == PlayerAttack.Faulted then Tick(read.p, read.attack, false, false)
    else
      var p1 := AnimationUpdate(read.p, read.dir);
      var p2 := MoveUpdate(cfg, p1, read.dir.x, input.dt);
      var j := JumpUpdate(cfg, env, p2, read.dir.y, input.dt);
      Tick(j.p, read.attack, j.landed, j.doubleJumped)
  }

  /** Updates in sequence; counts the double jumps and whether any update landed. */
  function Simulate(cfg: Config, env: Env, p: Player, inputs: seq<Input>): (r: Player)
    requires cfg.jumpHeight != 0.0
    requires -1.0 <= p.lastXValue <= 1.0
    ensures -1.0 <= r.lastXValue <= 1.0
    decreases |inputs|
  {
    if |inputs| == 0 then p else Simulate(cfg, env, FixedUpdate(cfg, env, p, inputs[0]).p, inputs[1..])
  }

  function DoubleJumps(cfg: Config, env: Env, p: Player, inputs: seq<Input>): nat
    requires cfg.jumpHeight != 0.0
    requires -1.0 <= p.lastXValue <= 1.0
    decreases |inputs|
  {
    if |inputs| == 0 then 0
    else
      var t := FixedUpdate(cfg, env, p, inputs[0]);
      (if t.doubleJumped then 1 else 0) + DoubleJumps(cfg, env, t.p, inputs[1..])
  }

  predicate NoLanding(cfg: Config, env: Env, p: Player, inputs: seq<Input>)
    requires cfg.jumpHeight != 0.0
    requires -1.0 <= p.lastXValue <= 1.0
    decreases |inputs|
  {
    |inputs| == 0 ||
      (var t := FixedUpdate(cfg, env, p, inputs[0]); !t.landed && NoLanding(cfg, env, t.p, inputs[1..]))
  }

  /**
    Between two landings the player double-jumps at most once, and not at
    all once the double jump has been used.
   */
  lemma {:induction false} AtMostOneDoubleJumpPerLanding(cfg: Config, env: Env, p: Player, inputs: seq<Input>)
    requires cfg.jumpHeight != 0.0
    requires -1.0 <= p.lastXValue <= 1.0
    requires NoLanding(cfg, env, p, inputs)
    ensures DoubleJumps(cfg, env, p, inputs) <= 1
    ensures p.doubleJumpTriggered ==> DoubleJumps(cfg, env, p, inputs) == 0
    decreases |inputs|
  {
    if |inputs| > 0 {
      var t := FixedUpdate(cfg, env, p, inputs[0]);
      AtMostOneDoubleJumpPerLanding(cfg, env, t.p, inputs[1..]);
    }
  }

  /** No update of the sequence lands or double-jumps. */
  predicate NoReset(cfg: Config, env: Env, p: Player, inputs: seq<Input>)
    requires cfg.jumpHeight != 0.0
    requires -1.0 <= p.lastXValue <= 1.0
    decreases |inputs|
  {
    |inputs| == 0 ||
      (var t := FixedUpdate(cfg, env, p, inputs[0]); !t.landed && !t.doubleJumped && NoReset(cfg, env, t.p, inputs[1..]))
  }

  /**
    A jump cut short by releasing the button stays cut short: until the
    player lands or double-jumps, the jump logic never lifts it again.
   */
  lemma {:induction false} CancelledJumpStaysDown(cfg: Config, env: Env, p: Player, inputs: seq<Input>)
    requires cfg.jumpHeight != 0.0
    requires -1.0 <= p.lastXValue <= 1.0
    requires p.jumpCancelled
    requires NoReset(cfg, env, p, inputs)
    ensures Simulate(cfg, env, p, inputs).pos.y == p.pos.y
    ensures Simulate(cfg, env, p, inputs).jumpCancelled
    decreases |inputs|
  {
    if |inputs| > 0 {
      var t := FixedUpdate(cfg, env, p, inputs[0]);
      CancelledJumpStaysDown(cfg, env, t.p, inputs[1..]);
    }
  }
}

=== FILE: one_way_platform.dfy ===
/**
  The one-way platform (Assets/Scripts/Entities/OneWayPlatform.cs).

  At start-up the platform records its own half-height and the player's; on
  every physics update its collider is solid exactly when the player's
  bottom is at or above the platform's top, so the player can jump up
  through it and land on it.
 */
module OneWayPlatform {

  /** The half-heights recorded at start-up (collider extents). */
  datatype Platform = Platform(height: real, playerHeight: real)

  /** Start-up: record the two half-heights. */
  function Start(platformExtentY: real, playerExtentY: real): (p: Platform)
    ensures p.height == platformExtentY && p.playerHeight == playerExtentY
  {
    Platform(platformExtentY, playerExtentY)
  }

  /** One physics update: is the collider enabled, given the platform's and the player's positions? */
  function ColliderEnabled(p: Platform, platformY: real, playerY: real): (enabled: bool)
    ensures enabled <==> playerY >= platformY + p.height + p.playerHeight
  {
    platformY + p.height <= playerY - p.playerHeight
  }

  /** Raising the player never turns a solid platform back into a passable one. */
  lemma EnabledIsUpwardClosed(p: Platform, platformY: real, y1: real, y2: real)
    requires y1 <= y2
    ensures ColliderEnabled(p, platformY, y1) ==> ColliderEnabled(p, platformY, y2)
    ensures !ColliderEnabled(p, platformY, y2) ==> !ColliderEnabled(p, platformY, y1)
  {
  }

  /**
    The collider's state over a run of updates: it depends on nothing but
    the positions of the last update (there is no hysteresis).
   */
  function Run(p: Platform, platformY: real, playerYs: seq<real>, initially: bool): bool
    decreases |playerYs|
  {
    if |playerYs| == 0 then initially
    else Run(p, platformY, playerYs[1..], ColliderEnabled(p, platformY, playerYs[0]))
  }

  lemma {:induction false} RunIsMemoryless(p: Platform, platformY: real, playerYs: seq<real>, initially: bool)
    requires |playerYs| > 0
    ensures Run(p, platformY, playerYs, initially) == ColliderEnabled(p, platformY, playerYs[|playerYs| - 1])
    decreases |playerYs|
  {
    if |playerYs| > 1 {
      RunIsMemoryless(p, platformY, playerYs[1..], ColliderEnabled(p, platformY, playerYs[0]));
    }
  }
}

=== FILE: player_attack.dfy ===
/**
  The player's attacks (Assets/Scripts/PlayerAttack.cs).

  Only the light attack does anything: it spawns a damage trigger from the
  first trigger prefab, parented to the player, at the player's position plus
  the first attack's offset (mirrored when the player faces the other way),
  with a fixed lifetime of 0.9 seconds, the first attack's damage and the
  single triggering tag "Enemy".  The configured attack duration is never read.
 */
module PlayerAttack {
  import opened Common
  import EnemyBasic
  import TriggerDamage

  datatype AttackType = Light | Medium | Heavy

  /** One configured attack. */
  datatype AttackInfo = AttackInfo(kind: AttackType, duration: real, damage: EnemyBasic.Int32, offset: Vec2)

  /** The inspector configuration: the attacks and how many trigger prefabs are assigned. */
  datatype Loadout = Loadout(attacks: seq<AttackInfo>, triggerPrefabs: nat)

  /** A spawned trigger and where it appears. */
  datatype Spawn = Spawn(pos: Vec2, trigger: TriggerDamage.Trigger)

  /** No trigger, one trigger, or an index fault on an empty array. */
  datatype Outcome = Nothing | Spawned(spawn: Spawn) | Faulted

  /** The lifetime every light-attack trigger gets. */
  const LightDuration: real := 0.9

  /** The tags every attack trigger reacts to. */
  const EnemyTags: seq<string> := ["Enemy"]

  /**
    `Attack(kind, xDir)` for a player standing at `owner`.  `xDir` mirrors
    the offset.  An empty attack list or prefab list faults.
   */
  function Attack(l: Loadout, owner: Vec2, kind: AttackType, xDir: bool): (r: Outcome)
    ensures kind != Light <==> r == Nothing
    ensures kind == Light && (|l.attacks| == 0 || l.triggerPrefabs == 0) <==> r == Faulted
    ensures r.Spawned? ==>
      && r.spawn.trigger == TriggerDamage.Trigger(EnemyTags, LightDuration, l.attacks[0].damage)
      && r.spawn.pos.Minus(owner) == (if xDir then l.attacks[0].offset.Scale(-1.0) else l.attacks[0].offset)
  {
    match kind
    case Light =>
      if |l.attacks| == 0 then Faulted
      else
        var offset := if xDir then l.attacks[0].offset.Scale(-1.0) else l.attacks[0].offset;
        CreateDamageTrigger(l, owner, LightDuration, l.attacks[0].damage, offset)
    case Medium => Nothing
    case Heavy => Nothing
  }

  /** Instantiate the first prefab at the offset position and initialise its trigger. */
  function CreateDamageTrigger(l: Loadout, owner: Vec2, duration: real, damage: EnemyBasic.Int32, offset: Vec2): (r: Outcome)
    ensures l.triggerPrefabs == 0 <==> r == Faulted
    ensures r != Nothing
    ensures r.Spawned? ==> r.spawn.pos == owner.Plus(offset) && r.spawn.trigger == TriggerDamage.Init(duration, EnemyTags, damage)
  {
    if l.triggerPrefabs == 0 then Faulted
    else Spawned(Spawn(owner.Plus(offset), TriggerDamage.Init(duration, EnemyTags, damage)))
  }

  /** Facing the other way spawns the trigger mirrored through the player's position. */
  lemma LightAttackMirrors(l: Loadout, owner: Vec2)
    requires |l.attacks| > 0 && l.triggerPrefabs > 0
    ensures Attack(l, owner, Light, true).Spawned? && Attack(l, owner, Light, false).Spawned?
    ensures Attack(l, owner, Light, true).spawn.pos.Minus(owner) == Attack(l, owner, Light, false).spawn.pos.Minus(owner).Scale(-1.0)
    ensures Attack(l, owner, Light, true).spawn.trigger == Attack(l, owner, Light, false).spawn.trigger
  {
  }

  /**
    A light-attack trigger hits an enemy exactly once with the first attack's
    damage, hits nothing else, and outlives any frames totalling at most 0.9
    seconds.
   */
  lemma LightTriggerStrikesEnemiesOnce(l: Loadout, owner: Vec2, xDir: bool, s: EnemyBasic.Stats, dts: seq<real>)
    requires |l.attacks| > 0 && l.triggerPrefabs > 0
    requires forall i :: 0 <= i < |dts| ==> dts[i] >= 0.0
    requires TriggerDamage.Sum(dts) <= LightDuration
    ensures Attack(l, owner, Light, xDir).Spawned?
    ensures TriggerDamage.Enter(Attack(l, owner, Light, xDir).spawn.trigger, "Enemy", Some(s))
         == TriggerDamage.Struck(EnemyBasic.TakeDamage(s, l.attacks[0].damage))
    ensures EnemyBasic.Int32Min <= s.health - l.attacks[0].damage <= EnemyBasic.Int32Max ==>
      TriggerDamage.Enter(Attack(l, owner, Light, xDir).spawn.trigger, "Enemy", Some(s))
        == TriggerDamage.Struck(EnemyBasic.TakeDamageAsWritten(s, l.attacks[0].damage))
    ensures TriggerDamage.Run(Attack(l, owner, Light, xDir).spawn.trigger, dts).Some?
  {
    var t := Attack(l, owner, Light, xDir).spawn.trigger;
    TriggerDamage.SingleTagStrikesOnce(t, s);
    TriggerDamage.RunSurvivesIffWithinLifetime(t, dts);
  }
}

=== FILE: prototype_player.dfy ===
/**
  The prototype kinematic controller (Assets/Scripts/Entities/PlayerController1.cs).

  A stripped-down predecessor of the kinematic player: three states with
  hard-coded speeds, and one ray pass per axis.  Grounded pushes the player
  down at 1 unit per second and jumps on any upward input; Jumping rises at
  2 units per second for at most 0.2 seconds; Falling accelerates downwards
  by 0.2 per update and never ends, since nothing in the prototype detects
  the ground.

  Each fixed update the displacement `velocity * dt` is resolved one axis at
  a time, horizontally first: rays are cast from evenly spaced origins on
  the leading edge, reduced to the nearest hit starting from the first ray,
  and the player is placed against that hit, or moved the full distance
  when nothing was hit.
 */
module PrototypePlayer {
  import opened Common
  import opened Raycast
  import opened StateMachine

  /** Inspector settings plus the collider geometry cached at start-up. */
  datatype Config = Config(
    sizeTolerance: real,
    skinSize: real,
    horizontalRays: nat,
    verticalRays: nat,
    extents: Vec2,
    colliderOffset: Vec2)
  {
    function Size(): Vec2 { extents.Scale(2.0) }

    /** Both batches index their first ray, so each needs at least one. */
    predicate Valid() { horizontalRays > 0 && verticalRays > 0 }
  }

  /** One fixed update's input axes and clock readings. */
  datatype Input = Input(horizontal: real, vertical: real, now: real, dt: real)

  const RunSpeed: real := 5.0
  const GroundedSpeed: real := -1.0
  const JumpSpeed: real := 2.0
  const JumpWindow: real := 0.2
  const FallStep: real := 0.2

  // ---------------------------------------------------------------------------
  // Ray passes
  // ---------------------------------------------------------------------------

  /**
    Origin of horizontal ray `i`: `skinSize` inside the leading vertical
    edge, `sizeTolerance/2` below the top edge, then evenly spaced downwards.
   */
  function HorizontalOrigin(cfg: Config, pos: Vec2, dx: real, i: nat): Vec2 {
    var left := pos.x + cfg.colliderOffset.x - cfg.extents.x;
    var top := pos.y + cfg.colliderOffset.y + cfg.extents.y;
    Vec2(left + (if dx < 0.0 then cfg.skinSize else cfg.Size().x - cfg.skinSize),
         top - EdgeOffset(cfg.sizeTolerance, cfg.Size().y, cfg.horizontalRays, i))
  }

  /**
    Origin of vertical ray `i`: `skinSize` inside the leading horizontal
    edge, `sizeTolerance/2` right of the left edge, then evenly spaced
    rightwards.
   */
  function VerticalOrigin(cfg: Config, pos: Vec2, dy: real, i: nat): Vec2 {
    var left := pos.x + cfg.colliderOffset.x - cfg.extents.x;
    var top := pos.y + cfg.colliderOffset.y + cfg.extents.y;
    Vec2(left + EdgeOffset(cfg.sizeTolerance, cfg.Size().x, cfg.verticalRays, i),
         top + (if dy > 0.0 then -cfg.skinSize else -cfg.Size().y + cfg.skinSize))
  }

  /** The horizontal batch: one ray per origin, in the direction of travel, `|dx| + skinSize` long. */
  function HorizontalRays(cfg: Config, cast: Caster, pos: Vec2, dx: real): (rays: seq<Ray>)
    ensures |rays| == cfg.horizontalRays
    ensures forall i :: 0 <= i < |rays| ==>
      rays[i] == cast(HorizontalOrigin(cfg, pos, dx, i), Vec2(Direction(dx), 0.0), Abs(dx) + cfg.skinSize)
  {
    var first := HorizontalOrigin(cfg, pos, dx, 0);
    var step := Vec2(0.0, -Spacing(cfg.Size().y - cfg.sizeTolerance, cfg.horizontalRays));
    var rays := Batch(cast, first, step, Vec2(Direction(dx), 0.0), Abs(dx) + cfg.skinSize, cfg.horizontalRays);
    assert forall i :: 0 <= i < |rays| ==> RayOrigin(first, step, i) == HorizontalOrigin(cfg, pos, dx, i);
    rays
  }

  /** The vertical batch: one ray per origin, up or down with the travel, `|dy| + skinSize` long. */
  function VerticalRays(cfg: Config, cast: Caster, pos: Vec2, dy: real): (rays: seq<Ray>)
    ensures |rays| == cfg.verticalRays
    ensures forall i :: 0 <= i < |rays| ==>
      rays[i] == cast(VerticalOrigin(cfg, pos, dy, i), Vec2(0.0, Direction(dy)), Abs(dy) + cfg.skinSize)
  {
    var first := VerticalOrigin(cfg, pos, dy, 0);
    var step := Vec2(Spacing(cfg.Size().x - cfg.sizeTolerance, cfg.verticalRays), 0.0);
    var rays := Batch(cast, first, step, Vec2(0.0, Direction(dy)), Abs(dy) + cfg.skinSize, cfg.verticalRays);
    assert forall i :: 0 <= i < |rays| ==> RayOrigin(first, step, i) == VerticalOrigin(cfg, pos, dy, i);
    rays
  }

  /**
    With two or more rays, the horizontal origins run from `sizeTolerance/2`
    below the top edge down to `sizeTolerance/2` above the bottom edge in
    equal steps, and both batches start on the leading edge's inner side.
   */
  lemma OriginsSpanEdges(cfg: Config, pos: Vec2, dx: real, dy: real)
    requires 2 <= cfg.horizontalRays && 2 <= cfg.verticalRays
    ensures HorizontalOrigin(cfg, pos, dx, 0).y == pos.y + cfg.colliderOffset.y + cfg.extents.y - cfg.sizeTolerance / 2.0
    ensures HorizontalOrigin(cfg, pos, dx, cfg.horizontalRays - 1).y
         == pos.y + cfg.colliderOffset.y - cfg.extents.y + cfg.sizeTolerance / 2.0
    ensures forall i :: 0 <= i < cfg.horizontalRays - 1 ==>
      HorizontalOrigin(cfg, pos, dx, i).y - HorizontalOrigin(cfg, pos, dx, i + 1).y
        == (cfg.Size().y - cfg.sizeTolerance) / ((cfg.horizontalRays - 1) as real)
    ensures VerticalOrigin(cfg, pos, dy, 0).x == pos.x + cfg.colliderOffset.x - cfg.extents.x + cfg.sizeTolerance / 2.0
    ensures VerticalOrigin(cfg, pos, dy, cfg.verticalRays - 1).x
         == pos.x + cfg.colliderOffset.x + cfg.extents.x - cfg.sizeTolerance / 2.0
    ensures dx != 0.0 ==> HorizontalOrigin(cfg, pos, dx, 0).x == pos.x + cfg.colliderOffset.x + Direction(dx) * (cfg.extents.x - cfg.skinSize)
    ensures dy != 0.0 ==> VerticalOrigin(cfg, pos, dy, 0).y == pos.y + cfg.colliderOffset.y + Direction(dy) * (cfg.extents.y - cfg.skinSize)
  {
    EdgeOffsetsSpan(cfg.sizeTolerance, cfg.Size().y, cfg.horizontalRays);
    EdgeOffsetsSpan(cfg.sizeTolerance, cfg.Size().x, cfg.verticalRays);
  }

  /**
    The horizontal pass: nothing for a zero displacement; otherwise the
    leading edge is put on the nearest hit, or the player moves the full
    distance when nothing was hit.  The vertical coordinate never changes.
   */
  function HorizontalPass(cfg: Config, cast: Caster, pos: Vec2, dx: real): (r: Vec2)
    requires cfg.Valid()
    ensures r.y == pos.y
    ensures dx == 0.0 ==> r == pos
    ensures dx != 0.0 && !SomeHit(HorizontalRays(cfg, cast, pos, dx)) ==> r.x == pos.x + dx
    ensures dx != 0.0 && SomeHit(HorizontalRays(cfg, cast, pos, dx)) ==>
      exists k :: IsNearest(HorizontalRays(cfg, cast, pos, dx), k) &&
        r.x + cfg.colliderOffset.x + Direction(dx) * cfg.extents.x == HorizontalRays(cfg, cast, pos, dx)[k].point.x
  {
    if dx == 0.0 then pos
    else
      var nearest := EvaluateFromFirst(HorizontalRays(cfg, cast, pos, dx));
      if nearest.hit then Vec2(Against(nearest.point.x, cfg.Size().x / 2.0, cfg.colliderOffset.x, Direction(dx)), pos.y)
      else Vec2(pos.x + dx, pos.y)
  }

  /** The vertical pass, as the horizontal one with the axes swapped. */
  function VerticalPass(cfg: Config, cast: Caster, pos: Vec2, dy: real): (r: Vec2)
    requires cfg.Valid()
    ensures r.x == pos.x
    ensures dy == 0.0 ==> r == pos
    ensures dy != 0.0 && !SomeHit(VerticalRays(cfg, cast, pos, dy)) ==> r.y == pos.y + dy
    ensures dy != 0.0 && SomeHit(VerticalRays(cfg, cast, pos, dy)) ==>
      exists k :: IsNearest(VerticalRays(cfg, cast, pos, dy), k) &&
        r.y + cfg.colliderOffset.y + Direction(dy) * cfg.extents.y == VerticalRays(cfg, cast, pos, dy)[k].point.y
  {
    if dy == 0.0 then pos
    else
      var nearest := EvaluateFromFirst(VerticalRays(cfg, cast, pos, dy));
      if nearest.hit then Vec2(pos.x, Against(nearest.point.y, cfg.Size().y / 2.0, cfg.colliderOffset.y, Direction(dy)))
      else Vec2(pos.x, pos.y + dy)
  }

  /**
    `RaycastDirection`: the horizontal pass, then the vertical pass from
    where the horizontal one left the player.  In open space the player
    moves by exactly the displacement.
   */
  function Move(cfg: Config, cast: Caster, pos: Vec2, d: Vec2): (r: Vec2)
    requires cfg.Valid()
    ensures r.x == HorizontalPass(cfg, cast, pos, d.x).x
    ensures r.y == VerticalPass(cfg, cast, HorizontalPass(cfg, cast, pos, d.x), d.y).y
    ensures (forall o, dir, len :: !cast(o, dir, len).hit) ==> r == pos.Plus(d)
  {
    var afterX := HorizontalPass(cfg, cast, pos, d.x);
    VerticalPass(cfg, cast, afterX, d.y)
  }

  // ---------------------------------------------------------------------------
  // States
  // ---------------------------------------------------------------------------

  /** The active-state slot: the inert placeholder used before start-up, then one of three states. */
  datatype Mode = Placeholder | Grounded | Jumping | Falling

  /** The player; `jumpDeadline` is the Jumping state's own field (see the kinematic player). */
  datatype Player = Player(pos: Vec2, vel: Vec2, jumpDeadline: real)

  type Actor = Machine<Mode, Player>

  /** Entry logic: Grounded pushes down; Jumping sets the rising speed and its deadline. */
  function Enter(input: Input, s: Mode, p: Player): (r: Player)
    ensures r.pos == p.pos && r.vel.x == p.vel.x
    ensures s == Grounded ==> r.vel.y == GroundedSpeed
    ensures s == Jumping ==> r.vel.y == JumpSpeed && r.jumpDeadline == input.now + JumpWindow
    ensures s == Falling || s == Placeholder ==> r == p
  {
    match s
    case Placeholder => p
    case Grounded => p.(vel := Vec2(p.vel.x, GroundedSpeed))
    case Jumping => p.(vel := Vec2(p.vel.x, JumpSpeed), jumpDeadline := input.now + JumpWindow)
    case Falling => p
  }

  function PlayerHooks(input: Input): Hooks<Mode, Player> {
    Hooks((s: Mode, p: Player) => Enter(input, s, p), (s: Mode, p: Player) => p)
  }

  function Go(input: Input, a: Actor, next: Mode): (r: Actor)
    ensures r == Transition(a, next, PlayerHooks(input))
    ensures r.active == next && r.ctx == Enter(input, next, a.ctx)
  {
    Transition(a, next, PlayerHooks(input))
  }

  /** The horizontal speed every state sets from the input. */
  function Run(input: Input, p: Player): Player {
    p.(vel := Vec2(input.horizontal * RunSpeed, p.vel.y))
  }

  /**
    The active state's fixed-update logic.  Grounded jumps on any upward
    input; Jumping falls once the input is released or the deadline has
    passed; Falling only accelerates.
   */
  function StateUpdate(a: Actor, input: Input): (r: Actor)
    ensures r.ctx.pos == a.ctx.pos
    ensures a.active != Placeholder ==> r.ctx.vel.x == input.horizontal * RunSpeed
    ensures a.active == Placeholder ==> r == a
    ensures a.active == Grounded ==> (r.active == Jumping <==> input.vertical > 0.0) && (r.active == Grounded <==> input.vertical <= 0.0)
    ensures a.active == Grounded && r.active == Jumping ==> r.ctx.vel.y == JumpSpeed && r.ctx.jumpDeadline == input.now + JumpWindow
    ensures a.active == Jumping ==>
      (r.active == Falling <==> input.vertical <= 0.0 || a.ctx.jumpDeadline < input.now) &&
      (r.active == Jumping <==> !(input.vertical <= 0.0 || a.ctx.jumpDeadline < input.now))
    ensures a.active == Falling ==> r.active == Falling && r.ctx.vel.y == a.ctx.vel.y - FallStep && r.trace == a.trace
    ensures a.active != Falling && r.active != Jumping ==> r.ctx.vel.y == a.ctx.vel.y
  {
    match a.active
    case Placeholder => a
    case Grounded =>
      var a1 := WithCtx(a, Run(input, a.ctx));
      if input.vertical > 0.0 then Go(input, a1, Jumping) else a1
    case Jumping =>
      var a1 := WithCtx(a, Run(input, a.ctx));
      if input.vertical <= 0.0 || a.ctx.jumpDeadline < input.now then Go(input, a1, Falling) else a1
    case Falling =>
      var p := Run(input, a.ctx);
      WithCtx(a, p.(vel := Vec2(p.vel.x, p.vel.y - FallStep)))
  }

  /** Start-up: zero velocity, the placeholder, then a transition into Grounded. */
  function Start(pos: Vec2, input: Input): (a: Actor)
    ensures a.active == Grounded && a.ctx.pos == pos && a.ctx.vel == Vec2(0.0, GroundedSpeed)
    ensures a.trace == [Exited(Placeholder), Entered(Grounded)]
  {
    Go(input, Machine(Placeholder, Player(pos, Zero, 0.0), []), Grounded)
  }

  /** One fixed update: the state logic, then the move by velocity times the time step. */
  function FixedUpdate(cfg: Config, cast: Caster, a: Actor, input: Input): (r: Actor)
    requires cfg.Valid()
    ensures r.active == StateUpdate(a, input).active && r.trace == StateUpdate(a, input).trace
    ensures r.ctx.vel == StateUpdate(a, input).ctx.vel
    ensures r.ctx.pos == Move(cfg, cast, a.ctx.pos, StateUpdate(a, input).ctx.vel.Scale(input.dt))
  {
    var a1 := StateUpdate(a, input);
    WithCtx(a1, a1.ctx.(pos := Move(cfg, cast, a1.ctx.pos, a1.ctx.vel.Scale(input.dt))))
  }

  /** Fixed updates in sequence, one input per update. */
  function Simulate(cfg: Config, cast: Caster, a: Actor, inputs: seq<Input>): Actor
    requires cfg.Valid()
    decreases |inputs|
  {
    if |inputs| == 0 then a else Simulate(cfg, cast, FixedUpdate(cfg, cast, a, inputs[0]), inputs[1..])
  }

  /** How far along the one-way Placeholder, Grounded, Jumping, Falling progression a mode is. */
  function Rank(m: Mode): nat {
    match m
    case Placeholder => 0
    case Grounded => 1
    case Jumping => 2
    case Falling => 3
  }

  /**
    The prototype's states only ever move forward: once the player has
    jumped it is never grounded again, and once it falls it falls for good,
    with its vertical speed dropping by 0.2 per update.
   */
  lemma {:induction false} StatesOnlyMoveForward(cfg: Config, cast: Caster, a: Actor, inputs: seq<Input>)
    requires cfg.Valid()
    ensures Rank(Simulate(cfg, cast, a, inputs).active) >= Rank(a.active)
    ensures a.active == Falling ==>
      Simulate(cfg, cast, a, inputs).active == Falling &&
      Simulate(cfg, cast, a, inputs).ctx.vel.y == a.ctx.vel.y - (|inputs| as real) * FallStep
    decreases |inputs|
  {
    if |inputs| > 0 {
      var next := FixedUpdate(cfg, cast, a, inputs[0]);
      StatesOnlyMoveForward(cfg, cast, next, inputs[1..]);
    }
  }

  /** A jump lasts as long as the input is held, but never past its deadline. */
  lemma JumpNeverOutlivesDeadline(cfg: Config, cast: Caster, a: Actor, input: Input)
    requires cfg.Valid() && a.active == Jumping
    requires a.ctx.jumpDeadline < input.now
    ensures FixedUpdate(cfg, cast, a, input).active == Falling
    ensures FixedUpdate(cfg, cast, a, input).trace == a.trace + [Exited(Jumping), Entered(Falling)]
  {
  }
}

=== FILE: raycast.dfy ===
/**
  Ray results, batches of parallel rays and the nearest-hit reduction shared
  by the two kinematic controllers (Assets/Scripts/Entities/PlayerController.cs
  and Assets/Scripts/Entities/PlayerController1.cs).

  The engine's ray query is an oracle: `Caster` maps an origin, a direction and
  a length to a result.  The world is static for the duration of one update.
 */
module Raycast {
  import opened Common

  /** One ray result: did it hit, how far along the ray, where, and the surface normal there. */
  datatype Ray = Ray(hit: bool, distance: real, point: Vec2, normal: Vec2)

  /** A default-constructed result: no hit, every field zero. */
  const Miss: Ray := Ray(false, 0.0, Zero, Zero)

  /** The engine's ray query against the environment layer. */
  type Caster = (Vec2, Vec2, real) -> Ray

  /** `rays` has some element that hit (a ray result converts to `true` exactly when it hit). */
  ghost predicate SomeHit(rays: seq<Ray>) {
    exists i :: 0 <= i < |rays| && rays[i].hit
  }

  /**
    Index `k` holds the nearest hit of `rays`: it hit, no hit is strictly
    nearer, and every earlier hit is strictly farther (first-found wins ties).
   */
  ghost predicate IsNearest(rays: seq<Ray>, k: int) {
    && 0 <= k < |rays|
    && rays[k].hit
    && (forall j :: 0 <= j < |rays| && rays[j].hit ==> rays[k].distance <= rays[j].distance)
    && (forall j :: 0 <= j < k && rays[j].hit ==> rays[k].distance < rays[j].distance)
  }

  /**
    One step of the reduction loop: take the candidate when it is a hit that
    is strictly nearer than the stored result, or when the stored result is
    not a hit at all.
   */
  function Prefer(best: Ray, candidate: Ray): Ray {
    if (candidate.hit && candidate.distance < best.distance) || !best.hit then candidate else best
  }

  /** The reduction loop, left to right from a starting result. */
  function Reduce(acc: Ray, rays: seq<Ray>): Ray
    decreases |rays|
  {
    if |rays| == 0 then acc else Reduce(Prefer(acc, rays[0]), rays[1..])
  }

  lemma {:induction false} ReduceSnoc(acc: Ray, rays: seq<Ray>, x: Ray)
    ensures Reduce(acc, rays + [x]) == Prefer(Reduce(acc, rays), x)
    decreases |rays|
  {
    if |rays| == 0 {
      assert rays + [x] == [x];
      assert [x][1..] == [];
    } else {
      assert (rays + [x])[1..] == rays[1..] + [x];
      ReduceSnoc(Prefer(acc, rays[0]), rays[1..], x);
    }
  }

  /**
    What reducing from an empty result computes: a hit exactly when some ray
    hit, and then the nearest one (earliest on ties); otherwise the last ray
    of the batch, itself a miss, or the empty result for an empty batch.
   */
  lemma {:induction false} NearestSpec(rays: seq<Ray>)
    ensures Reduce(Miss, rays).hit <==> SomeHit(rays)
    ensures Reduce(Miss, rays).hit ==> exists k :: IsNearest(rays, k) && rays[k] == Reduce(Miss, rays)
    ensures !Reduce(Miss, rays).hit ==> Reduce(Miss, rays) == (if |rays| == 0 then Miss else rays[|rays| - 1])
    decreases |rays|
  {
    if |rays| > 0 {
      var n := |rays|;
      var init := rays[..n - 1];
      var x := rays[n - 1];
      assert rays == init + [x];
      ReduceSnoc(Miss, init, x);
      NearestSpec(init);
      var best := Reduce(Miss, init);
      assert Reduce(Miss, rays) == Prefer(best, x);
      if best.hit {
        var k :| IsNearest(init, k) && init[k] == best;
        if x.hit && x.distance < best.distance {
          assert IsNearest(rays, n - 1);
        } else {
          assert IsNearest(rays, k);
        }
      } else {
        assert !SomeHit(init);
        if x.hit {
          assert IsNearest(rays, n - 1);
        } else {
          assert !SomeHit(rays) by {
            forall i | 0 <= i < n ensures !rays[i].hit {
              if i < n - 1 { assert rays[i] == init[i]; }
            }
          }
        }
      }
    }
  }

  /** Reduce a batch to its nearest hit, starting from an empty (missed) result. */
  function EvaluateRaycasts(rays: seq<Ray>): (r: Ray)
    ensures r.hit <==> SomeHit(rays)
    ensures r.hit ==> exists k :: IsNearest(rays, k) && rays[k] == r
    ensures !r.hit ==> r == (if |rays| == 0 then Miss else rays[|rays| - 1])
  {
    NearestSpec(rays);
    Reduce(Miss, rays)
  }

  /**
    The prototype controller's reduction: it starts from the first ray
    instead of an empty result and runs the same rule over the rest.
   */
  function EvaluateFromFirst(rays: seq<Ray>): (r: Ray)
    requires |rays| > 0
    ensures r == EvaluateRaycasts(rays)
    ensures r.hit <==> SomeHit(rays)
  {
    assert Prefer(Miss, rays[0]) == rays[0];
    Reduce(rays[0], rays[1..])
  }

  /** The batch check of the grounded and ceiling tests: does any ray hit? */
  function AnyHit(rays: seq<Ray>): (b: bool)
    ensures b <==> SomeHit(rays)
    decreases |rays|
  {
    if |rays| == 0 then false
    else if rays[0].hit then true
    else
      var rest := AnyHit(rays[1..]);
      assert SomeHit(rays[1..]) <==> SomeHit(rays) by {
        if SomeHit(rays) {
          var i :| 0 <= i < |rays| && rays[i].hit;
          assert i > 0 && rays[1..][i - 1].hit;
        }
        if SomeHit(rays[1..]) {
          var i :| 0 <= i < |rays| - 1 && rays[1..][i].hit;
          assert rays[i + 1].hit;
        }
      }
      rest
  }

  /** The direction factor of a displacement: +1 when positive, -1 otherwise. */
  function Direction(distance: real): (d: real)
    ensures d == 1.0 || d == -1.0
    ensures d == 1.0 <==> distance > 0.0
  {
    if distance > 0.0 then 1.0 else -1.0
  }

  /**
    The coordinate that puts the collider's leading edge on a contact point:
    the contact minus half the collider's size in the direction of travel,
    minus the collider's offset from the position.
   */
  function Against(contact: real, halfSize: real, offset: real, dir: real): (c: real)
    ensures c + offset + dir * halfSize == contact
  {
    contact + halfSize * -dir - offset
  }

  /** Distance between successive ray origins when `n` rays share a span. */
  function Spacing(span: real, n: nat): real {
    if n <= 1 then 0.0 else span / (n - 1) as real
  }

  /** Where ray `i` of a batch starts: the first origin moved `i` spacings along the edge. */
  function RayOrigin(first: Vec2, step: Vec2, i: nat): Vec2 {
    first.Plus(step.Scale(i as real))
  }

  /** Cast `n` parallel rays of one direction and length from evenly spaced origins. */
  function Batch(cast: Caster, first: Vec2, step: Vec2, dir: Vec2, length: real, n: nat): (rays: seq<Ray>)
    ensures |rays| == n
    ensures forall i :: 0 <= i < n ==> rays[i] == cast(RayOrigin(first, step, i), dir, length)
  {
    seq(n, i requires 0 <= i < n => cast(RayOrigin(first, step, i), dir, length))
  }

  /** A batch that casts nothing: `n` empty results. */
  function Misses(n: nat): (rays: seq<Ray>)
    ensures |rays| == n
    ensures forall i :: 0 <= i < n ==> rays[i] == Miss
    ensures !SomeHit(rays)
  {
    seq(n, i requires 0 <= i < n => Miss)
  }

  /**
    Offset of ray `i` along an edge of length `size` when `n` rays keep
    `tol/2` clear of both ends.
   */
  function EdgeOffset(tol: real, size: real, n: nat, i: nat): real {
    tol / 2.0 + (i as real) * Spacing(size - tol, n)
  }

  /**
    With at least two rays the offsets run from `tol/2` to `size - tol/2` in
    equal steps of `(size - tol)/(n - 1)`.
   */
  lemma EdgeOffsetsSpan(tol: real, size: real, n: nat)
    requires 2 <= n
    ensures EdgeOffset(tol, size, n, 0) == tol / 2.0
    ensures EdgeOffset(tol, size, n, n - 1) == size - tol / 2.0
    ensures forall i: nat :: EdgeOffset(tol, size, n, i + 1) - EdgeOffset(tol, size, n, i) == (size - tol) / ((n - 1) as real)
  {
    var z := (n - 1) as real;
    var s := size - tol;
    assert Spacing(s, n) == s / z;
    assert z * (s / z) == s;
    assert EdgeOffset(tol, size, n, n - 1) == tol / 2.0 + z * (s / z);
  }
}

=== FILE: state_machine.dfy ===
/**
  The cooperative state framework shared by every actor (Assets/Scripts/State.cs).

  An actor holds exactly one active state. `Transition` runs the old state's
  exit hook, makes the new state active and runs the new state's entry hook.
  The hooks act on the actor (the context `C`); the machine also keeps a trace
  of the hooks it ran so that their order and number can be stated.

  The C# `Transition` is an instance method that never reads its receiver: its
  effect depends only on the `ref activeState` slot and the new state.  The
  model's `Transition` therefore has no receiver parameter at all.
 */
module StateMachine {

  /** One hook invocation, recorded in the order it ran. */
  datatype Event<S> = Exited(from: S) | Entered(into: S)

  /** The per-state entry and exit logic of one actor. */
  datatype Hooks<!S, !C> = Hooks(enter: (S, C) -> C, exit: (S, C) -> C)

  /** The active-state slot, the actor it drives and the hooks run so far. */
  datatype Machine<S, C> = Machine(active: S, ctx: C, trace: seq<Event<S>>)

  /** The base class's hooks: entering or exiting does nothing. */
  function InertHooks<S(!new), C(!new)>(): (h: Hooks<S, C>)
    ensures forall s, c :: h.enter(s, c) == c && h.exit(s, c) == c
  {
    Hooks((s: S, c: C) => c, (s: S, c: C) => c)
  }

  /** Exit the active state, swap in `next`, enter `next`. */
  function Transition<S, C>(m: Machine<S, C>, next: S, h: Hooks<S, C>): (r: Machine<S, C>)
    ensures r.active == next
    ensures r.trace == m.trace + [Exited(m.active), Entered(next)]
    ensures r.ctx == h.enter(next, h.exit(m.active, m.ctx))
  {
    var exited := h.exit(m.active, m.ctx);
    Machine(next, h.enter(next, exited), m.trace + [Exited(m.active), Entered(next)])
  }

  /** Replace the actor without touching the active state (a state's own update logic). */
  function WithCtx<S, C>(m: Machine<S, C>, c: C): (r: Machine<S, C>)
    ensures r.active == m.active && r.trace == m.trace && r.ctx == c
  {
    Machine(m.active, c, m.trace)
  }

  /** Several transitions issued one after another within one update. */
  function Run<S, C>(m: Machine<S, C>, targets: seq<S>, h: Hooks<S, C>): Machine<S, C>
    decreases |targets|
  {
    if |targets| == 0 then m
    else Run(Transition(m, targets[0], h), targets[1..], h)
  }

  /**
    The hook sequence the protocol prescribes when the slot holds `from` and
    is sent through `targets` in order: exit the current state, enter the next.
   */
  ghost function Protocol<S>(from: S, targets: seq<S>): seq<Event<S>>
    decreases |targets|
  {
    if |targets| == 0 then []
    else [Exited(from), Entered(targets[0])] + Protocol(targets[0], targets[1..])
  }

  /** The state that is left by the `i`-th transition of `targets`. */
  ghost function LeftBy<S>(from: S, targets: seq<S>, i: nat): S
    requires i < |targets|
  {
    if i == 0 then from else targets[i - 1]
  }

  /**
    Issuing several transitions leaves the last target active and runs, for
    every transition in turn, the exit of the state it leaves and then the
    entry of its target: no entry is lost even though only the last one wins.
   */
  lemma {:induction false} RunFollowsProtocol<S, C>(m: Machine<S, C>, targets: seq<S>, h: Hooks<S, C>)
    ensures Run(m, targets, h).trace == m.trace + Protocol(m.active, targets)
    ensures |targets| > 0 ==> Run(m, targets, h).active == targets[|targets| - 1]
    ensures |targets| == 0 ==> Run(m, targets, h) == m
    decreases |targets|
  {
    if |targets| > 0 {
      var m1 := Transition(m, targets[0], h);
      RunFollowsProtocol(m1, targets[1..], h);
      assert m.trace + [Exited(m.active), Entered(targets[0])] + Protocol(targets[0], targets[1..])
          == m.trace + Protocol(m.active, targets);
    }
  }

  /**
    The prescribed hook sequence, position by position: the `i`-th transition
    contributes exactly one exit (of the state it leaves) followed by exactly
    one entry (of its target).
   */
  lemma {:induction false} ProtocolShape<S>(from: S, targets: seq<S>)
    ensures |Protocol(from, targets)| == 2 * |targets|
    ensures forall i :: 0 <= i < |targets| ==>
      Protocol(from, targets)[2 * i] == Exited(LeftBy(from, targets, i)) &&
      Protocol(from, targets)[2 * i + 1] == Entered(targets[i])
    decreases |targets|
  {
    if |targets| > 0 {
      var rest := targets[1..];
      ProtocolShape(targets[0], rest);
      var p := Protocol(from, targets);
      assert p == [Exited(from), Entered(targets[0])] + Protocol(targets[0], rest);
      forall i | 0 <= i < |targets|
        ensures p[2 * i] == Exited(LeftBy(from, targets, i)) && p[2 * i + 1] == Entered(targets[i])
      {
        if i > 0 {
          assert p[2 * i] == Protocol(targets[0], rest)[2 * (i - 1)];
          assert p[2 * i + 1] == Protocol(targets[0], rest)[2 * (i - 1) + 1];
          assert LeftBy(targets[0], rest, i - 1) == LeftBy(from, targets, i);
        }
      }
    }
  }

  /** Two transitions in a row: the second target is active and both entries ran, in order. */
  lemma TwoTransitions<S, C>(m: Machine<S, C>, a: S, b: S, h: Hooks<S, C>)
    ensures Transition(Transition(m, a, h), b, h).active == b
    ensures Transition(Transition(m, a, h), b, h).trace
         == m.trace + [Exited(m.active), Entered(a), Exited(a), Entered(b)]
    ensures Transition(Transition(m, a, h), b, h).ctx == h.enter(b, h.exit(a, h.enter(a, h.exit(m.active, m.ctx))))
  {
  }

  /**
    Leaving a state whose exit hook is inert (the base class's placeholder
    state) only runs the entry of the target on the unchanged actor.
   */
  lemma LeavingInertState<S, C>(m: Machine<S, C>, next: S, h: Hooks<S, C>)
    requires h.exit(m.active, m.ctx) == m.ctx
    ensures Transition(m, next, h).ctx == h.enter(next, m.ctx)
  {
  }
}

=== FILE: time_manager.dfy ===
/**
  The time-zone manager (Assets/Scripts/Old/Old_TimeManager.cs).

  The manager maps the player's horizontal position inside a zone bounded by
  a left and a right point to a time scale: 0 at the left bound, 1 at the
  right bound, linear in between (and beyond).  Its `Update` is empty, so
  the scale is only ever recomputed by a caller of `UpdateTimeScale`; none
  exists, and `GetTimeScale` returns the stored value, initially 0.
 */
module TimeManager {
  import opened Common

  /** The manager's fields; `player` is the tracked player's position, if one was found. */
  datatype Manager = Manager(timeScale: real, zoneLeft: Vec2, zoneRight: Vec2, player: Option<Vec2>)

  /** The inspector defaults: scale 0, zone from (-1, 0) to (1, 0), no player yet. */
  const Default: Manager := Manager(0.0, Vec2(-1.0, 0.0), Vec2(1.0, 0.0), None)

  /** The start-up search's verdict: how many warnings it logs and whether a player is tracked. */
  datatype Found = Found(warnings: nat, player: Option<Vec2>)

  /**
    `Start`: warn when there is more than one manager; track the player only
    when exactly one exists, warning when there are several.
   */
  function Start(managers: nat, players: seq<Vec2>): (f: Found)
    ensures f.player.Some? <==> |players| == 1
    ensures f.player.Some? ==> f.player.value == players[0]
    ensures f.warnings == (if managers > 1 then 1 else 0) + (if |players| > 1 then 1 else 0)
  {
    var w1 := if managers > 1 then 1 else 0;
    if |players| == 0 then Found(w1, None)
    else if |players| > 1 then Found(w1 + 1, None)
    else Found(w1, Some(players[0]))
  }

  /** The scale outcome: a finite ratio, or `None` for the non-finite float result of a zero-width zone. */
  function Ratio(left: real, right: real, x: real): (r: Option<real>)
    ensures r.None? <==> right == left
    ensures r.Some? ==> left + r.value * (right - left) == x
  {
    if right == left then None else Some((x - left) / (right - left))
  }

  /**
    `UpdateTimeScale`: the player's offset from the left bound over the
    zone's width.  Without a tracked player it faults (`None`); with a zero
    width the stored scale is not a finite number (`Some(None)`).
   */
  function UpdateTimeScale(m: Manager): (r: Option<Option<Manager>>)
    ensures m.player.None? <==> r.None?
    ensures r.Some? && r.value.Some? ==>
      && r.value.value == m.(timeScale := r.value.value.timeScale)
      && m.zoneLeft.x + r.value.value.timeScale * (m.zoneRight.x - m.zoneLeft.x) == m.player.value.x
    ensures r.Some? ==> (r.value.None? <==> m.zoneRight.x == m.zoneLeft.x)
  {
    match m.player
    case None => None
    case Some(p) =>
      match Ratio(m.zoneLeft.x, m.zoneRight.x, p.x)
      case None => Some(None)
      case Some(scale) => Some(Some(m.(timeScale := scale)))
  }

  /** `GetTimeScale`: the stored value. */
  function GetTimeScale(m: Manager): (s: real)
    ensures m == Default ==> s == 0.0
  {
    m.timeScale
  }

  /** The scale is 0 at the left bound, 1 at the right bound, and increases with the player's x. */
  lemma RatioCalibration(left: real, right: real, x1: real, x2: real)
    requires left < right && x1 <= x2
    ensures Ratio(left, right, left) == Some(0.0)
    ensures Ratio(left, right, right) == Some(1.0)
    ensures Ratio(left, right, x1).value <= Ratio(left, right, x2).value
    ensures left <= x1 <= right ==> 0.0 <= Ratio(left, right, x1).value <= 1.0
  {
    var w := right - left;
    assert w / w == 1.0;
    assert (x1 - left) / w <= (x2 - left) / w by {
      assert (x2 - left) / w - (x1 - left) / w == (x2 - x1) / w;
    }
    if left <= x1 <= right {
      assert (x1 - left) / w <= w / w;
    }
  }

  /** With the default zone the scale is the player's x shifted and halved. */
  lemma DefaultZone(p: Vec2)
    ensures UpdateTimeScale(Default.(player := Some(p))) == Some(Some(Default.(player := Some(p), timeScale := (p.x + 1.0) / 2.0)))
  {
  }
}

=== FILE: trigger_damage.dfy ===
/**
  The short-lived damage trigger spawned by attacks (Assets/Scripts/TriggerDamage.cs).

  The trigger counts its lifetime down by the frame time and is destroyed
  once the lifetime drops below zero.  When a collider enters it, it deals
  its damage once for every triggering tag the collider carries.
 */
module TriggerDamage {
  import opened Common
  import EnemyBasic

  /** The trigger's state: the tags it reacts to, the time it has left and its damage. */
  datatype Trigger = Trigger(tags: seq<string>, lifetime: real, damage: EnemyBasic.Int32)

  /** `Init`: store the lifetime, the triggering tags and the damage. */
  function Init(time: real, triggeringTags: seq<string>, damage: EnemyBasic.Int32): (t: Trigger)
    ensures t.tags == triggeringTags && t.lifetime == time && t.damage == damage
  {
    Trigger(triggeringTags, time, damage)
  }

  /** One frame of `UpdateLifetime`: the new trigger, or `None` once it destroys itself. */
  function Tick(t: Trigger, dt: real): (r: Option<Trigger>)
    ensures r.Some? <==> t.lifetime - dt >= 0.0
    ensures r.Some? ==> r.value == t.(lifetime := t.lifetime - dt)
  {
    var left := t.lifetime - dt;
    if left < 0.0 then None else Some(t.(lifetime := left))
  }

  /** Frames in sequence; `None` once some frame destroyed the trigger. */
  function Run(t: Trigger, dts: seq<real>): Option<Trigger>
    decreases |dts|
  {
    if |dts| == 0 then Some(t)
    else match Tick(t, dts[0])
      case None => None
      case Some(t1) => Run(t1, dts[1..])
  }

  function Sum(xs: seq<real>): real
    decreases |xs|
  {
    if |xs| == 0 then 0.0 else xs[0] + Sum(xs[1..])
  }

  /**
    With non-negative frame times the trigger is still alive after a
    non-empty run of frames exactly when their total does not exceed its
    lifetime, and then its lifetime has gone down by that total; nothing
    else changes.
   */
  lemma {:induction false} RunSurvivesIffWithinLifetime(t: Trigger, dts: seq<real>)
    requires forall i :: 0 <= i < |dts| ==> dts[i] >= 0.0
    ensures Run(t, dts).Some? <==> |dts| == 0 || Sum(dts) <= t.lifetime
    ensures Run(t, dts).Some? ==> Run(t, dts).value == t.(lifetime := t.lifetime - Sum(dts))
    decreases |dts|
  {
    if |dts| > 0 {
      assert forall i :: 0 <= i < |dts[1..]| ==> dts[1..][i] == dts[i + 1];
      SumNonNegative(dts[1..]);
      assert Sum(dts) == dts[0] + Sum(dts[1..]);
      if t.lifetime - dts[0] < 0.0 {
        assert Run(t, dts).None?;
      } else {
        var t1 := t.(lifetime := t.lifetime - dts[0]);
        assert Run(t, dts) == Run(t1, dts[1..]);
        RunSurvivesIffWithinLifetime(t1, dts[1..]);
      }
    }
  }

  lemma {:induction false} SumNonNegative(xs: seq<real>)
    requires forall i :: 0 <= i < |xs| ==> xs[i] >= 0.0
    ensures Sum(xs) >= 0.0
    decreases |xs|
  {
    if |xs| > 0 {
      SumNonNegative(xs[1..]);
    }
  }

  /** How many of the trigger's tags the entering collider carries. */
  function Matches(tags: seq<string>, colliderTag: string): (n: nat)
    ensures n <= |tags|
    ensures n == 0 <==> colliderTag !in tags
    decreases |tags|
  {
    if |tags| == 0 then 0
    else (if tags[0] == colliderTag then 1 else 0) + Matches(tags[1..], colliderTag)
  }

  /** The result of a collider entering: the struck enemy, or a fault when the collider has no damageable component. */
  datatype Contact = Untouched | Struck(hit: EnemyBasic.Hit) | NoDamageable

  /**
    `OnTriggerEnter2D` against a collider with tag `colliderTag` whose
    damageable component (an `EnemyBasic`) is `target`: one hit of the
    trigger's damage per matching tag; a matching collider without the
    component faults on the first hit.
   */
  function Enter(t: Trigger, colliderTag: string, target: Option<EnemyBasic.Stats>): (r: Contact)
    ensures colliderTag !in t.tags <==> r == Untouched
    ensures colliderTag in t.tags && target.None? <==> r == NoDamageable
    ensures r.Struck? ==> r.hit == EnemyBasic.Hits(target.value, t.damage, Matches(t.tags, colliderTag))
  {
    var n := Matches(t.tags, colliderTag);
    if n == 0 then Untouched
    else if target.None? then NoDamageable
    else Struck(EnemyBasic.Hits(target.value, t.damage, n))
  }

  /**
    A trigger listing one tag strikes a collider carrying it exactly once,
    and that strike is the enemy's own damage rule as written whenever the
    subtraction does not overflow.
   */
  lemma SingleTagStrikesOnce(t: Trigger, s: EnemyBasic.Stats)
    requires t.tags == ["Enemy"]
    ensures Enter(t, "Enemy", Some(s)) == Struck(EnemyBasic.TakeDamage(s, t.damage))
    ensures EnemyBasic.Int32Min <= s.health - t.damage <= EnemyBasic.Int32Max ==>
      Enter(t, "Enemy", Some(s)) == Struck(EnemyBasic.TakeDamageAsWritten(s, t.damage))
    ensures forall tag :: tag != "Enemy" ==> Enter(t, tag, Some(s)) == Untouched
  {
    assert Matches(t.tags, "Enemy") == 1 by {
      assert t.tags[1..] == [];
    }
    if EnemyBasic.Int32Min <= s.health - t.damage <= EnemyBasic.Int32Max {
      EnemyBasic.AgreesWithoutOverflow(s, t.damage);
    }
  }
}
